=== FILE: README.md ===
# Ride-sharing platform: bookings, seats and safety, modelled in Dafny

This project models the core of a ride-sharing web platform. Drivers offer
rides with a number of seats. Passengers book seats, and the server keeps each
ride's free-seat count and its status ("pending", "full", "in_progress", ...)
in step with the bookings. The server also:

- starts rides and messages their passengers;
- lists a user's active rides;
- recommends rides and computes user statistics;
- raises safety alerts and keeps one emergency contact per user.

The browser side holds small reducers: the ride card's flags, badge and button,
the live-tracking state, the notification list, the chat window, and the
contact merge of the messages page.

Everything is written as pure functions over immutable values:

- The repository is a `Repo` value with one sequence per table and one serial
  counter per table.
- Each HTTP handler is a total function. It maps the repository before the
  request to the response, the repository after it, and the WebSocket frames it
  pushed.
- The clock is an explicit `now` in milliseconds. Randomly drawn keys are an
  explicit `freshId`.
- Formatting helpers the code calls but does not define are function
  parameters: `toDateString`, `date-fns` `format`, `generateDefaultAvatar`, and
  `JSON.stringify` of a response body.

Modules, by file:

- `common.dfy`: options, results, `filter`, sums, first-match lookup,
  `slice`, JavaScript `trim`, decimal rendering.
- `ordering.dfy`: `ORDER BY ... DESC` as a sort that keeps the stored order
  of equal keys.
- `schema.dfy`: entities, status words, column defaults, request-body schemas.
- `storage.dfy`: repository operations.
- `events.dfy`: WebSocket fan-out and the subscribe handler.
- `safety.dfy`: the safety service.
- `routes.dfy`: creating, booking and starting rides.
- `queries.dfy`: active rides, recommendations, statistics.
- `alert_routes.dfy`: raising an alert.
- `contact_routes.dfy`: the second trusted-contact handler.
- `ridecard.dfy`, `tracking.dfy`, `notifications.dfy`, `client_messages.dfy`,
  `chat.dfy`, `contacts_list.dfy`: the client components.
- `logline.dfy`: the request log line.

Several routes are registered twice in `server/routes.ts`. Express dispatches
to the first registration, and every first handler always answers, so the
second ones never run. The model follows this:

- `POST /api/safety/alerts` is modelled from the first handler (line 246).
- `POST /api/safety/contacts` is modelled from the SECOND handler (line 854),
  as `ContactRoutes.PostTrustedContact`. The emergency-contact demotion exists
  only there. The model is labelled as the unreachable variant.

## Model

| member | source | states |
|---|---|---|
| Storage.GetUser | server/storage.ts:105-108 | a found user is a stored row with that key; nothing is found exactly when no row has the key |
| Storage.GetRide | server/storage.ts:371-375 | a found ride is a stored row with that key; nothing is found exactly when no row has the key |
| Storage.UpdateRideSeats | server/storage.ts:389-416 | the behaviour of `updateRideSeats`: see below |
| Storage.UpdateRideSeatsLeavesOtherRides | server/storage.ts:409-414 | after a seat update, looking up any other ride gives what it gave before |
| Storage.UpdateRideSeatsKeepsFullIffNoSeats | server/storage.ts:397-406 | if every ride with non-negative seats is "full" exactly when it has no seats, this still holds after any seat update, with any booked count |
| Storage.UpdateRideStatus | server/storage.ts:380-388 | only the status of the addressed rows becomes the new one; the returned ride is what a lookup then finds; nothing when the ride is missing |
| Storage.UpdateUserPoints | server/storage.ts:242-253 | the user's points become their previous points plus the delta, a missing value counting as 0; no other user changes; an unknown user changes nothing |
| Storage.UpdateUserPointsLeavesOtherUsers | server/storage.ts:242-253 | after a points update, looking up any other user gives what it gave before |
| Storage.CreateUserFindable | server/storage.ts:187-190 | while stored keys are below the serial counter, an inserted user (next key, 0 points as the column default, no emergency contact) is found under its new key, and every other user lookup is unchanged |
| Storage.CreateRideFindable | server/storage.ts:366-370 | while stored keys are below the serial counter, an inserted ride is found under its new key, and every other lookup is unchanged |
| Storage.UpdateBookingStatus | server/storage.ts:440-449 | a booking is returned iff one has the key, with the new status; only the status of the rows with that key changes |
| Storage.UpdateBookingStatusIdempotent | server/storage.ts:440-449 | setting the same status twice leaves the same repository as setting it once |
| Ordering.SortDescStable | server/storage.ts:437 | the database leaves the order of equal sort keys open; the model fixes it: rows with equal keys keep their stored order |
| Storage.ListUserBookings | server/storage.ts:432-439 | exactly the user's bookings, each as often as stored, newest first |
| Storage.ListRideBookings | server/storage.ts:794-799 | exactly the ride's bookings, each as often as stored (the query has no ORDER BY; the model lists them in stored order) |
| Storage.ListRides | server/storage.ts:376-379 | every stored ride, each as often as stored, newest first |
| Storage.ListUserDrivingRides | server/storage.ts:781-792 | exactly the rides the user drives whose status is "pending" or "in_progress", latest departure first |
| Storage.DrivingRidesNeverCompleted | server/storage.ts:781-792 | the driving-ride list never holds a completed ride |
| Storage.ListUserMessages | server/storage.ts:469-481 | exactly the messages the user sent or received, each as often as stored, newest first |
| Storage.MarkMessageAsRead | server/storage.ts:482-490 | a message is returned iff one has the key, now read; only `isRead` of the rows with that key changes |
| Storage.MarkMessageAsReadIdempotent | server/storage.ts:482-490 | marking a message read twice leaves the same repository as marking it once |
| Storage.GetUnreadMessageCount | server/storage.ts:491-503 | the count is the decimal text of the number of stored messages addressed to the user and not yet read (the bigint `count(*)` arrives as text); it is "0" exactly when there is none, and never empty, so the fallback to 0 never applies |
| Storage.MarkMessageAsReadUnreadCount | server/storage.ts:482-503 | with unique message keys, marking a stored message read lowers the user's unread count by one if that message was unread and addressed to them, and leaves it unchanged otherwise |
| Storage.ListUserRewards | server/storage.ts:455-463 | exactly the user's rewards, newest first |
| Storage.ListUserTrustedContacts | server/storage.ts:750-765 | exactly the user's contacts, each as often as stored (the code returns a fixed mock list; the model reads the table that list stands for) |
| Storage.SetContactEmergency | server/storage.ts:727-748 | only the emergency flag of the contact rows with that key changes (the code only logs the update; the model performs it) |
| Schema.RideInputIssue | shared/schema.ts:276-287 | no issue iff: origin and destination have 1 to 100 characters, departure is in the future, seats are a whole number from 1 to 8, and the price is a non-negative whole number of cents; otherwise the schema's message for the first failed rule |
| Schema.ContactInputIssue | shared/schema.ts:221-225 | no issue iff the name is non-empty, the phone has at least 10 characters, any email is well formed, and the relationship is non-empty |
| Schema.ZoneInputIssue | shared/schema.ts:239-243 | no issue iff the name is non-empty, both coordinates are present, and the radius is a whole number of at least 10 metres |
| Schema.UserInputIssue | shared/schema.ts:257 | no issue iff the email is well formed and the password has at least 8 characters; a short password is reported first |
| Schema.ReviewInputIssue | shared/schema.ts:310 | no issue iff the rating lies between 1 and 5 |
| Events.SendWhere | server/routes.ts:180-188 | one delivery of the frame to each client passing the test, in client order, and to no other client |
| Events.SendWhereCounts | server/routes.ts:180-188 | with unique client keys, each client receives the frame exactly once if it passes the test, and never otherwise |
| Events.OnClientFrame | server/routes.ts:1068-1080 | a "subscribe" frame records its channel and user on the connection; any other frame leaves the connection as it was |
| Safety.AlertMessage | server/safetyServices.ts:172-187 | the text is the default one exactly when the type is not one of the five alert kinds |
| Safety.AlertMessagesDistinct | server/safetyServices.ts:172-187 | two different alert kinds never share a text |
| Safety.AcceptedAlertsHaveOwnText | shared/schema.ts:198-204 | the alert schema accepts a body exactly when the safety service has a text of its own for its type (not the default text), and accepted bodies of different types get different texts |
| Safety.CreateSafetyAlert | server/safetyServices.ts:51-80 | see below |
| Safety.ResolveSafetyAlert | server/safetyServices.ts:83-99 | the alert carries the given key and resolver, status "resolved" and the current time; no prior state is consulted |
| Safety.BroadcastSafetyAlert | server/safetyServices.ts:190-198 | every frame sent is the `safety_alert` frame of this alert |
| Safety.BroadcastReachesOpenClients | server/safetyServices.ts:190-198 | each open client receives the alert exactly once, and every other client receives nothing |
| Routes.OrNull | server/routes.ts:44-47 | an optional text is stored iff it is a non-empty string, and then unchanged |
| Routes.PostRide | server/routes.ts:22-71 | see below |
| Routes.PostRideKeepsSeatInvariant | server/routes.ts:22-71 | creating a ride keeps every ride "full" exactly when it has no seats, with no negative seat count |
| Routes.AlreadyBookedIff | server/routes.ts:121-124 | the duplicate-booking test over the caller's listed bookings holds iff the caller holds a non-cancelled booking of the ride |
| Routes.BookerName | server/routes.ts:166-167 | the name is the full name when set, else the username, else "A user"; never empty |
| Routes.PostBooking | server/routes.ts:80-200 | succeeds iff every admission condition holds and the seat counts fit their 32-bit columns; a refused request writes nothing and pushes nothing; an admitted one is handled as in Routes.Admit |
| Routes.PostBookingRequest | server/routes.ts:83-84 | a body the booking schema rejects gets 400 with the parse error's message, or "Invalid booking data" when that is empty; nothing is written or pushed; a parsed body is handled as above |
| Routes.BookingRequestOutcome | server/routes.ts:80-200 | a request succeeds iff its body parses, passes every admission check and its seat counts fit the 32-bit columns; a failure pushes nothing and changes no table but the bookings; it changes nothing at all unless an admitted request's seat count fits its column |
| Routes.Admit | server/routes.ts:139-199 | see below |
| Routes.CompleteBooking | server/routes.ts:139-189 | a booking whose seat counts fit carries `Reserve`'s booking, ride and reward and its writes, plus at most the driver's message; with a driver, one message from the booker to the driver is appended and one frame goes to each open connection; without one, no message and no frame |
| Routes.BookingSeatsOutOfRange | server/routes.ts:139-199 | an admitted request whose seat count the `seats` column cannot hold gets 400 with the database's range message for that count; nothing is written or pushed |
| Routes.BookingFreeSeatsOutOfRange | server/routes.ts:139-199 | an admitted request that would raise the ride's free seats past the `seats_available` column's maximum gets 400 with the database's range message for the new count; the booking row stays stored, nothing else is written and nothing is pushed |
| Routes.AdmitNotifiesDriver | server/routes.ts:169-189 | when the ride has a driver, one unread message under the next key goes from the booker to the driver, naming the booker, the seats and the route; its notification frame reaches each open connection exactly once and no other connection |
| Routes.ReserveKeepsBookerName | server/routes.ts:150-167 | the name in the notice is the booker's name as it was before the booking: the points update and the inserts do not change it |
| Routes.BookingRefusalOrder | server/routes.ts:86-136 | see below |
| Routes.BookingSuccessEffects | server/routes.ts:139-154 | an admitted booking whose seat counts fit the 32-bit columns adds one "confirmed" booking with payment "pending" for the requested seats, and takes exactly that many seats off the ride |
| Routes.BookingAwardsPoints | server/routes.ts:153-154 | an admitted booking that fits the 32-bit columns raises the booker's points by 10, a missing value counting as 0, and leaves the rest of the booker's row as it was |
| Routes.BookingRecordsReward | server/routes.ts:156-163 | an admitted booking that fits the 32-bit columns records one "booking" reward of 10 points, expiring thirty days later |
| Routes.BookingSeatsUnchecked | server/routes.ts:80-151 | a request for zero or negative seats that passes the other checks is admitted; it succeeds iff the ride's new seat count fits its 32-bit column, and the ride then has at least as many free seats as before; otherwise it gets 400 |
| Routes.BookingConservesSeats | server/routes.ts:139-151 | an admitted booking whose seat counts fit the 32-bit columns keeps constant the ride's free seats plus the seats of its non-cancelled bookings |
| Routes.PostBookingKeepsSeatInvariant | server/routes.ts:80-200 | every booking request keeps every ride "full" exactly when it has no seats, with no negative seat count |
| Routes.NotifyConfirmed | server/routes.ts:497-509 | one message per confirmed booking, in the order the bookings are listed, to that booking's passenger, with consecutive keys; nothing else changes |
| Routes.StartRide | server/routes.ts:473-529 | see below |
| Routes.StartRideRequest | server/routes.ts:476-528 | a path that parses to no number, or to one the `integer` key column cannot hold, gets 500 "Failed to start ride" and changes nothing; any other key is handled as in Routes.StartRide |
| Routes.StartRideUpdatesRide | server/routes.ts:494 | a started ride's rows become "in_progress" and are then found as returned; no other ride, booking or user row changes |
| Routes.StartRideNotifiesPassengers | server/routes.ts:497-510 | the messages grow by exactly one per confirmed booking of the ride, in the order the bookings are listed, each from the driver to that booking's passenger with the start notice; earlier messages stay as they were |
| Routes.StartRideReachesSignedIn | server/routes.ts:513-522 | with unique client keys, the status frame reaches each open connection that announced a user exactly once and no other connection |
| Routes.StartRideKeepsSeatInvariant | server/routes.ts:473-529 | with unique ride keys, starting a ride keeps every ride "full" exactly when it has no seats |
| RideQueries.LiveRidesOf | server/routes.ts:665-671 | each kept ride is the ride behind some booking and is pending or in progress; every such ride behind a booking is kept |
| RideQueries.ActiveRidesLiveDriverFirst | server/routes.ts:652-698 | every entry is pending or in progress; the caller's driven rides come first and only they are marked as driver entries |
| RideQueries.ActiveRidesSound | server/routes.ts:652-698 | a driver entry is a ride the caller drives; a passenger entry is the ride of one of the caller's confirmed or pending bookings |
| RideQueries.ActiveRidesComplete | server/routes.ts:652-698 | every live ride the caller drives, and every live ride behind their confirmed or pending bookings, is listed |
| RideQueries.TakenRides | server/routes.ts:922-932 | the rides behind the caller's bookings are stored rides; there are none iff no booked ride exists any more |
| RideQueries.AvailableRides | server/routes.ts:939-944 | every candidate is someone else's pending ride departing later, without a non-cancelled booking by the caller; keys stay unique |
| RideQueries.Fill | server/routes.ts:977-991 | the top-up keeps the earlier picks in front, adds only matching pool rides, stops at five, and repeats no key |
| RideQueries.PreferenceKeys | server/routes.ts:949-958 | an origin (destination) is counted iff some taken ride has it and it is not "__proto__", whose assignment goes to the prototype setter and creates no key |
| RideQueries.PreferenceMatches | server/routes.ts:948-992 | matches are available rides; more than five are returned only when each matches a taken origin and a taken destination |
| RideQueries.RecentRides | server/routes.ts:995-1002 | the final top-up is latest-departure first, drawn from available rides not already picked, and stops at five |
| RideQueries.RecentRidesComplete | server/routes.ts:995-1002 | a top-up that stops short of five took every available ride not already picked |
| RideQueries.TopUpFrom | server/routes.ts:995-1002 | picks drawn from the available rides stay so after the final top-up, which repeats no key when neither the picks nor the available rides do |
| RideQueries.RecommendedOfferable | server/routes.ts:915-1009 | every recommended ride is offerable to the caller, and no key is recommended twice |
| RideQueries.RecommendedAtMostFive | server/routes.ts:915-1009 | at most five rides unless every one matches both a taken origin and a taken destination |
| RideQueries.RecommendedExhaustsAvailable | server/routes.ts:915-1009 | fewer than five rides only when every offerable ride is recommended |
| RideQueries.RecommendedWithoutHistory | server/routes.ts:915-1009 | with no booked ride still stored, the result is the five offerable rides departing latest |
| RideQueries.UserStats | server/routes.ts:1011-1061 | see below |
| AlertRoutes.PostSafetyAlert | server/routes.ts:246-271 | see below |
| AlertRoutes.PostSafetyAlertReachesOpenClients | server/routes.ts:263-264 | an accepted alert reaches each open connection exactly once and no other connection |
| ContactRoutes.FirstEmergencyContact | server/routes.ts:868-869 | the found contact is the caller's and flagged as emergency; none is found iff the caller has no flagged contact |
| ContactRoutes.PostTrustedContact | server/routes.ts:854-898 | see below |
| ContactRoutes.ContactDemotion | server/routes.ts:866-875 | with unique contact keys, after an emergency request the previous emergency contact is no longer flagged and every other contact is unchanged |
| ContactRoutes.DemoteClearsCaller | server/routes.ts:866-875 | if the caller had at most one emergency contact, none is left flagged after demotion |
| ContactRoutes.PostTrustedContactKeepsInvariant | server/routes.ts:854-898 | with unique contact keys and at most one emergency contact per user, the handler keeps both |
| ContactRoutes.ValidContactHasRequiredFields | server/routes.ts:860-862 | a body that passes the trusted-contact schema also passes this handler's presence test |
| RideCardView.Flags | client/src/components/rides/ride-card.tsx:61-69 | full iff no seats or status "full"; available iff not "full" and seats remain; departed iff departure is past |
| RideCardView.AvailableIffNotFull | client/src/components/rides/ride-card.tsx:62-63 | with a non-negative seat count a ride is available iff it is not full; with a negative count it can be neither |
| RideCardView.StatusBadge | client/src/components/rides/ride-card.tsx:71-78 | the badge is the first of Full, Completed, Cancelled, Departed, Available whose condition holds, else none |
| RideCardView.BadgeShown | client/src/components/rides/ride-card.tsx:71-78 | a "full" ride always shows Full; Available is shown only for a pending, not full, not departed ride |
| RideCardView.BookClick | client/src/components/rides/ride-card.tsx:80-101 | fullness is reported before departure; the dialog opens with one seat exactly when neither applies, and is untouched otherwise |
| RideCardView.FooterButton | client/src/components/rides/ride-card.tsx:156-177 | the driver sees a disabled "Your Ride"; anyone else sees a button disabled iff the ride is unavailable, a booking is pending, or it is full, completed, cancelled or departed |
| RideCardView.FooterLabels | client/src/components/rides/ride-card.tsx:166-176 | with non-negative seats the caption is one of "Your Ride", "Booking...", "Book Now", "Fully Booked"; an enabled button opens the dialog when clicked |
| RideCardView.FooterLabelMeaning | client/src/components/rides/ride-card.tsx:166-176 | for anyone but the driver the caption is "Book Now" iff the ride is available, and "Fully Booked" iff it is full (the label can be neither, e.g. for a departed ride) |
| RideCardView.ClampSeats | client/src/components/rides/ride-card.tsx:202 | with at least one free seat the value lies between 1 and the free seats; an in-range entry is kept; a missing or too small entry gives 1; a too large entry gives the free seats |
| RideTracking.OnEvent | client/src/components/safety/RealTimeTracking.tsx:87-96 | absent details stay absent; a location update sets the location and progress, an ETA update the arrival time and duration, a status event the status; every other field keeps its value; an unknown kind changes nothing |
| RideTracking.OnEventIdempotent | client/src/components/safety/RealTimeTracking.tsx:87-96 | applying the same event twice is applying it once |
| RideTracking.OnEventLastWins | client/src/components/safety/RealTimeTracking.tsx:87-96 | of two events of the same kind, the later one decides |
| RideTracking.OnEventCommutes | client/src/components/safety/RealTimeTracking.tsx:87-96 | events of different kinds can be applied in either order |
| RideTracking.EventIgnoresRide | client/src/components/safety/RealTimeTracking.tsx:87-96 | the event's ride key plays no part: an update for another ride is applied the same way |
| RideTracking.SubscribeFrame | client/src/components/safety/RealTimeTracking.tsx:78-85 | the open handler sends a "subscribe" frame with the user and a channel starting "ride_" |
| RideTracking.SubscribeRegisters | client/src/components/safety/RealTimeTracking.tsx:78-85 | after the server handles the subscribe frame, the connection is an open, signed-in client on the ride's channel |
| RideTracking.ControlsExclusive | client/src/components/safety/RealTimeTracking.tsx:305-311 | "Start Ride" and the emergency controls are never shown together; after an in-progress status event the emergency controls show |
| NotificationList.OnFrame | client/src/components/notifications/notification-list.tsx:54-62 | an accepted frame's message is put in front of an otherwise unchanged list; any other frame leaves the list as it was |
| NotificationList.OnFrameKeepsAddressee | client/src/components/notifications/notification-list.tsx:56-60 | a list holding only messages to the user keeps holding only such messages |
| NotificationList.MarkAsRead | client/src/components/notifications/notification-list.tsx:25-40 | on success only the entries with that key become read; length and order are kept; on failure nothing changes |
| NotificationList.MarkAsReadUnread | client/src/components/notifications/notification-list.tsx:30-32 | the unread entries after a successful mark are the unread entries before it, minus those with that key |
| NotificationList.MarkAsReadIdempotent | client/src/components/notifications/notification-list.tsx:30-32 | marking the same entry twice is marking it once |
| NotificationList.OnInitialMessages | client/src/components/notifications/notification-list.tsx:43-47 | fetched messages replace the list wholesale; a failed fetch keeps it |
| ClientMessages.GroupByDay | client/src/components/notifications/notification-list.tsx:72-81 | see below |
| ClientMessages.GroupBy | client/src/components/notifications/notification-list.tsx:72-81 | groups have distinct keys and come in the order their keys first appear, as `Object.entries` lists string keys; each group holds, in order, exactly the entries with its key and is never empty; a key has a group iff some entry has it |
| ClientMessages.GroupPlacement | client/src/components/notifications/notification-list.tsx:72-81 | an entry without a date is in no group; an entry with one is in exactly the group of its date |
| ChatWindow.FormatLastActive | client/src/components/chat/chat-window.tsx:337-356 | see below |
| ChatWindow.OnlineIsRecent | client/src/components/chat/chat-window.tsx:397 | a user shown online is captioned "Just now" or at most "4m ago" |
| ChatWindow.SendMessage | client/src/components/chat/chat-window.tsx:228-247 | see below |
| ChatWindow.MockSourceFor | client/src/components/chat/chat-window.tsx:191-195 | a selected booking uses the booking messages; otherwise partner 2 uses the chat messages; anything else uses none |
| ContactsList.AddSavedIsFresh | src/components/Messages/ContactsList.jsx:32-35 | the merge is the booking contacts followed by the saved contacts whose key is not already present, in saved order |
| ContactsList.WithAvatar | src/components/Messages/ContactsList.jsx:38-41 | a truthy avatar is kept, a missing one becomes the generated default; no other field changes |
| ContactsList.MergeAndDeduplicate | src/components/Messages/ContactsList.jsx:28-42 | see below |
| RequestLog.Truncate | server/index.ts:34-36 | at most 80 characters; a short line is unchanged; a long one keeps its first 79 characters and ends in "…" |
| RequestLog.TruncateIdempotent | server/index.ts:34-36 | truncating twice is truncating once |
| RequestLog.FullLine | server/index.ts:29-32 | the line starts with the method and path; it ends in "ms" or, when a body was captured, in " :: " and the body's JSON |
| RequestLog.FullLineLayout | server/index.ts:29-32 | the line is method, path, status and "in" duration "ms", separated by single spaces; a captured body adds " :: " and its JSON after that and nothing else |
| RequestLog.LogLine | server/index.ts:26-40 | a line is logged iff the path starts with "/api", and it never exceeds 80 characters |
| RequestLog.LogLineContent | server/index.ts:26-40 | the logged line is the full line truncated to 80 characters |

Details for the rows marked "see below":

**Storage.UpdateRideSeats.** An unknown ride fails with "Ride not found" and
changes nothing. For a known ride:

- if the old count minus the booked seats exceeds 2147483647, the largest
  value of the 32-bit `seats_available` column, the update fails with
  PostgreSQL's range message and changes nothing;
- otherwise the new seat count is the old count minus the booked seats,
  floored at 0;
- with 0 seats the status becomes "full", whatever it was;
- a "full" ride that has seats again becomes "pending";
- otherwise the status is unchanged;
- only the seats and status of that ride's rows change.

**Safety.CreateSafetyAlert.**

- It succeeds iff the ride exists. The result is the alert with its new key.
- Emergency services are notified iff the alert type is "emergency". This
  happens before the ride lookup, so it also happens when the call then fails
  with "Ride not found".
- On success the reporter's trusted contacts are notified last.
- A reporter who is not the driver sends the driver one message: the warning
  prefix followed by the alert-type text. Otherwise nothing is written.

**Routes.PostRide.** The request is refused with 400 iff the body fails the
ride schema. The refusal carries the schema's message for the first failed
rule and changes nothing. A created ride:

- is "pending", with the caller as driver;
- carries the requested route, departure, seats and price;
- stores each of the four car fields iff it is a non-empty string;
- gets the next key and is appended to the ride table;
- produces one notice to its driver, unless its key is 0.

Only the ride and message tables and their counters change.

**Routes.Admit.** The handler never range-checks the seat count, so the
database's 32-bit columns decide:

- a seat count outside the `seats` column fails the insert: 400 with the
  range message, nothing written;
- a new free-seat count above the `seats_available` column's maximum fails
  the seat update after the booking row was stored: 400 with the range
  message, and the row stays;
- otherwise the booking does its bookkeeping in the handler's order. When
  the ride has a driver, the driver also gets one message from the booker,
  and the notice goes to every open connection.

**Routes.BookingRefusalOrder.** Each refusal names the earliest check the
request fails, in this order:

1. missing ride (404);
2. departed;
3. cancelled;
4. full or no seats;
5. own ride;
6. already booked;
7. too few seats.

**Routes.StartRide.** The outcomes are:

- 404 for a missing ride;
- 403 for anyone but its driver;
- 400 unless the status is exactly "pending", so a full ride cannot start;
- otherwise the answer is the ride with status "in_progress", and every frame
  sent is the `ride_status` frame. The writes are stated by
  Routes.StartRideUpdatesRide and Routes.StartRideNotifiesPassengers, and the
  frame's audience by Routes.StartRideReachesSignedIn.

**RideQueries.UserStats.** The statistics satisfy:

- total rides = passenger rides + driver rides;
- distance = 12 × passenger rides + 15 × driver rides;
- driver rides are always 0;
- passenger rides count the caller's completed bookings;
- reward points sum the caller's rewards.

**AlertRoutes.PostSafetyAlert.**

- It succeeds iff the alert type is valid and the ride exists.
- A rejected body gets 400 with the schema's message before any side effect.
- A missing ride gets 400 "Ride not found". An emergency has already been
  passed on by then.
- An accepted alert carries the new key, the caller, "active" (the column
  default), the request time and type. It goes to every open connection.

**ContactRoutes.PostTrustedContact.** A missing name, phone or relationship
gives 400 and no write. Otherwise:

1. an emergency request demotes the caller's first emergency contact;
2. the contact is stored under the next key;
3. for an emergency request, the caller's `emergencyContactId` is set to it;
4. no other table changes.

**ClientMessages.GroupByDay.** The notification list's `groupedNotifications`
and the chat window's `groupedMessages`
(client/src/components/chat/chat-window.tsx:325-334) are the same reduce, so
one member models both. Entries are grouped under their `toDateString` date. Undated
entries are dropped, every dated entry lands in exactly one group, and the
order within each group is kept. Groups come in the order their dates first
appear: `Object.entries` lists string keys in insertion order, and a date
string is never an array index.

**ChatWindow.FormatLastActive.** The caption is:

- "Offline" with no timestamp;
- "Just now" under a minute;
- "Nm ago" for the whole minutes N from 1 to 59;
- "Nh ago" for the whole hours N from 1 to 23;
- the formatted date after that.

**ChatWindow.SendMessage.** Sending does nothing iff the draft is only white
space or there is no user. Otherwise it appends exactly one message at the
end, which:

- has the trimmed text;
- comes from the user, to the selected partner (or 0);
- carries the selected booking, is unread and is stamped now.

The draft is then cleared.

**ContactsList.MergeAndDeduplicate.** The merged list:

- starts with every booking contact, in order, with its avatar filled in;
- then appends only saved contacts, none repeating an earlier key;
- has a length between the booking count and the booking count plus the saved
  count;
- covers exactly the keys of both lists.

## Left out

- Authentication: every "not signed in" answer (401) and the session, pool,
  ORM and migration plumbing are not modelled. The caller is a parameter.
- Concurrency: handlers run one at a time. The booking's separate insert and
  seat update are composed sequentially, and no atomicity is claimed.
- Database columns that may be NULL are non-null in the model (statuses, foreign
  keys, `createdAt`) wherever every modelled writer sets them. The storage
  layer's fallbacks for missing columns, which match database error texts, are
  not modelled.
- Time is whole milliseconds. A departure string that does not parse is a
  missing departure.
- String lengths count Dafny characters, while JavaScript counts UTF-16 code
  units. They differ only for characters outside the Basic Multilingual Plane.
- The WebSocket transport (connection lifecycle, reconnect timers, React
  effects) is not modelled. Connections are values with a ready state, and
  sending is a list of deliveries.
- Floating-point and random parts are not modelled:
  - live-location progress and ETA;
  - verification-code generation;
  - CO₂ saved and average rating in the statistics;
  - simulated coordinates;
  - price formatting on the ride card;
  - the chat window's random auto-reply.
- `POST /api/rides/:id/verify-code`, `POST /api/rides/:id/confirm-code`, the
  location and details endpoints, the zone endpoints, `GET` of alerts and
  contacts, and the first `POST /api/safety/contacts` are not modelled. They
  rest on stubs that return constants or random values (`verifyRideCode`,
  `addTrustedContact`, `getNearbyZones`, the mock alert and contact lists).
  The second registrations of these routes never run.
- Trusted contacts are a table with serial keys. In the code, the storage
  functions behind the second contacts handler are themselves mocks.
- The client posts alerts to `/api/safety/alert`, a path the server never
  registers. This is not modelled.
- Schema.RideInputIssue: the body is assumed to be well-typed, with every
  required field present. A missing or mistyped field gets zod's "Required"
  or "Expected string, received number" in the source, and cannot be
  expressed with the model's typed `RideInput`.
- Schema.ContactInputIssue: the schema reports every issue it finds. The model
  names the first one, in field order, which is what the ride handler shows
  for rides.
- Schema.ZoneInputIssue: as above, only the first issue is named.
- Schema.UserInputIssue: as above, only the first issue is named.
- Schema.ReviewInputIssue: as above, only the first issue is named.
- Routes.NotifyConfirmed: `listRideBookings` has no ORDER BY, so the database
  may list a ride's bookings in any order. The model lists them in stored
  order, and the messages follow that order.
- Routes.StartRideNotifiesPassengers: as above, the message order is the
  stored order of the bookings, which the code does not fix.
- Routes.StartRideRequest: `parseInt`'s prefix parsing of the path is a
  parameter (`parsedId`). Only its outcome is modelled: a number, or none.
- Events.OnClientFrame: a frame's `userId` is any JSON value in the code. The
  model takes a number or nothing; strings, objects and other truthy values
  are not modelled.
- Routes.BookingSeatsOutOfRange: the booking schema takes `seats` from the
  `integer("seats")` column (shared/schema.ts:50, 290) with no refinement, so
  its rule is whatever the installed drizzle-zod generates, and no version is
  pinned. The model assumes the generator that makes it a plain number, so an
  out-of-range count reaches the database and gets PostgreSQL's range
  message. A newer generator bounds it to a 32-bit integer, and then zod
  rejects such a count with its own 400 before anything is written; that
  case is the `parsed` parameter's rejection, and this lemma's message is not
  reached. The model's range message writes every number in full, where
  JavaScript switches to exponent notation from 1e21.
- Routes.PostBookingRequest: fractional seat counts are not modelled. Under
  the plain-number rule, 1.5 seats passes the parse and the admission checks
  and fails at the insert with PostgreSQL's "invalid input syntax for type
  integer" (a 400). The model's seats are integers.
- The 32-bit range of other integer columns is not modelled: points, message
  and booking keys would need about 2^31 writes to overflow. Lookups by a key
  outside the range find nothing in the model, where the database would
  raise an error; Routes.StartRideRequest is the exception.
- Routes.PostBookingRequest: the booking schema's parse is a parameter
  (`parsed`). Its rules and error texts are not derived from the body.
- AlertRoutes.PostSafetyAlert: the schema's rejection text is a parameter. It
  is not derived from the body.
- Email syntax is the validator library's and is a parameter (`isEmail`).
- ChatWindow.FormatLastActive: the `try`/`catch` that answers "Unknown" for an
  unparsable date is not modelled. Timestamps are always numbers here.
- Tracking events with missing fields are not modelled. Every field a kind
  uses is assumed present.
- RequestLog.FullLine: the captured body is its `JSON.stringify` text, passed
  in. A captured body that is falsy is treated as absent.
- Presentation markup, icons, toasts' wording beyond their kind, and page
  layout are not modelled.

=== FILE: alert_routes.dfy ===
/** The first `POST /api/safety/alerts` handler: it validates the body,
    raises the alert through the safety service and broadcasts it to every
    open connection. */
module AlertRoutes {
  import opened Common
  import opened Schema
  import opened Storage
  import opened Events
  import opened Safety
  import opened Routes

  /** The handler's outcome, the state after it, the notifications that left
      the system, and the frames it pushed. */
  datatype AlertReply = AlertReply(result: Result<SafetyAlert, HttpError>, repo: Repo, calls: seq<ExternalCall>, sent: seq<Delivery>)

  /** The alert the handler hands to the service: the caller reports it, an
      absent ride is ride 0, absent or empty details become "", and it starts
      out "active". */
  function NewAlert(caller: Id, input: AlertInput, now: Instant): SafetyAlert {
    SafetyAlert(None, caller, input.rideId.GetOr(0), input.alertType,
                if Truthy(input.details) then input.details.value else "",
                input.latitude, input.longitude, now, ALERT_STATUS_DEFAULT, None, None)
  }

  /** Raises an alert. A body the schema rejects is answered with 400 and
      the schema's error text (`issueText`) before anything happens; an alert
      on a missing ride is answered with 400 "Ride not found" after an
      emergency has already reached emergency services; otherwise the alert
      gets its key and goes to every open client. */
  function PostSafetyAlert(repo: Repo, caller: Id, input: AlertInput, issueText: string, freshId: Id,
                           now: Instant, clients: seq<Client>): (r: AlertReply)
    ensures r.result.Ok? <==> ValidAlertInput(input) && GetRide(repo, input.rideId.GetOr(0)).Some?
    ensures !ValidAlertInput(input) ==> r.result == Err(HttpError(400, issueText)) && r.calls == []
    ensures r.result.Err? ==> r.repo == repo && r.sent == []
    ensures ValidAlertInput(input) && GetRide(repo, input.rideId.GetOr(0)).None? ==>
      && r.result == Err(HttpError(400, RIDE_NOT_FOUND))
      && (input.alertType == EMERGENCY <==> r.calls != [])
    ensures r.result.Ok? ==>
      var alert := r.result.value;
      && alert.id == Some(freshId) && alert.userId == caller && alert.rideId == input.rideId.GetOr(0)
      && alert.alertType == input.alertType && alert.timestamp == now && alert.status == ALERT_STATUS_DEFAULT
      && (input.alertType == EMERGENCY <==> (|r.calls| > 0 && r.calls[0].EmergencyServicesNotified?))
      && |r.sent| == |Filter(IsOpen, clients)|
      && forall i :: 0 <= i < |r.sent| ==> r.sent[i].frame == SafetyAlertFrame(alert)
  {
    if !ValidAlertInput(input) then AlertReply(Err(HttpError(400, issueText)), repo, [], [])
    else
      var out := CreateSafetyAlert(repo, NewAlert(caller, input, now), freshId, now);
      match out.result
      case Err(e) => AlertReply(Err(HttpError(400, e)), out.repo, out.calls, [])
      case Ok(alert) => AlertReply(Ok(alert), out.repo, out.calls, BroadcastSafetyAlert(clients, alert))
  }

  /** An accepted alert reaches each open connection exactly once and no
      other connection. */
  lemma PostSafetyAlertReachesOpenClients(repo: Repo, caller: Id, input: AlertInput, issueText: string,
                                          freshId: Id, now: Instant, clients: seq<Client>)
    requires UniqueKeys(clients)
    ensures var r := PostSafetyAlert(repo, caller, input, issueText, freshId, now, clients);
      r.result.Ok? ==> forall c :: c in clients ==>
        DeliveriesTo(r.sent, c.key) == (if c.readyState == Open then 1 else 0)
  {
    var r := PostSafetyAlert(repo, caller, input, issueText, freshId, now, clients);
    if r.result.Ok? {
      BroadcastReachesOpenClients(clients, r.result.value);
    }
  }
}

=== FILE: chat.dfy ===
/** The chat window's pure parts: the "last active" caption, the online
    dot, sending a message into the local list, which mock conversation a
    selection shows, and the day grouping. */
module ChatWindow {
  import opened Common
  import opened Schema
  import opened ClientMessages

  const MINUTE_MS := 60_000
  const HOUR_MS := 3_600_000
  const DAY_MS := 86_400_000
  /** The online window: five minutes. */
  const ONLINE_MS := 300_000

  /** `Math.floor(d / q)` brackets `d` between consecutive multiples of `q`. */
  lemma FloorDivBounds(d: int, q: int)
    requires q > 0
    ensures (d / q) * q <= d < (d / q + 1) * q
  {
  }

  /** `formatLastActive`, with date-fns `format(d, 'MMM d')` as `formatDate`.
      Whole minutes and hours are rounded down (`Math.floor`). */
  function FormatLastActive(lastActive: Option<Instant>, now: Instant, formatDate: Instant -> string): (r: string)
    ensures lastActive.None? ==> r == "Offline"
    ensures lastActive.Some? && now - lastActive.value < MINUTE_MS ==> r == "Just now"
    ensures lastActive.Some? && MINUTE_MS <= now - lastActive.value < HOUR_MS ==>
      exists m :: 1 <= m < 60 && m * MINUTE_MS <= now - lastActive.value < (m + 1) * MINUTE_MS
                  && r == NatToString(m) + "m ago"
    ensures lastActive.Some? && HOUR_MS <= now - lastActive.value < DAY_MS ==>
      exists h :: 1 <= h < 24 && h * HOUR_MS <= now - lastActive.value < (h + 1) * HOUR_MS
                  && r == NatToString(h) + "h ago"
    ensures lastActive.Some? && now - lastActive.value >= DAY_MS ==> r == formatDate(lastActive.value)
  {
    match lastActive
    case None => "Offline"
    case Some(t) =>
      var minutes := (now - t) / MINUTE_MS;
      FloorDivBounds(now - t, MINUTE_MS);
      if minutes < 1 then "Just now"
      else if minutes < 60 then NatToString(minutes) + "m ago"
      else
        var hours := minutes / 60;
        FloorDivBounds(minutes, 60);
        assert hours * HOUR_MS <= now - t < (hours + 1) * HOUR_MS;
        if hours < 24 then NatToString(hours) + "h ago"
        else formatDate(t)
  }

  /** The green dot: last seen less than five minutes ago. */
  predicate IsOnline(lastActive: Option<Instant>, now: Instant) {
    lastActive.Some? && lastActive.value > now - ONLINE_MS
  }

  /** Someone shown as online would be captioned "Just now" or at most
      four minutes ago. */
  lemma OnlineIsRecent(lastActive: Option<Instant>, now: Instant, formatDate: Instant -> string)
    requires IsOnline(lastActive, now)
    ensures var caption := FormatLastActive(lastActive, now, formatDate);
      caption == "Just now" || exists m :: 1 <= m <= 4 && caption == NatToString(m) + "m ago"
  {
    var caption := FormatLastActive(lastActive, now, formatDate);
    if now - lastActive.value >= MINUTE_MS {
      var m :| 1 <= m < 60 && m * MINUTE_MS <= now - lastActive.value < (m + 1) * MINUTE_MS
               && caption == NatToString(m) + "m ago";
      assert 1 <= m <= 4 && caption == NatToString(m) + "m ago";
    }
  }

  /** The composer's state: the local message list and the draft. */
  datatype ChatState = ChatState(messages: seq<ClientMessage>, draft: string)

  /** `handleSendMessage`: unless the trimmed draft is empty or nobody is
      signed in, appends the trimmed text as an unread message from the
      user to the selected user (0 when none) and clears the draft. The
      message id, random in the client, is `freshId`. */
  function SendMessage(st: ChatState, user: Option<Id>, selectedUser: Option<Id>, selectedBooking: Option<Id>,
                       freshId: Id, now: Instant): (r: ChatState)
    ensures r == st <==> (forall i :: 0 <= i < |st.draft| ==> IsJsSpace(st.draft[i])) || user.None?
    ensures r != st ==>
      && r.draft == ""
      && |r.messages| == |st.messages| + 1 && r.messages[..|st.messages|] == st.messages
      && var m := r.messages[|st.messages|];
         && m.content == Trim(st.draft) && m.content != ""
         && !IsJsSpace(m.content[0]) && !IsJsSpace(m.content[|m.content| - 1])
         && m.senderId == user.value && m.receiverId == selectedUser.GetOr(0)
         && m.bookingId == selectedBooking && !m.isRead && m.createdAt == Some(now) && m.id == freshId
  {
    TrimEmptyIffAllSpace(st.draft);
    if Trim(st.draft) == "" || user.None? then st
    else
      var m := ClientMessage(freshId, user.value, selectedUser.GetOr(0), Trim(st.draft), None, selectedBooking,
                             false, Some(now));
      assert ChatState(st.messages + [m], "").messages != st.messages;
      ChatState(st.messages + [m], "")
  }

  /** Which canned conversation a selection loads. */
  datatype MockSource = BookingMessages | ChatMessages | NoMessages

  const MOCK_CHAT_PARTNER: Id := 2

  function MockSourceFor(bookingSelected: bool, selectedUser: Option<Id>): (r: MockSource)
    ensures r == BookingMessages <==> bookingSelected
    ensures r == ChatMessages <==> !bookingSelected && selectedUser == Some(MOCK_CHAT_PARTNER)
  {
    if bookingSelected then BookingMessages
    else if selectedUser == Some(MOCK_CHAT_PARTNER) then ChatMessages
    else NoMessages
  }
}

=== FILE: client_messages.dfy ===
/** The message records the web client keeps in component state, and the
    `reduce` both message views use to bucket them by calendar day. */
module ClientMessages {
  import opened Common
  import opened Schema

  /** A message as the client holds it: the server's row, or a locally
      made one, where `createdAt` may be missing. */
  datatype ClientMessage = ClientMessage(
    id: Id,
    senderId: Id,
    receiverId: Id,
    content: string,
    rideId: Option<Id>,
    bookingId: Option<Id>,
    isRead: bool,
    createdAt: Option<Instant>)

  /** One entry of the `Record<string, T[]>` the reduce builds. */
  datatype Group<T> = Group(key: string, items: seq<T>)

  predicate DistinctKeys<T>(gs: seq<Group<T>>) {
    forall i, j :: 0 <= i < j < |gs| ==> gs[i].key != gs[j].key
  }

  /** The test "this item belongs under key `k`". */
  function HasKey<T>(key: T -> Option<string>, k: string): T -> bool {
    (x: T) => key(x) == Some(k)
  }

  /** `groups[k] ??= []; groups[k].push(x)` on a record whose keys are distinct. */
  function AddTo<T>(gs: seq<Group<T>>, k: string, x: T): (r: seq<Group<T>>)
    requires DistinctKeys(gs)
    ensures DistinctKeys(r)
    ensures |r| == |gs| + 1 <==> forall i :: 0 <= i < |gs| ==> gs[i].key != k
    ensures |r| == |gs| || |r| == |gs| + 1
    ensures forall i :: 0 <= i < |gs| ==>
      r[i] == if gs[i].key == k then Group(k, gs[i].items + [x]) else gs[i]
    ensures |r| == |gs| + 1 ==> r[|gs|] == Group(k, [x])
  {
    match FirstIndex(gs, (g: Group<T>) => g.key == k)
    case None => gs + [Group(k, [x])]
    case Some(i) => gs[i := Group(k, gs[i].items + [x])]
  }

  /** `gs` buckets the keyed items of `s`: each group holds, in order, the
      items with its key, and there is a group exactly for each key in use. */
  ghost predicate GroupsOf<T>(gs: seq<Group<T>>, s: seq<T>, key: T -> Option<string>) {
    DistinctKeys(gs) && ItemsMatch(gs, s, key) && KeysMatch(gs, s, key)
  }

  /** Each group holds, in order, exactly the items with its key, and is not empty. */
  ghost predicate ItemsMatch<T>(gs: seq<Group<T>>, s: seq<T>, key: T -> Option<string>) {
    forall i :: 0 <= i < |gs| ==> gs[i].items == Filter(HasKey(key, gs[i].key), s) && gs[i].items != []
  }

  /** There is a group for a key exactly when some item has that key. */
  ghost predicate KeysMatch<T>(gs: seq<Group<T>>, s: seq<T>, key: T -> Option<string>) {
    forall k :: (exists i :: 0 <= i < |gs| && gs[i].key == k) <==> (exists j :: 0 <= j < |s| && key(s[j]) == Some(k))
  }

  /** `a` is a position, and it comes before `b` when `b` is one too. */
  predicate Precedes(a: Option<nat>, b: Option<nat>) {
    a.Some? && (b.None? || a.value < b.value)
  }

  /** The groups come in the order in which their keys first occur in `s`:
      the insertion order that `Object.entries` follows for keys that are not
      array indices (a `toDateString` date never is one). */
  ghost predicate InFirstUseOrder<T>(gs: seq<Group<T>>, s: seq<T>, key: T -> Option<string>) {
    forall i, j :: 0 <= i < j < |gs| ==>
      Precedes(FirstIndex(s, HasKey(key, gs[i].key)), FirstIndex(s, HasKey(key, gs[j].key)))
  }

  /** The reduce over the list: items whose key is absent are skipped; the
      others are pushed onto the group of their key, groups in order of
      first appearance. */
  function GroupBy<T>(s: seq<T>, key: T -> Option<string>): (r: seq<Group<T>>)
    ensures GroupsOf(r, s, key)
    ensures InFirstUseOrder(r, s, key)
    decreases |s|
  {
    if |s| == 0 then []
    else
      var init := s[..|s| - 1];
      var x := s[|s| - 1];
      var prior := GroupBy(init, key);
      GroupStep(prior, init, x, key);
      OrderStep(prior, init, x, key);
      assert s == init + [x];
      Push(prior, x, key)
  }

  /** One step of the reduce. */
  function Push<T>(gs: seq<Group<T>>, x: T, key: T -> Option<string>): seq<Group<T>>
    requires DistinctKeys(gs)
  {
    match key(x)
    case None => gs
    case Some(k) => AddTo(gs, k, x)
  }

  lemma GroupStep<T>(gs: seq<Group<T>>, s: seq<T>, x: T, key: T -> Option<string>)
    requires GroupsOf(gs, s, key)
    ensures GroupsOf(Push(gs, x, key), s + [x], key)
  {
    if key(x).None? {
      SkipStep(gs, s, x, key);
    } else {
      AddStep(gs, s, x, key, key(x).value);
    }
  }

  /** A push keeps the groups in first-use order: earlier keys keep their
      first positions, and a new key first occurs at the pushed item. */
  lemma OrderStep<T>(gs: seq<Group<T>>, s: seq<T>, x: T, key: T -> Option<string>)
    requires GroupsOf(gs, s, key) && InFirstUseOrder(gs, s, key)
    ensures InFirstUseOrder(Push(gs, x, key), s + [x], key)
  {
    var r := Push(gs, x, key);
    var t := s + [x];
    assert |r| == |gs| || |r| == |gs| + 1;
    forall i | 0 <= i < |gs|
      ensures r[i].key == gs[i].key
      ensures FirstIndex(t, HasKey(key, gs[i].key)) == FirstIndex(s, HasKey(key, gs[i].key))
      ensures FirstIndex(s, HasKey(key, gs[i].key)).Some?
    {
      KeptFirstUse(gs, s, x, key, i);
    }
    if |r| == |gs| + 1 {
      NewFirstUse(gs, s, x, key);
    }
    forall i, j | 0 <= i < j < |r|
      ensures Precedes(FirstIndex(t, HasKey(key, r[i].key)), FirstIndex(t, HasKey(key, r[j].key)))
    {
      if j < |gs| {
        assert Precedes(FirstIndex(s, HasKey(key, gs[i].key)), FirstIndex(s, HasKey(key, gs[j].key)));
      }
    }
  }

  /** A key that already has a group first occurs where it did before the push. */
  lemma KeptFirstUse<T>(gs: seq<Group<T>>, s: seq<T>, x: T, key: T -> Option<string>, i: nat)
    requires ItemsMatch(gs, s, key) && i < |gs|
    ensures FirstIndex(s, HasKey(key, gs[i].key)).Some?
    ensures FirstIndex(s + [x], HasKey(key, gs[i].key)) == FirstIndex(s, HasKey(key, gs[i].key))
  {
    var y := gs[i].items[0];
    assert y in Filter(HasKey(key, gs[i].key), s);
    var p :| 0 <= p < |s| && s[p] == y;
    FirstIndexAppend(s, x, HasKey(key, gs[i].key));
  }

  /** A push that opens a group opens it for a key first occurring at the
      pushed item, after every position in `s`. */
  lemma NewFirstUse<T>(gs: seq<Group<T>>, s: seq<T>, x: T, key: T -> Option<string>)
    requires GroupsOf(gs, s, key) && |Push(gs, x, key)| == |gs| + 1
    ensures key(x).Some? && Push(gs, x, key)[|gs|].key == key(x).value
    ensures FirstIndex(s + [x], HasKey(key, key(x).value)) == Some(|s|)
  {
    var k := key(x).value;
    assert forall j :: 0 <= j < |s| ==> key(s[j]) != Some(k);
    FirstIndexAppend(s, x, HasKey(key, k));
  }

  lemma AddStep<T>(gs: seq<Group<T>>, s: seq<T>, x: T, key: T -> Option<string>, k: string)
    requires GroupsOf(gs, s, key) && key(x) == Some(k)
    ensures GroupsOf(AddTo(gs, k, x), s + [x], key)
  {
    AddStepItems(gs, s, x, key, k);
    AddStepKeys(gs, s, x, key, k);
  }

  lemma SkipStep<T>(gs: seq<Group<T>>, s: seq<T>, x: T, key: T -> Option<string>)
    requires GroupsOf(gs, s, key) && key(x).None?
    ensures GroupsOf(gs, s + [x], key)
  {
    var t := s + [x];
    assert t[..|t| - 1] == s;
    forall k | exists j :: 0 <= j < |t| && key(t[j]) == Some(k)
      ensures exists j :: 0 <= j < |s| && key(s[j]) == Some(k)
    {
      var j :| 0 <= j < |t| && key(t[j]) == Some(k);
      assert t[j] == s[j];
    }
    forall k | exists j :: 0 <= j < |s| && key(s[j]) == Some(k)
      ensures exists j :: 0 <= j < |t| && key(t[j]) == Some(k)
    {
      var j :| 0 <= j < |s| && key(s[j]) == Some(k);
      assert t[j] == s[j];
    }
  }

  lemma AddStepItems<T>(gs: seq<Group<T>>, s: seq<T>, x: T, key: T -> Option<string>, k: string)
    requires GroupsOf(gs, s, key) && key(x) == Some(k)
    ensures ItemsMatch(AddTo(gs, k, x), s + [x], key)
  {
    var t := s + [x];
    assert t[..|t| - 1] == s;
    var r := AddTo(gs, k, x);
    if |r| == |gs| + 1 {
      assert !(exists i :: 0 <= i < |gs| && gs[i].key == k);
      forall j | 0 <= j < |s| ensures !HasKey(key, k)(s[j]) { }
      FilterNone(HasKey(key, k), s);
    }
  }

  lemma AddStepKeys<T>(gs: seq<Group<T>>, s: seq<T>, x: T, key: T -> Option<string>, k: string)
    requires DistinctKeys(gs) && KeysMatch(gs, s, key) && key(x) == Some(k)
    ensures KeysMatch(AddTo(gs, k, x), s + [x], key)
  {
    var t := s + [x];
    var r := AddTo(gs, k, x);
    forall k' | exists j :: 0 <= j < |t| && key(t[j]) == Some(k')
      ensures exists i :: 0 <= i < |r| && r[i].key == k'
    {
      var j :| 0 <= j < |t| && key(t[j]) == Some(k');
      if j < |s| {
        assert t[j] == s[j];
        var i :| 0 <= i < |gs| && gs[i].key == k';
        assert r[i].key == k';
      } else if |r| == |gs| {
        var i :| 0 <= i < |gs| && gs[i].key == k;
        assert r[i].key == k';
      } else {
        assert r[|gs|].key == k';
      }
    }
    forall k' | exists i :: 0 <= i < |r| && r[i].key == k'
      ensures exists j :: 0 <= j < |t| && key(t[j]) == Some(k')
    {
      var i :| 0 <= i < |r| && r[i].key == k';
      if i < |gs| {
        assert gs[i].key == k';
        var j :| 0 <= j < |s| && key(s[j]) == Some(k');
        assert t[j] == s[j];
      } else {
        assert t[|s|] == x;
      }
    }
  }

  /** An item with no key is in no group; an item with a key is in exactly
      one group, the one of its key. */
  lemma GroupPlacement<T>(gs: seq<Group<T>>, s: seq<T>, key: T -> Option<string>, x: T)
    requires GroupsOf(gs, s, key) && x in s
    ensures key(x).None? ==> forall i :: 0 <= i < |gs| ==> x !in gs[i].items
    ensures key(x).Some? ==>
      exists i :: 0 <= i < |gs| && gs[i].key == key(x).value && x in gs[i].items
        && forall i' :: 0 <= i' < |gs| && x in gs[i'].items ==> i' == i
  {
    if key(x).Some? {
      var j :| 0 <= j < |s| && s[j] == x;
      var i :| 0 <= i < |gs| && gs[i].key == key(x).value;
      assert x in Filter(HasKey(key, gs[i].key), s);
    }
  }

  /** The calendar-day key of a dated message: `toDateString` of its time;
      an undated message has none. */
  function DayKey(toDateString: Instant -> string): ClientMessage -> Option<string> {
    (m: ClientMessage) => if m.createdAt.Some? then Some(toDateString(m.createdAt.value)) else None
  }

  /** The grouping by day that both the notification list
      (`groupedNotifications`) and the chat window (`groupedMessages`) perform. */
  function GroupByDay(list: seq<ClientMessage>, toDateString: Instant -> string): (r: seq<Group<ClientMessage>>)
    ensures GroupsOf(r, list, DayKey(toDateString))
    ensures InFirstUseOrder(r, list, DayKey(toDateString))
  {
    GroupBy(list, DayKey(toDateString))
  }
}

=== FILE: common.dfy ===
/** Small shared vocabulary: optional values, results, sequence filters and
    the string helpers (decimal rendering, JavaScript `trim`) that several
    modules of the platform use. */
module Common {

  /** A JavaScript value that may be `null`/`undefined`. */
  datatype Option<+T> = None | Some(value: T) {
    function GetOr(default: T): T {
      match this
      case Some(v) => v
      case None => default
    }
  }

  /** A string used as a JavaScript condition: false when absent or empty. */
  predicate Truthy(s: Option<string>) {
    s.Some? && s.value != ""
  }

  /** The success value or the error the source throws or responds with. */
  datatype Result<+T, +E> = Ok(value: T) | Err(error: E)

  /** `Array.prototype.filter`: keeps, in order, the elements satisfying `p`. */
  function Filter<T>(p: T -> bool, s: seq<T>): (r: seq<T>)
    ensures |r| <= |s|
    ensures forall i :: 0 <= i < |r| ==> r[i] in s && p(r[i])
    ensures forall i :: 0 <= i < |s| && p(s[i]) ==> s[i] in r
    decreases |s|
  {
    if |s| == 0 then []
    else if p(s[|s| - 1]) then Filter(p, s[..|s| - 1]) + [s[|s| - 1]]
    else Filter(p, s[..|s| - 1])
  }

  /** Filtering a concatenation filters each part. */
  lemma {:induction false} FilterAppend<T>(p: T -> bool, a: seq<T>, b: seq<T>)
    ensures Filter(p, a + b) == Filter(p, a) + Filter(p, b)
    decreases |b|
  {
    if |b| == 0 {
      assert a + b == a;
    } else {
      var b' := b[..|b| - 1];
      assert (a + b)[..|a + b| - 1] == a + b';
      FilterAppend(p, a, b');
    }
  }

  /** A filter keeps every occurrence of a passing element and none of a failing one. */
  lemma {:induction false} FilterCount<T>(p: T -> bool, s: seq<T>, x: T)
    ensures multiset(Filter(p, s))[x] == if p(x) then multiset(s)[x] else 0
    decreases |s|
  {
    if |s| > 0 {
      var init := s[..|s| - 1];
      assert s == init + [s[|s| - 1]];
      FilterCount(p, init, x);
    }
  }

  /** Filtering with a predicate that holds everywhere keeps the sequence. */
  lemma {:induction false} FilterAll<T>(p: T -> bool, s: seq<T>)
    requires forall i :: 0 <= i < |s| ==> p(s[i])
    ensures Filter(p, s) == s
    decreases |s|
  {
    if |s| > 0 {
      assert s[..|s| - 1] + [s[|s| - 1]] == s;
      FilterAll(p, s[..|s| - 1]);
    }
  }

  /** Filtering with a predicate that holds nowhere yields nothing. */
  lemma {:induction false} FilterNone<T>(p: T -> bool, s: seq<T>)
    requires forall i :: 0 <= i < |s| ==> !p(s[i])
    ensures Filter(p, s) == []
    decreases |s|
  {
    if |s| > 0 {
      FilterNone(p, s[..|s| - 1]);
    }
  }

  /** Filtering twice is filtering once by the conjunction. */
  lemma {:induction false} FilterFilter<T>(p: T -> bool, q: T -> bool, pq: T -> bool, s: seq<T>)
    requires forall x :: pq(x) == (p(x) && q(x))
    ensures Filter(q, Filter(p, s)) == Filter(pq, s)
    decreases |s|
  {
    if |s| > 0 {
      var init := s[..|s| - 1];
      var last := s[|s| - 1];
      FilterFilter(p, q, pq, init);
      if p(last) {
        FilterAppend(q, Filter(p, init), [last]);
      }
    }
  }

  /** Taking the last element off one arrangement and the same element off
      another leaves two arrangements of the same elements. */
  lemma RemoveMatching<T>(a: seq<T>, b: seq<T>, k: nat)
    requires multiset(a) == multiset(b) && |a| > 0 && k < |b| && b[k] == a[|a| - 1]
    ensures multiset(b[..k] + b[k + 1..]) == multiset(a[..|a| - 1])
  {
    var x := a[|a| - 1];
    var a' := a[..|a| - 1];
    var b' := b[..k] + b[k + 1..];
    assert a == a' + [x];
    assert b == b[..k] + [x] + b[k + 1..];
    assert multiset(b) == multiset(b[..k]) + multiset{x} + multiset(b[k + 1..]);
    assert multiset(b') + multiset{x} == multiset(a') + multiset{x};
    forall y ensures multiset(b')[y] == multiset(a')[y] {
      assert (multiset(b') + multiset{x})[y] == (multiset(a') + multiset{x})[y];
    }
  }

  /** How many elements satisfy `p` does not depend on their order. */
  lemma {:induction false} FilterLengthPermutation<T>(p: T -> bool, a: seq<T>, b: seq<T>)
    requires multiset(a) == multiset(b)
    ensures |Filter(p, a)| == |Filter(p, b)|
    decreases |a|
  {
    if |a| == 0 {
      assert |multiset(b)| == 0;
    } else {
      var x := a[|a| - 1];
      var a' := a[..|a| - 1];
      assert a == a' + [x];
      assert x in multiset(b);
      var k :| 0 <= k < |b| && b[k] == x;
      var b' := b[..k] + b[k + 1..];
      assert b == b[..k] + [x] + b[k + 1..];
      RemoveMatching(a, b, k);
      FilterLengthPermutation(p, a', b');
      FilterAppend(p, a', [x]);
      FilterAppend(p, b[..k] + [x], b[k + 1..]);
      FilterAppend(p, b[..k], [x]);
      FilterAppend(p, b[..k], b[k + 1..]);
    }
  }

  /** `xs.reduce((sum, x) => sum + f(x), 0)`. */
  function SumOf<T>(f: T -> int, s: seq<T>): int
    decreases |s|
  {
    if |s| == 0 then 0 else SumOf(f, s[..|s| - 1]) + f(s[|s| - 1])
  }

  lemma {:induction false} SumOfAppend<T>(f: T -> int, a: seq<T>, b: seq<T>)
    ensures SumOf(f, a + b) == SumOf(f, a) + SumOf(f, b)
    decreases |b|
  {
    if |b| == 0 {
      assert a + b == a;
    } else {
      var b' := b[..|b| - 1];
      assert (a + b)[..|a + b| - 1] == a + b';
      assert (a + b)[|a + b| - 1] == b[|b| - 1];
      SumOfAppend(f, a, b');
    }
  }

  /** Summing over the elements that pass a filter is summing zero for the rest. */
  lemma {:induction false} SumOfFilter<T>(f: T -> int, p: T -> bool, g: T -> int, s: seq<T>)
    requires forall x :: g(x) == if p(x) then f(x) else 0
    ensures SumOf(f, Filter(p, s)) == SumOf(g, s)
    decreases |s|
  {
    if |s| > 0 {
      var init := s[..|s| - 1];
      var last := s[|s| - 1];
      SumOfFilter(f, p, g, init);
      if p(last) {
        SumOfAppend(f, Filter(p, init), [last]);
        assert SumOf(f, [last]) == f(last) by { assert [last][..0] == []; }
      }
    }
  }

  /** A sum does not depend on the order of its terms. */
  lemma {:induction false} SumOfPermutation<T>(f: T -> int, a: seq<T>, b: seq<T>)
    requires multiset(a) == multiset(b)
    ensures SumOf(f, a) == SumOf(f, b)
    decreases |a|
  {
    if |a| == 0 {
      assert |multiset(b)| == 0;
    } else {
      var x := a[|a| - 1];
      var a' := a[..|a| - 1];
      assert a == a' + [x];
      assert x in multiset(b);
      var k :| 0 <= k < |b| && b[k] == x;
      var b' := b[..k] + b[k + 1..];
      assert b == b[..k] + [x] + b[k + 1..];
      RemoveMatching(a, b, k);
      SumOfPermutation(f, a', b');
      SumOfAppend(f, b[..k] + [x], b[k + 1..]);
      SumOfAppend(f, b[..k], [x]);
      SumOfAppend(f, b[..k], b[k + 1..]);
    }
  }

  /** Position of the first element satisfying `p` (`findIndex`, or the
      first row of a `SELECT ... WHERE`), if any. */
  function FirstIndex<T>(s: seq<T>, p: T -> bool): (r: Option<nat>)
    ensures r.Some? ==> r.value < |s| && p(s[r.value])
    ensures r.Some? ==> forall j :: 0 <= j < r.value ==> !p(s[j])
    ensures r.None? ==> forall j :: 0 <= j < |s| ==> !p(s[j])
  {
    if |s| == 0 then None
    else if p(s[0]) then Some(0)
    else match FirstIndex(s[1..], p)
      case None => None
      case Some(k) => Some(k + 1)
  }

  /** Appending a row leaves a lookup that already succeeded where it was,
      and otherwise finds the new row when it matches. */
  lemma {:induction false} FirstIndexAppend<T>(s: seq<T>, x: T, p: T -> bool)
    ensures FirstIndex(s + [x], p) ==
      if FirstIndex(s, p).Some? then FirstIndex(s, p) else if p(x) then Some(|s|) else None
    decreases |s|
  {
    if |s| > 0 {
      assert (s + [x])[1..] == s[1..] + [x];
      FirstIndexAppend(s[1..], x, p);
    }
  }

  /** Lookups in two sequences that agree on the test agree on the position. */
  lemma FirstIndexAgrees<T, U>(s: seq<T>, p: T -> bool, t: seq<U>, q: U -> bool)
    requires |s| == |t|
    requires forall i :: 0 <= i < |s| ==> p(s[i]) == q(t[i])
    ensures FirstIndex(s, p) == FirstIndex(t, q)
  {
  }

  /** `xs.slice(0, n)` for a non-negative `n`. */
  function Take<T>(s: seq<T>, n: int): (r: seq<T>)
    ensures |r| == if n <= 0 then 0 else if n < |s| then n else |s|
    ensures r <= s
  {
    if n <= 0 then [] else if n < |s| then s[..n] else s
  }

  /** True when `p` is a prefix of `s` (`String.prototype.startsWith`). */
  predicate StartsWith(s: string, p: string) {
    |p| <= |s| && s[..|p|] == p
  }

  /** The characters JavaScript's `trim` removes: the WhiteSpace and
      LineTerminator productions of ECMA-262 (including every Unicode
      space separator). */
  predicate IsJsSpace(c: char) {
    || c == '\t' || c == '\n' || c == '\U{000B}' || c == '\U{000C}' || c == '\r'
    || c == ' ' || c == '\U{00A0}' || c == '\U{1680}'
    || ('\U{2000}' <= c <= '\U{200A}')
    || c == '\U{2028}' || c == '\U{2029}' || c == '\U{202F}' || c == '\U{205F}'
    || c == '\U{3000}' || c == '\U{FEFF}'
  }

  function TrimStart(s: string): (r: string)
    ensures |r| <= |s| && s[|s| - |r|..] == r
    ensures |r| > 0 ==> !IsJsSpace(r[0])
    ensures forall i :: 0 <= i < |s| - |r| ==> IsJsSpace(s[i])
  {
    if |s| > 0 && IsJsSpace(s[0]) then TrimStart(s[1..]) else s
  }

  function TrimEnd(s: string): (r: string)
    ensures r <= s
    ensures |r| > 0 ==> !IsJsSpace(r[|r| - 1])
    ensures forall i :: |r| <= i < |s| ==> IsJsSpace(s[i])
  {
    if |s| > 0 && IsJsSpace(s[|s| - 1]) then TrimEnd(s[..|s| - 1]) else s
  }

  /** `String.prototype.trim`. */
  function Trim(s: string): string {
    TrimEnd(TrimStart(s))
  }

  /** The trimmed string is empty exactly when every character is white space. */
  lemma TrimEmptyIffAllSpace(s: string)
    ensures Trim(s) == [] <==> forall i :: 0 <= i < |s| ==> IsJsSpace(s[i])
  {
    var t := TrimStart(s);
    if Trim(s) != [] {
      assert t[0] == s[|s| - |t|];
    }
  }

  function DigitChar(d: int): char
    requires 0 <= d < 10
  {
    "0123456789"[d]
  }

  /** The pieces joined in order. */
  function Concat<T>(parts: seq<seq<T>>): (r: seq<T>)
    ensures |parts| > 0 ==> |parts[0]| <= |r|
  {
    if |parts| == 0 then [] else parts[0] + Concat(parts[1..])
  }

  /** Decimal rendering of a natural number, as `${n}` prints it. */
  function NatToString(n: nat): (r: string)
    ensures |r| > 0
    ensures forall i :: 0 <= i < |r| ==> '0' <= r[i] <= '9'
  {
    if n < 10 then [DigitChar(n)] else NatToString(n / 10) + [DigitChar(n % 10)]
  }

  /** Only zero is written "0": every larger number has a non-zero digit. */
  lemma NatToStringZero(n: nat)
    ensures NatToString(n) == "0" <==> n == 0
  {
    if 0 < n < 10 {
      assert NatToString(n)[0] == "0123456789"[n];
    }
  }

  /** Decimal rendering of an integer, with a leading minus sign when negative. */
  function IntToString(i: int): (r: string)
    ensures |r| > 0
    ensures (r[0] == '-') <==> i < 0
  {
    if i < 0 then "-" + NatToString(-i) else NatToString(i)
  }
}

=== FILE: contact_routes.dfy ===
/** The second `POST /api/safety/contacts` handler, the one that keeps a
    single emergency contact per user by demoting the previous one. The
    trusted-contact table is the repository's `contacts` sequence.

    Express dispatches a request to the first matching registration, and the
    first handler for this path (server/routes.ts:317) answers every request
    itself, so this second handler is never reached in the running server:
    what follows is the unreachable variant, kept for its demotion rule. */
module ContactRoutes {
  import opened Common
  import opened Schema
  import opened Storage
  import opened Routes

  /** The fields the handler reads from the request body; an absent text
      field is `None`, an absent flag is `false`. */
  datatype ContactBody = ContactBody(
    contactName: Option<string>,
    contactPhone: Option<string>,
    contactEmail: Option<string>,
    relationship: Option<string>,
    isEmergencyContact: bool)

  const CONTACT_FIELDS_REQUIRED := "Name, phone, and relationship are required"

  predicate HasRequiredFields(body: ContactBody) {
    Truthy(body.contactName) && Truthy(body.contactPhone) && Truthy(body.relationship)
  }

  /** The caller's first contact, in storage order, flagged as the emergency one. */
  function FirstEmergencyContact(repo: Repo, userId: Id): (r: Option<TrustedContact>)
    ensures r.Some? ==> r.value in repo.contacts && r.value.userId == userId && r.value.isEmergencyContact
    ensures r.None? <==> forall c :: c in repo.contacts && c.userId == userId ==> !c.isEmergencyContact
  {
    var listed := ListUserTrustedContacts(repo, userId);
    match FirstIndex(listed, (c: TrustedContact) => c.isEmergencyContact)
    case Some(k) => Some(listed[k])
    case None =>
      assert forall c :: c in listed ==> !c.isEmergencyContact by {
        forall c | c in listed ensures !c.isEmergencyContact {
          var k :| 0 <= k < |listed| && listed[k] == c;
        }
      }
      None
  }

  /** The table after the demotion step: unchanged unless the new contact is
      the emergency one and an earlier emergency contact exists. */
  function Demote(repo: Repo, caller: Id, emergency: bool): (r: Repo)
    ensures r == repo.(contacts := r.contacts) && |r.contacts| == |repo.contacts|
  {
    if emergency then
      match FirstEmergencyContact(repo, caller)
      case Some(prior) => SetContactEmergency(repo, prior.id, false)
      case None => repo
    else repo
  }

  /** Adds a trusted contact for the caller, as the second registration does;
      the first registration for the same path answers first, so this is the
      unreachable variant. */
  function PostTrustedContact(repo: Repo, caller: Id, body: ContactBody): (r: Reply<TrustedContact>)
    ensures r.result.Err? <==> !HasRequiredFields(body)
    ensures r.result.Err? ==> r.result.error == HttpError(400, CONTACT_FIELDS_REQUIRED) && r.repo == repo
    ensures r.sent == []
    ensures r.result.Ok? ==>
      var c := r.result.value;
      && c.id == repo.nextContactId && c.userId == caller
      && Some(c.contactName) == body.contactName && Some(c.contactPhone) == body.contactPhone
      && Some(c.relationship) == body.relationship
      && c.contactEmail == OrNull(body.contactEmail) && c.isEmergencyContact == body.isEmergencyContact
      && r.repo.contacts == Demote(repo, caller, body.isEmergencyContact).contacts + [c]
      && r.repo.nextContactId == repo.nextContactId + 1
      && r.repo.rides == repo.rides && r.repo.bookings == repo.bookings && r.repo.messages == repo.messages
      && |r.repo.users| == |repo.users|
      && forall i :: 0 <= i < |repo.users| ==>
           r.repo.users[i] == if body.isEmergencyContact && repo.users[i].id == caller
                              then repo.users[i].(emergencyContactId := Some(c.id)) else repo.users[i]
  {
    if !HasRequiredFields(body) then Refuse(repo, 400, CONTACT_FIELDS_REQUIRED)
    else
      var demoted := Demote(repo, caller, body.isEmergencyContact);
      var (contact, created) := CreateTrustedContact(demoted,
        TrustedContact(0, caller, body.contactName.value, body.contactPhone.value, OrNull(body.contactEmail),
                       body.relationship.value, body.isEmergencyContact));
      var linked := if body.isEmergencyContact then SetUserEmergencyContact(created, caller, contact.id) else created;
      Reply(Ok(contact), linked, [])
  }

  /** Adding an emergency contact demotes exactly the caller's first
      emergency contact and leaves every other existing row as it was. */
  lemma ContactDemotion(repo: Repo, caller: Id, body: ContactBody)
    requires HasRequiredFields(body) && body.isEmergencyContact
    requires ContactKeysUnique(repo.contacts)
    ensures var r := PostTrustedContact(repo, caller, body);
      && FirstEmergencyContact(repo, caller).Some? ==>
        forall i :: 0 <= i < |repo.contacts| ==>
          r.repo.contacts[i] == if repo.contacts[i] == FirstEmergencyContact(repo, caller).value
                                then repo.contacts[i].(isEmergencyContact := false) else repo.contacts[i]
  {
    var prior := FirstEmergencyContact(repo, caller);
    if prior.Some? {
      var r := PostTrustedContact(repo, caller, body);
      var j :| 0 <= j < |repo.contacts| && repo.contacts[j] == prior.value;
      forall i | 0 <= i < |repo.contacts|
        ensures r.repo.contacts[i] == if repo.contacts[i] == prior.value
                                      then repo.contacts[i].(isEmergencyContact := false) else repo.contacts[i]
      {
        assert r.repo.contacts[i] == Demote(repo, caller, true).contacts[i];
        if i != j {
          assert repo.contacts[i].id != repo.contacts[j].id;
        }
      }
    }
  }

  predicate ContactKeysUnique(contacts: seq<TrustedContact>) {
    forall i, j :: 0 <= i < j < |contacts| ==> contacts[i].id != contacts[j].id
  }

  /** Each user has at most one contact flagged as the emergency one. */
  predicate AtMostOneEmergency(contacts: seq<TrustedContact>) {
    forall i, j :: 0 <= i < j < |contacts| && contacts[i].userId == contacts[j].userId ==>
      !(contacts[i].isEmergencyContact && contacts[j].isEmergencyContact)
  }

  /** The table invariant the handler keeps: unique keys below the next
      serial, and a single emergency contact per user. */
  predicate ContactTableInvariant(repo: Repo) {
    && ContactKeysUnique(repo.contacts)
    && (forall i :: 0 <= i < |repo.contacts| ==> repo.contacts[i].id < repo.nextContactId)
    && AtMostOneEmergency(repo.contacts)
  }

  /** The demotion step leaves the caller without an emergency contact when
      the new one is to be the emergency one. */
  lemma DemoteClearsCaller(repo: Repo, caller: Id)
    requires ContactTableInvariant(repo)
    ensures var d := Demote(repo, caller, true);
      && ContactTableInvariant(d)
      && forall i :: 0 <= i < |d.contacts| && d.contacts[i].userId == caller ==> !d.contacts[i].isEmergencyContact
  {
    match FirstEmergencyContact(repo, caller)
    case None =>
      forall i | 0 <= i < |repo.contacts| && repo.contacts[i].userId == caller
        ensures !repo.contacts[i].isEmergencyContact
      {
        assert repo.contacts[i] in repo.contacts;
      }
    case Some(prior) =>
      var j :| 0 <= j < |repo.contacts| && repo.contacts[j] == prior;
      ClearContactAt(repo, j);
  }

  /** Clearing the flag of the caller's emergency contact at `j` keeps the
      table invariant and leaves the caller with no emergency contact. */
  lemma ClearContactAt(repo: Repo, j: nat)
    requires ContactTableInvariant(repo)
    requires j < |repo.contacts| && repo.contacts[j].isEmergencyContact
    ensures var d := SetContactEmergency(repo, repo.contacts[j].id, false);
      && ContactTableInvariant(d)
      && forall i :: 0 <= i < |d.contacts| && d.contacts[i].userId == repo.contacts[j].userId ==> !d.contacts[i].isEmergencyContact
  {
    var d := SetContactEmergency(repo, repo.contacts[j].id, false);
    ClearFlag(repo.contacts, d.contacts, j);
  }

  /** Clearing the flag of the one emergency contact at `j` keeps keys and
      owners, keeps at most one emergency contact per user, and leaves that
      contact's owner with none. */
  lemma ClearFlag(before: seq<TrustedContact>, after: seq<TrustedContact>, j: nat)
    requires ContactKeysUnique(before) && AtMostOneEmergency(before)
    requires j < |before| && before[j].isEmergencyContact && |after| == |before|
    requires forall i :: 0 <= i < |before| ==>
      after[i] == if before[i].id == before[j].id then before[i].(isEmergencyContact := false) else before[i]
    ensures forall i :: 0 <= i < |after| ==> after[i].id == before[i].id && after[i].userId == before[i].userId
    ensures ContactKeysUnique(after) && AtMostOneEmergency(after)
    ensures forall i :: 0 <= i < |after| && after[i].userId == before[j].userId ==> !after[i].isEmergencyContact
  {
    forall i | 0 <= i < |after| && after[i].userId == before[j].userId ensures !after[i].isEmergencyContact {
      if i != j {
        assert before[i].id != before[j].id;
      }
    }
  }

  /** Adding a contact keeps the table invariant. */
  lemma PostTrustedContactKeepsInvariant(repo: Repo, caller: Id, body: ContactBody)
    requires ContactTableInvariant(repo)
    ensures ContactTableInvariant(PostTrustedContact(repo, caller, body).repo)
  {
    if HasRequiredFields(body) {
      var r := PostTrustedContact(repo, caller, body);
      var d := Demote(repo, caller, body.isEmergencyContact);
      var c := r.result.value;
      assert r.repo.contacts == d.contacts + [c];
      if body.isEmergencyContact {
        DemoteClearsCaller(repo, caller);
      }
      assert ContactTableInvariant(d);
      forall i | 0 <= i < |r.repo.contacts| - 1 ensures r.repo.contacts[i] == d.contacts[i] { }
    }
  }

  /** A body that passes the trusted-contact schema also passes this
      handler's own presence test. */
  lemma ValidContactHasRequiredFields(c: ContactInput, isEmail: string -> bool)
    requires ValidContactInput(c, isEmail)
    ensures HasRequiredFields(ContactBody(Some(c.contactName), Some(c.contactPhone), c.contactEmail,
                                          Some(c.relationship), c.isEmergencyContact.GetOr(false)))
  {
  }
}

=== FILE: contacts_list.dfy ===
/** The messages screen's contact list: booking contacts first, then the
    saved contacts whose id is new, each with an avatar. */
module ContactsList {
  import opened Common

  /** A contact as the list holds it; `extra` stands for every field the
      merge does not read. */
  datatype Contact<X> = Contact(id: int, name: string, avatar: Option<string>, extra: X)

  function Ids<X(==)>(s: seq<Contact<X>>): set<int> {
    set c | c in s :: c.id
  }

  lemma IdsAppend<X>(a: seq<Contact<X>>, b: seq<Contact<X>>)
    ensures Ids(a + b) == Ids(a) + Ids(b)
  {
    forall x | x in Ids(a + b) ensures x in Ids(a) + Ids(b) {
      var c :| c in a + b && c.id == x;
    }
  }

  /** `r` is `merged` followed by saved contacts, each with an id new at
      its position, and together they carry every id of `merged + saved`. */
  predicate Extends<X(==)>(merged: seq<Contact<X>>, saved: seq<Contact<X>>, r: seq<Contact<X>>) {
    && merged <= r
    && |merged| <= |r| <= |merged| + |saved|
    && Ids(r) == Ids(merged + saved)
    && forall i :: |merged| <= i < |r| ==> r[i] in saved && r[i].id !in Ids(r[..i])
  }

  /** The `forEach` over the saved contacts: each one is pushed unless an
      entry with its id is already in the list. */
  function AddSaved<X(==)>(merged: seq<Contact<X>>, saved: seq<Contact<X>>): (r: seq<Contact<X>>)
    ensures Extends(merged, saved, r)
    decreases |saved|
  {
    if |saved| == 0 then
      assert merged + saved == merged;
      merged
    else
      var init := saved[..|saved| - 1];
      var c := saved[|saved| - 1];
      assert init + [c] == saved;
      var prior := AddSaved(merged, init);
      AddSavedStep(merged, init, c, prior);
      if c.id in Ids(prior) then prior else prior + [c]
  }

  lemma AddSavedStep<X>(merged: seq<Contact<X>>, init: seq<Contact<X>>, c: Contact<X>, prior: seq<Contact<X>>)
    requires Extends(merged, init, prior)
    ensures Extends(merged, init + [c], if c.id in Ids(prior) then prior else prior + [c])
  {
    IdsAppend(merged + init, [c]);
    assert merged + (init + [c]) == (merged + init) + [c];
    if c.id in Ids(prior) {
      SkipKeepsExtends(merged, init, c, prior);
    } else {
      PushKeepsExtends(merged, init, c, prior);
    }
  }

  lemma SkipKeepsExtends<X>(merged: seq<Contact<X>>, init: seq<Contact<X>>, c: Contact<X>, prior: seq<Contact<X>>)
    requires Extends(merged, init, prior) && c.id in Ids(prior)
    requires Ids(merged + (init + [c])) == Ids(merged + init) + {c.id}
    ensures Extends(merged, init + [c], prior)
  {
    var saved := init + [c];
    forall i | |merged| <= i < |prior| ensures prior[i] in saved {
      assert prior[i] in init;
    }
  }

  lemma PushKeepsExtends<X>(merged: seq<Contact<X>>, init: seq<Contact<X>>, c: Contact<X>, prior: seq<Contact<X>>)
    requires Extends(merged, init, prior) && c.id !in Ids(prior)
    requires Ids(merged + (init + [c])) == Ids(merged + init) + {c.id}
    ensures Extends(merged, init + [c], prior + [c])
  {
    var r := prior + [c];
    assert r[..|merged|] == prior[..|merged|] == merged;
    assert Ids(r) == Ids(prior) + {c.id} by {
      IdsAppend(prior, [c]);
      assert Ids([c]) == {c.id};
    }
    PushedFresh(merged, init, c, prior);
  }

  /** After the push every contact past `merged` still comes from the saved
      list and still has an id new at its position. */
  lemma PushedFresh<X>(merged: seq<Contact<X>>, init: seq<Contact<X>>, c: Contact<X>, prior: seq<Contact<X>>)
    requires |merged| <= |prior| && c.id !in Ids(prior)
    requires forall i :: |merged| <= i < |prior| ==> prior[i] in init && prior[i].id !in Ids(prior[..i])
    ensures var r := prior + [c];
      forall i :: |merged| <= i < |r| ==> r[i] in init + [c] && r[i].id !in Ids(r[..i])
  {
    var r := prior + [c];
    forall i | |merged| <= i < |r| ensures r[i] in init + [c] && r[i].id !in Ids(r[..i]) {
      if i < |prior| {
        assert r[..i] == prior[..i];
        assert r[i] == prior[i];
      } else {
        assert r[..i] == prior;
        assert (init + [c])[|init|] == c;
      }
    }
  }

  /** The saved contacts whose id occurs neither among the booking contacts
      nor among the saved contacts before them: a definition by the inputs
      alone. */
  function FreshSaved<X(==)>(booking: seq<Contact<X>>, saved: seq<Contact<X>>): seq<Contact<X>>
    decreases |saved|
  {
    if |saved| == 0 then []
    else
      var init := saved[..|saved| - 1];
      var c := saved[|saved| - 1];
      FreshSaved(booking, init) + (if c.id in Ids(booking + init) then [] else [c])
  }

  /** The merge keeps the booking contacts as they are and appends exactly
      the saved contacts whose id is new at their turn, in saved order. */
  lemma {:induction false} AddSavedIsFresh<X>(booking: seq<Contact<X>>, saved: seq<Contact<X>>)
    ensures AddSaved(booking, saved) == booking + FreshSaved(booking, saved)
    decreases |saved|
  {
    if |saved| > 0 {
      var init := saved[..|saved| - 1];
      AddSavedIsFresh(booking, init);
    }
  }

  /** `contact.avatar || generateDefaultAvatar(contact.name)`. */
  function WithAvatar<X(==)>(c: Contact<X>, defaultAvatar: string -> string): (r: Contact<X>)
    ensures r.id == c.id && r.name == c.name && r.extra == c.extra
    ensures Truthy(c.avatar) ==> r.avatar == c.avatar
    ensures !Truthy(c.avatar) ==> r.avatar == Some(defaultAvatar(c.name))
  {
    if Truthy(c.avatar) then c else c.(avatar := Some(defaultAvatar(c.name)))
  }

  /** `mergeAndDeduplicateContacts`. */
  function MergeAndDeduplicate<X(==)>(booking: seq<Contact<X>>, saved: seq<Contact<X>>, defaultAvatar: string -> string)
    : (r: seq<Contact<X>>)
    ensures |booking| <= |r| <= |booking| + |saved|
    ensures forall i :: 0 <= i < |booking| ==> r[i] == WithAvatar(booking[i], defaultAvatar)
    ensures forall i :: |booking| <= i < |r| ==>
      exists j :: 0 <= j < |saved| && r[i] == WithAvatar(saved[j], defaultAvatar)
    ensures forall i, k :: 0 <= k < i < |r| && |booking| <= i ==> r[k].id != r[i].id
    ensures Ids(r) == Ids(booking + saved)
  {
    var merged := AddSaved(booking, saved);
    var r := seq(|merged|, i requires 0 <= i < |merged| => WithAvatar(merged[i], defaultAvatar));
    assert forall i :: 0 <= i < |booking| ==> merged[i] == booking[i];
    forall i, k | 0 <= k < i < |r| && |booking| <= i ensures r[k].id != r[i].id {
      assert merged[k] in merged[..i];
    }
    forall i | |booking| <= i < |r| ensures exists j :: 0 <= j < |saved| && r[i] == WithAvatar(saved[j], defaultAvatar) {
      var j :| 0 <= j < |saved| && saved[j] == merged[i];
    }
    AvatarsKeepIds(merged, r, defaultAvatar);
    r
  }

  /** Filling in avatars element by element keeps the set of ids. */
  lemma AvatarsKeepIds<X>(s: seq<Contact<X>>, r: seq<Contact<X>>, defaultAvatar: string -> string)
    requires |r| == |s| && forall i :: 0 <= i < |s| ==> r[i] == WithAvatar(s[i], defaultAvatar)
    ensures Ids(r) == Ids(s)
  {
    forall x | x in Ids(s) ensures x in Ids(r) {
      var c :| c in s && c.id == x;
      var i :| 0 <= i < |s| && s[i] == c;
      assert r[i].id == x;
    }
  }
}

=== FILE: events.dfy ===
/** The WebSocket fan-out the server performs: `wss.clients.forEach` over the
    connected clients, sending one JSON frame to each client that passes a
    test of its connection state. Transport, serialisation and reconnection
    are not modelled; a client is its key, ready state and the custom
    properties the `subscribe` handler stores on it. */
module Events {
  import opened Common
  import opened Schema

  datatype ReadyState = Connecting | Open | Closing | Closed

  datatype Client = Client(key: int, readyState: ReadyState, channel: Option<string>, userId: Option<Id>)

  /** The frames the server sends, discriminated by their `type` field. */
  datatype Frame =
    | NotificationFrame(message: Message)
    | RideStatusFrame(rideId: Id, status: string)
    | SafetyAlertFrame(alert: SafetyAlert)

  function FrameType(f: Frame): string {
    match f
    case NotificationFrame(_) => "notification"
    case RideStatusFrame(_, _) => "ride_status"
    case SafetyAlertFrame(_) => "safety_alert"
  }

  datatype Delivery = Delivery(client: int, frame: Frame)

  /** One delivery of `frame` to each client satisfying `p`, in client order. */
  function SendWhere(clients: seq<Client>, frame: Frame, p: Client -> bool): (r: seq<Delivery>)
    ensures |r| == |Filter(p, clients)|
    ensures forall i :: 0 <= i < |r| ==> r[i] == Delivery(Filter(p, clients)[i].key, frame)
  {
    var targets := Filter(p, clients);
    seq(|targets|, i requires 0 <= i < |targets| => Delivery(targets[i].key, frame))
  }

  predicate IsOpen(c: Client) { c.readyState == Open }

  /** The number of deliveries addressed to the client with key `key`. */
  function DeliveriesTo(ds: seq<Delivery>, key: int): nat {
    |Filter((d: Delivery) => d.client == key, ds)|
  }

  predicate UniqueKeys(clients: seq<Client>) {
    forall i, j :: 0 <= i < j < |clients| ==> clients[i].key != clients[j].key
  }

  /** Each client with a unique key receives exactly one frame when it passes
      the test and none otherwise; keys of no client receive nothing. */
  lemma {:induction false} SendWhereCounts(clients: seq<Client>, frame: Frame, p: Client -> bool, key: int)
    requires UniqueKeys(clients)
    ensures forall c :: c in clients && c.key == key ==> DeliveriesTo(SendWhere(clients, frame, p), key) == (if p(c) then 1 else 0)
    ensures (forall c :: c in clients ==> c.key != key) ==> DeliveriesTo(SendWhere(clients, frame, p), key) == 0
    decreases |clients|
  {
    if |clients| > 0 {
      var init := clients[..|clients| - 1];
      var last := clients[|clients| - 1];
      assert clients == init + [last];
      SendWhereCounts(init, frame, p, key);
      SendWhereStep(init, last, frame, p, key);
      forall c | c in clients && c.key == key
        ensures DeliveriesTo(SendWhere(clients, frame, p), key) == (if p(c) then 1 else 0)
      {
        if c == last {
          assert forall d :: d in init ==> d.key != key;
        }
      }
    }
  }

  /** One more client adds one delivery to its own key when it passes the
      test, and nothing to any other key. */
  lemma SendWhereStep(init: seq<Client>, last: Client, frame: Frame, p: Client -> bool, key: int)
    ensures DeliveriesTo(SendWhere(init + [last], frame, p), key)
      == DeliveriesTo(SendWhere(init, frame, p), key) + (if p(last) && last.key == key then 1 else 0)
  {
    var q := (d: Delivery) => d.client == key;
    var before := SendWhere(init, frame, p);
    var extra := if p(last) then [Delivery(last.key, frame)] else [];
    assert SendWhere(init + [last], frame, p) == before + extra by {
      FilterAppend(p, init, [last]);
    }
    FilterAppend(q, before, extra);
  }

  /** A parsed frame from a client: its `type` and the subscription fields. */
  datatype ClientFrame = ClientFrame(kind: string, channel: Option<string>, userId: Option<Id>)

  /** The connection's `message` handler: a `subscribe` frame stores its
      channel and user id on the connection (absent fields as absent);
      every other frame is ignored. */
  function OnClientFrame(c: Client, f: ClientFrame): (r: Client)
    ensures r.key == c.key && r.readyState == c.readyState
    ensures f.kind == "subscribe" ==> r.channel == f.channel && r.userId == f.userId
    ensures f.kind != "subscribe" ==> r == c
  {
    if f.kind == "subscribe" then c.(channel := f.channel, userId := f.userId) else c
  }
}

=== FILE: logline.dfy ===
/** The request-logging middleware of the server: the line it writes when
    an API response finishes. */
module RequestLog {
  import opened Common

  const MAX_LINE := 80
  const ELLIPSIS := '…'

  /** `line.slice(0, 79) + "…"` when the line is longer than 80 characters. */
  function Truncate(line: string): (r: string)
    ensures |r| <= MAX_LINE
    ensures |line| <= MAX_LINE ==> r == line
    ensures |line| > MAX_LINE ==> |r| == MAX_LINE && r[..MAX_LINE - 1] == line[..MAX_LINE - 1] && r[MAX_LINE - 1] == ELLIPSIS
  {
    if |line| > MAX_LINE then line[..MAX_LINE - 1] + [ELLIPSIS] else line
  }

  /** Truncating a logged line again changes nothing. */
  lemma TruncateIdempotent(line: string)
    ensures Truncate(Truncate(line)) == Truncate(line)
  {
  }

  /** The line before truncation: the request method, path, status and duration, then
      the serialised JSON body when one was captured. */
  function FullLine(verb: string, path: string, status: int, durationMs: int, json: Option<string>): (line: string)
    ensures StartsWith(line, verb + " " + path + " ")
    ensures json.None? ==> line[|line| - 2..] == "ms"
    ensures json.Some? ==>
      && |line| >= |json.value| + 4
      && line[|line| - |json.value|..] == json.value
      && line[|line| - |json.value| - 4..|line| - |json.value|] == " :: "
  {
    var head := verb + " " + path + " ";
    var line := head + IntToString(status) + " in " + IntToString(durationMs) + "ms";
    assert line[..|head|] == head;
    if json.Some? then
      var full := line + " :: " + json.value;
      assert full[..|head|] == head;
      full
    else line
  }

  /** The line reads "<method> <path> <status> in <duration>ms", and a captured
      body extends exactly that line by " :: " and the body's JSON. */
  lemma FullLineLayout(verb: string, path: string, status: int, durationMs: int, json: string)
    ensures FullLine(verb, path, status, durationMs, None)
      == verb + " " + path + " " + IntToString(status) + " in " + IntToString(durationMs) + "ms"
    ensures FullLine(verb, path, status, durationMs, Some(json)) == FullLine(verb, path, status, durationMs, None) + " :: " + json
  {
  }

  /** The `finish` listener: a line for every path under "/api", none for
      any other path. `json` is `JSON.stringify` of the captured body, absent
      when nothing (or a falsy value) was captured. */
  function LogLine(verb: string, path: string, status: int, durationMs: int, json: Option<string>): (r: Option<string>)
    ensures r.Some? <==> StartsWith(path, "/api")
    ensures r.Some? ==> |r.value| <= MAX_LINE
  {
    if StartsWith(path, "/api") then Some(Truncate(FullLine(verb, path, status, durationMs, json))) else None
  }

  /** A logged line that fits is the full line; one that does not keeps the
      full line's first 79 characters and ends in an ellipsis. */
  lemma LogLineContent(verb: string, path: string, status: int, durationMs: int, json: Option<string>)
    requires StartsWith(path, "/api")
    ensures var full := FullLine(verb, path, status, durationMs, json);
      var r := LogLine(verb, path, status, durationMs, json).value;
      && (|full| <= MAX_LINE ==> r == full)
      && (|full| > MAX_LINE ==> |r| == MAX_LINE && r[..MAX_LINE - 1] == full[..MAX_LINE - 1] && r[MAX_LINE - 1] == ELLIPSIS)
  {
  }
}

=== FILE: notifications.dfy ===
/** The notification panel's state: the list it shows, how pushed frames,
    read receipts and the initial fetch change it, and its day grouping. */
module NotificationList {
  import opened Common
  import opened Schema
  import opened ClientMessages

  /** A parsed WebSocket frame: its `type` and its `message`, if any. */
  datatype IncomingFrame = IncomingFrame(kind: string, message: Option<ClientMessage>)

  /** The frame carries a message for the signed-in user. */
  predicate Accepts(frame: IncomingFrame, user: Option<Id>) {
    && (frame.kind == "notification" || frame.kind == "chat")
    && frame.message.Some?
    && user.Some? && frame.message.value.receiverId == user.value
  }

  /** `ws.onmessage`: a message for the signed-in user goes to the front. */
  function OnFrame(list: seq<ClientMessage>, frame: IncomingFrame, user: Option<Id>): (r: seq<ClientMessage>)
    ensures Accepts(frame, user) ==> |r| == |list| + 1 && r[0] == frame.message.value && r[1..] == list
    ensures !Accepts(frame, user) ==> r == list
  {
    if Accepts(frame, user) then [frame.message.value] + list else list
  }

  predicate AllAddressedTo(list: seq<ClientMessage>, user: Id) {
    forall i :: 0 <= i < |list| ==> list[i].receiverId == user
  }

  /** Frames never add a message meant for someone else. */
  lemma OnFrameKeepsAddressee(list: seq<ClientMessage>, frame: IncomingFrame, user: Id)
    requires AllAddressedTo(list, user)
    ensures AllAddressedTo(OnFrame(list, frame, Some(user)), user)
  {
    var r := OnFrame(list, frame, Some(user));
    if Accepts(frame, Some(user)) {
      forall i | 0 <= i < |r| ensures r[i].receiverId == user {
        if i > 0 { assert r[i] == r[1..][i - 1]; }
      }
    }
  }

  /** `markAsRead` after the request: on an ok response the entries with
      that id become read; otherwise nothing changes. */
  function MarkAsRead(list: seq<ClientMessage>, messageId: Id, ok: bool): (r: seq<ClientMessage>)
    ensures |r| == |list|
    ensures forall i :: 0 <= i < |list| ==>
      r[i] == if ok && list[i].id == messageId then list[i].(isRead := true) else list[i]
  {
    if ok then seq(|list|, i requires 0 <= i < |list| => if list[i].id == messageId then list[i].(isRead := true) else list[i])
    else list
  }

  function IsUnread(m: ClientMessage): bool { !m.isRead }

  /** After a successful read receipt, the unread entries are exactly the
      previously unread ones with another id. */
  lemma {:induction false} MarkAsReadUnread(list: seq<ClientMessage>, messageId: Id)
    ensures Filter(IsUnread, MarkAsRead(list, messageId, true))
         == Filter((m: ClientMessage) => !m.isRead && m.id != messageId, list)
    decreases |list|
  {
    if |list| > 0 {
      var init := list[..|list| - 1];
      MarkAsReadUnread(init, messageId);
      assert MarkAsRead(list, messageId, true)[..|list| - 1] == MarkAsRead(init, messageId, true);
    }
  }

  /** Marking twice is marking once. */
  lemma MarkAsReadIdempotent(list: seq<ClientMessage>, messageId: Id, ok: bool)
    ensures MarkAsRead(MarkAsRead(list, messageId, ok), messageId, ok) == MarkAsRead(list, messageId, ok)
  {
  }

  /** The effect on `initialMessages`: a fetched list replaces the state. */
  function OnInitialMessages(list: seq<ClientMessage>, fetched: Option<seq<ClientMessage>>): (r: seq<ClientMessage>)
    ensures fetched.Some? ==> r == fetched.value
    ensures fetched.None? ==> r == list
  {
    if fetched.Some? then fetched.value else list
  }
}

=== FILE: ordering.dfy ===
/** `ORDER BY key DESC` and `Array.prototype.sort` by a descending numeric key,
    as a stable insertion sort: rows with equal keys keep their storage order.
    The JavaScript sort is stable; `ORDER BY` leaves ties open, and the model
    settles them the same way. */
module Ordering {
  import opened Common

  predicate SortedDesc<T>(s: seq<T>, key: T -> int) {
    forall i, j :: 0 <= i < j < |s| ==> key(s[i]) >= key(s[j])
  }

  /** Places `x` in front of the first element whose key is not larger. */
  function Insert<T>(x: T, s: seq<T>, key: T -> int): (r: seq<T>)
    requires SortedDesc(s, key)
    ensures SortedDesc(r, key)
    ensures multiset(r) == multiset(s) + multiset{x}
    ensures |r| == |s| + 1
    ensures r[0] == x || (|s| > 0 && r[0] == s[0])
  {
    if |s| == 0 then [x]
    else if key(s[0]) <= key(x) then [x] + s
    else
      var t := Insert(x, s[1..], key);
      assert s == [s[0]] + s[1..];
      assert key(t[0]) <= key(s[0]);
      [s[0]] + t
  }

  /** The rows of `s` ordered by `key`, largest first. */
  function SortDesc<T>(s: seq<T>, key: T -> int): (r: seq<T>)
    ensures SortedDesc(r, key)
    ensures multiset(r) == multiset(s)
    ensures |r| == |s|
  {
    if |s| == 0 then []
    else
      assert s == [s[0]] + s[1..];
      Insert(s[0], SortDesc(s[1..], key), key)
  }

  /** The test "has key `v`". */
  function KeyIs<T>(key: T -> int, v: int): T -> bool {
    (y: T) => key(y) == v
  }

  /** Inserting `x` puts it ahead of every element sharing its key and
      moves no other element past one with the same key. */
  lemma {:induction false} InsertStable<T>(x: T, s: seq<T>, key: T -> int, v: int)
    requires SortedDesc(s, key)
    ensures Filter(KeyIs(key, v), Insert(x, s, key)) == Filter(KeyIs(key, v), [x]) + Filter(KeyIs(key, v), s)
    decreases |s|
  {
    var p := KeyIs(key, v);
    if |s| == 0 {
      assert Insert(x, s, key) == [x] + s;
      FilterAppend(p, [x], s);
    } else if key(s[0]) <= key(x) {
      assert Insert(x, s, key) == [x] + s;
      FilterAppend(p, [x], s);
    } else {
      var t := Insert(x, s[1..], key);
      InsertStable(x, s[1..], key, v);
      assert Insert(x, s, key) == [s[0]] + t;
      assert s == [s[0]] + s[1..];
      FilterAppend(p, [s[0]], t);
      FilterAppend(p, [s[0]], s[1..]);
      InsertStableStep(p, x, s[0], Filter(p, s[1..]));
    }
  }

  /** The rearrangement behind one step of `InsertStable`: the passed-over
      head and the inserted element are never both kept. */
  lemma InsertStableStep<T>(p: T -> bool, x: T, head: T, rest: seq<T>)
    requires p(x) ==> !p(head)
    ensures Filter(p, [head]) + (Filter(p, [x]) + rest) == Filter(p, [x]) + (Filter(p, [head]) + rest)
  {
    FilterSingleton(p, x);
    FilterSingleton(p, head);
  }

  /** Filtering a one-element sequence keeps the element or nothing. */
  lemma FilterSingleton<T>(p: T -> bool, y: T)
    ensures Filter(p, [y]) == if p(y) then [y] else []
  {
    assert [y][..0] == [];
  }

  /** The sort is stable: the rows sharing any one key come out in the order
      they went in. */
  lemma {:induction false} SortDescStable<T>(s: seq<T>, key: T -> int, v: int)
    ensures Filter(KeyIs(key, v), SortDesc(s, key)) == Filter(KeyIs(key, v), s)
    decreases |s|
  {
    if |s| > 0 {
      SortDescStable(s[1..], key, v);
      InsertStable(s[0], SortDesc(s[1..], key), key, v);
      assert s == [s[0]] + s[1..];
      FilterAppend(KeyIs(key, v), [s[0]], s[1..]);
    }
  }

  /** Sorting keeps exactly the elements it was given. */
  lemma SortDescMembers<T>(s: seq<T>, key: T -> int, x: T)
    ensures x in SortDesc(s, key) <==> x in s
  {
    var r := SortDesc(s, key);
    assert x in r <==> x in multiset(r);
    assert x in s <==> x in multiset(s);
  }
}

=== FILE: queries.dfy ===
/** The read-only ride queries of the API: the caller's active rides
    (`GET /api/rides/active`), ride recommendations
    (`GET /api/rides/recommended`) and the integer part of the caller's
    statistics (`GET /api/user/stats`). */
module RideQueries {
  import opened Common
  import opened Schema
  import opened Storage
  import opened Ordering
  import Routes

  // ---------------------------------------------------------------------
  // GET /api/rides/active

  /** One entry of the active-ride list. */
  datatype ActiveRide = ActiveRide(id: Id, origin: string, destination: string, departureTime: Instant,
                                   status: string, isDriver: bool)

  function Summary(r: Ride, isDriver: bool): ActiveRide {
    ActiveRide(r.id, r.origin, r.destination, r.departureTime, r.status, isDriver)
  }

  predicate IsLive(r: Ride) {
    r.status == PENDING || r.status == IN_PROGRESS
  }

  predicate IsOpenBooking(b: Booking) {
    b.status == CONFIRMED || b.status == PENDING
  }

  /** The loop that looks up the ride of each booking and keeps the live ones. */
  function LiveRidesOf(repo: Repo, bookings: seq<Booking>): (r: seq<Ride>)
    ensures |r| <= |bookings|
    ensures forall i :: 0 <= i < |r| ==>
      r[i] in repo.rides && IsLive(r[i]) && exists k :: 0 <= k < |bookings| && bookings[k].rideId == r[i].id
    ensures forall k :: 0 <= k < |bookings| && GetRide(repo, bookings[k].rideId).Some? && IsLive(GetRide(repo, bookings[k].rideId).value) ==>
      GetRide(repo, bookings[k].rideId).value in r
    decreases |bookings|
  {
    if |bookings| == 0 then []
    else
      var init := bookings[..|bookings| - 1];
      var prior := LiveRidesOf(repo, init);
      assert forall k :: 0 <= k < |init| ==> init[k] == bookings[k];
      match GetRide(repo, bookings[|bookings| - 1].rideId)
      case Some(ride) => if IsLive(ride) then prior + [ride] else prior
      case None => prior
  }

  /** One summary per ride, in order (the `map` of the response). */
  function Summaries(rs: seq<Ride>, isDriver: bool): (r: seq<ActiveRide>)
    ensures |r| == |rs|
    ensures forall i :: 0 <= i < |r| ==> r[i] == Summary(rs[i], isDriver)
  {
    seq(|rs|, i requires 0 <= i < |rs| => Summary(rs[i], isDriver))
  }

  /** The live rides of the caller's confirmed or pending bookings. */
  function PassengerRides(repo: Repo, caller: Id): seq<Ride> {
    LiveRidesOf(repo, Filter(IsOpenBooking, ListUserBookings(repo, caller)))
  }

  /** The caller's active rides: the rides they drive, then the live rides
      of their confirmed or pending bookings. */
  function ActiveRides(repo: Repo, caller: Id): (r: seq<ActiveRide>)
    ensures |r| == |ListUserDrivingRides(repo, caller)| + |PassengerRides(repo, caller)|
  {
    Summaries(ListUserDrivingRides(repo, caller), true) + Summaries(PassengerRides(repo, caller), false)
  }

  /** Positions of the two parts of the active-ride list. */
  lemma ActiveRidesAt(driving: seq<Ride>, passenger: seq<Ride>, i: int)
    requires 0 <= i < |driving| + |passenger|
    ensures var r := Summaries(driving, true) + Summaries(passenger, false);
      r[i] == if i < |driving| then Summary(driving[i], true) else Summary(passenger[i - |driving|], false)
  {
  }

  /** Every entry is a pending or in-progress ride, and the caller's own
      rides come before the ones they ride in. */
  lemma ActiveRidesLiveDriverFirst(repo: Repo, caller: Id)
    ensures var r := ActiveRides(repo, caller);
      && (forall i :: 0 <= i < |r| ==> r[i].status == PENDING || r[i].status == IN_PROGRESS)
      && (forall i, j :: 0 <= i < j < |r| && !r[i].isDriver ==> !r[j].isDriver)
  {
    var driving := ListUserDrivingRides(repo, caller);
    var passenger := PassengerRides(repo, caller);
    var r := ActiveRides(repo, caller);
    forall i | 0 <= i < |r| ensures r[i].status == PENDING || r[i].status == IN_PROGRESS {
      ActiveRidesAt(driving, passenger, i);
      if i < |driving| {
        assert driving[i] in driving;
      }
    }
    forall i, j | 0 <= i < j < |r| && !r[i].isDriver ensures !r[j].isDriver {
      ActiveRidesAt(driving, passenger, i);
      ActiveRidesAt(driving, passenger, j);
    }
  }

  /** A driver entry is one of the caller's rides; a passenger entry is a
      ride the caller holds a confirmed or pending booking for. */
  lemma ActiveRidesSound(repo: Repo, caller: Id)
    ensures var r := ActiveRides(repo, caller);
      && (forall i :: 0 <= i < |r| && r[i].isDriver ==>
            exists x :: x in repo.rides && x.driverId == caller && r[i] == Summary(x, true))
      && (forall i :: 0 <= i < |r| && !r[i].isDriver ==>
            exists x, b :: x in repo.rides && r[i] == Summary(x, false)
              && b in repo.bookings && b.userId == caller && IsOpenBooking(b) && b.rideId == x.id)
  {
    var driving := ListUserDrivingRides(repo, caller);
    var open := Filter(IsOpenBooking, ListUserBookings(repo, caller));
    var passenger := PassengerRides(repo, caller);
    var r := ActiveRides(repo, caller);
    forall i | 0 <= i < |r| && r[i].isDriver
      ensures exists x :: x in repo.rides && x.driverId == caller && r[i] == Summary(x, true)
    {
      ActiveRidesAt(driving, passenger, i);
      assert driving[i] in driving;
    }
    forall i | 0 <= i < |r| && !r[i].isDriver
      ensures exists x, b ::
        x in repo.rides && r[i] == Summary(x, false)
        && b in repo.bookings && b.userId == caller && IsOpenBooking(b) && b.rideId == x.id
    {
      ActiveRidesAt(driving, passenger, i);
      var x := passenger[i - |driving|];
      var k :| 0 <= k < |open| && open[k].rideId == x.id;
      assert open[k] in ListUserBookings(repo, caller);
    }
  }

  /** Every ride the caller drives, and every live ride behind one of their
      confirmed or pending bookings, is listed. */
  lemma ActiveRidesComplete(repo: Repo, caller: Id)
    ensures forall x :: x in repo.rides && IsDrivingRide(x, caller) ==> Summary(x, true) in ActiveRides(repo, caller)
    ensures forall b :: b in repo.bookings && b.userId == caller && IsOpenBooking(b)
                        && GetRide(repo, b.rideId).Some? && IsLive(GetRide(repo, b.rideId).value) ==>
      Summary(GetRide(repo, b.rideId).value, false) in ActiveRides(repo, caller)
  {
    var driving := ListUserDrivingRides(repo, caller);
    var open := Filter(IsOpenBooking, ListUserBookings(repo, caller));
    var passenger := PassengerRides(repo, caller);
    var r := ActiveRides(repo, caller);
    forall x | x in repo.rides && IsDrivingRide(x, caller) ensures Summary(x, true) in r {
      var i :| 0 <= i < |driving| && driving[i] == x;
      ActiveRidesAt(driving, passenger, i);
    }
    forall b | b in repo.bookings && b.userId == caller && IsOpenBooking(b)
               && GetRide(repo, b.rideId).Some? && IsLive(GetRide(repo, b.rideId).value)
      ensures Summary(GetRide(repo, b.rideId).value, false) in r
    {
      assert b in ListUserBookings(repo, caller);
      var k :| 0 <= k < |ListUserBookings(repo, caller)| && ListUserBookings(repo, caller)[k] == b;
      var m :| 0 <= m < |open| && open[m] == b;
      var x := GetRide(repo, b.rideId).value;
      var i :| 0 <= i < |passenger| && passenger[i] == x;
      ActiveRidesAt(driving, passenger, |driving| + i);
    }
  }

  // ---------------------------------------------------------------------
  // GET /api/rides/recommended

  const RECOMMENDATION_COUNT := 5

  predicate HasId(rs: seq<Ride>, id: Id) {
    exists i :: 0 <= i < |rs| && rs[i].id == id
  }

  /** Every element of `xs` is one of `pool`'s. */
  predicate Within(xs: seq<Ride>, pool: seq<Ride>) {
    forall i :: 0 <= i < |xs| ==> xs[i] in pool
  }

  /** The rides of the caller's bookings that still exist, in booking order. */
  function TakenRides(repo: Repo, bookings: seq<Booking>): (r: seq<Ride>)
    ensures Within(r, repo.rides)
    ensures |r| == 0 <==> forall k :: 0 <= k < |bookings| ==> GetRide(repo, bookings[k].rideId).None?
    decreases |bookings|
  {
    if |bookings| == 0 then []
    else
      var prior := TakenRides(repo, bookings[..|bookings| - 1]);
      assert forall k :: 0 <= k < |bookings| - 1 ==> bookings[..|bookings| - 1][k] == bookings[k];
      match GetRide(repo, bookings[|bookings| - 1].rideId)
      case Some(ride) => prior + [ride]
      case None => prior
  }

  /** The one name a counting object `{}` never takes as an own key: storing
      under "__proto__" goes to the prototype setter, which ignores a number. */
  const PROTO_KEY := "__proto__"

  /** The keys of the origin counts: every taken origin except "__proto__". */
  function Origins(rs: seq<Ride>): set<string> {
    set x | x in rs && x.origin != PROTO_KEY :: x.origin
  }

  /** The keys of the destination counts, likewise. */
  function Destinations(rs: seq<Ride>): set<string> {
    set x | x in rs && x.destination != PROTO_KEY :: x.destination
  }

  /** A name is a preferred origin (destination) exactly when some taken ride
      starts (ends) there and the name is not "__proto__". */
  lemma PreferenceKeys(rs: seq<Ride>, name: string)
    ensures name in Origins(rs) <==> name != PROTO_KEY && exists i :: 0 <= i < |rs| && rs[i].origin == name
    ensures name in Destinations(rs) <==> name != PROTO_KEY && exists i :: 0 <= i < |rs| && rs[i].destination == name
  {
    if name in Origins(rs) {
      var x :| x in rs && x.origin != PROTO_KEY && x.origin == name;
      var i :| 0 <= i < |rs| && rs[i] == x;
    }
    if name in Destinations(rs) {
      var x :| x in rs && x.destination != PROTO_KEY && x.destination == name;
      var i :| 0 <= i < |rs| && rs[i] == x;
    }
    if name != PROTO_KEY && exists i :: 0 <= i < |rs| && rs[i].origin == name {
      var i :| 0 <= i < |rs| && rs[i].origin == name;
      assert rs[i] in rs;
    }
    if name != PROTO_KEY && exists i :: 0 <= i < |rs| && rs[i].destination == name {
      var i :| 0 <= i < |rs| && rs[i].destination == name;
      assert rs[i] in rs;
    }
  }

  /** A ride the caller may be offered: someone else's, pending, still to
      depart, and not already held by a live booking of the caller. */
  predicate Offerable(repo: Repo, caller: Id, now: Instant, x: Ride) {
    && x in repo.rides && x.driverId != caller && x.status == PENDING && x.departureTime > now
    && !Routes.HoldsBooking(repo.bookings, caller, x.id)
  }

  /** The rides the recommendation draws from, newest first. */
  function AvailableRides(repo: Repo, caller: Id, now: Instant): (r: seq<Ride>)
    ensures forall i :: 0 <= i < |r| ==> Offerable(repo, caller, now, r[i])
    ensures RideKeysUnique(repo.rides) ==> RideKeysUnique(r)
  {
    var listed := ListUserBookings(repo, caller);
    var all := ListRides(repo);
    var r := Filter((x: Ride) => x.driverId != caller && x.status == PENDING && x.departureTime > now
                                 && !Routes.AlreadyBooked(listed, x.id), all);
    assert forall i :: 0 <= i < |r| ==> Offerable(repo, caller, now, r[i]) by {
      forall i | 0 <= i < |r| ensures Offerable(repo, caller, now, r[i]) {
        Routes.AlreadyBookedIff(repo, caller, r[i].id);
        assert r[i] in multiset(all);
      }
    }
    assert RideKeysUnique(repo.rides) ==> RideKeysUnique(r) by {
      if RideKeysUnique(repo.rides) {
        UniqueKeysPermutation(repo.rides, all);
        UniqueKeysFilter((x: Ride) => x.driverId != caller && x.status == PENDING && x.departureTime > now
                                      && !Routes.AlreadyBooked(listed, x.id), all);
      }
    }
    r
  }

  /** `[...rec, ...pool.filter(x => p(x) && !rec.some(r => r.id === x.id))].slice(0, 5)`. */
  function Fill(rec: seq<Ride>, pool: seq<Ride>, p: Ride -> bool): (r: seq<Ride>)
    ensures |r| <= RECOMMENDATION_COUNT || r == rec
    ensures |rec| <= RECOMMENDATION_COUNT ==> rec <= r
    ensures forall i :: 0 <= i < |r| ==> r[i] in rec || (r[i] in pool && p(r[i]))
    ensures RideKeysUnique(rec) && RideKeysUnique(pool) ==> RideKeysUnique(r)
  {
    var extra := Filter((x: Ride) => p(x) && !HasId(rec, x.id), pool);
    var r := Take(rec + extra, RECOMMENDATION_COUNT);
    assert forall i :: 0 <= i < |r| ==> r[i] == (rec + extra)[i];
    assert RideKeysUnique(rec) && RideKeysUnique(pool) ==> RideKeysUnique(rec + extra) by {
      if RideKeysUnique(rec) && RideKeysUnique(pool) {
        UniqueKeysFilter((x: Ride) => p(x) && !HasId(rec, x.id), pool);
        UniqueKeysAppend(rec, extra);
      }
    }
    r
  }

  /** Two row lists with unique keys and no key in common concatenate to
      one with unique keys. */
  lemma UniqueKeysAppend(a: seq<Ride>, b: seq<Ride>)
    requires RideKeysUnique(a) && RideKeysUnique(b)
    requires forall j :: 0 <= j < |b| ==> !HasId(a, b[j].id)
    ensures RideKeysUnique(a + b)
  {
    forall i, j | 0 <= i < j < |a + b| ensures (a + b)[i].id != (a + b)[j].id {
      if i < |a| && j >= |a| {
        assert (a + b)[j] == b[j - |a|];
        assert !HasId(a, b[j - |a|].id);
      }
    }
  }

  /** The preference stage: rides matching both a taken origin and a taken
      destination, topped up first with origin matches, then with
      destination matches. */
  function PreferenceMatches(available: seq<Ride>, origins: set<string>, dests: set<string>): (r: seq<Ride>)
    ensures forall i :: 0 <= i < |r| ==> r[i] in available
    ensures |r| > RECOMMENDATION_COUNT ==> forall i :: 0 <= i < |r| ==> r[i].origin in origins && r[i].destination in dests
    ensures RideKeysUnique(available) ==> RideKeysUnique(r)
  {
    var both := Filter((x: Ride) => x.origin in origins && x.destination in dests, available);
    assert RideKeysUnique(available) ==> RideKeysUnique(both) by {
      if RideKeysUnique(available) {
        UniqueKeysFilter((x: Ride) => x.origin in origins && x.destination in dests, available);
      }
    }
    var s1 := if |both| < RECOMMENDATION_COUNT then Fill(both, available, (x: Ride) => x.origin in origins) else both;
    if |s1| < RECOMMENDATION_COUNT then Fill(s1, available, (x: Ride) => x.destination in dests) else s1
  }

  /** The final top-up: the latest-departing available rides not yet
      recommended, as many as are missing from five. */
  function RecentRides(rec: seq<Ride>, available: seq<Ride>): (r: seq<Ride>)
    ensures SortedDesc(r, RideDeparture)
    ensures |rec| + |r| <= RECOMMENDATION_COUNT || r == []
    ensures forall i :: 0 <= i < |r| ==> r[i] in available && !HasId(rec, r[i].id)
  {
    var rest := Filter((x: Ride) => !HasId(rec, x.id), available);
    var sorted := SortDesc(rest, RideDeparture);
    var r := Take(sorted, RECOMMENDATION_COUNT - |rec|);
    assert forall i :: 0 <= i < |r| ==> r[i] in rest by {
      forall i | 0 <= i < |r| ensures r[i] in rest {
        assert r[i] == sorted[i];
        assert r[i] in multiset(sorted);
      }
    }
    r
  }

  /** When the top-up leaves fewer than five, it took every available ride
      not yet recommended; it repeats no id when the available rides do not. */
  lemma RecentRidesComplete(rec: seq<Ride>, available: seq<Ride>)
    ensures var r := RecentRides(rec, available);
      |rec| + |r| < RECOMMENDATION_COUNT ==> forall x :: x in available && !HasId(rec, x.id) ==> x in r
    ensures RideKeysUnique(available) ==> RideKeysUnique(RecentRides(rec, available))
  {
    var rest := Filter((x: Ride) => !HasId(rec, x.id), available);
    var sorted := SortDesc(rest, RideDeparture);
    var r := RecentRides(rec, available);
    if |rec| + |r| < RECOMMENDATION_COUNT {
      assert r == sorted;
      forall x | x in available && !HasId(rec, x.id) ensures x in r {
        SortDescMembers(rest, RideDeparture, x);
      }
    }
    if RideKeysUnique(available) {
      UniqueKeysFilter((x: Ride) => !HasId(rec, x.id), available);
      UniqueKeysPermutation(rest, sorted);
    }
  }

  /** The recommendation: preference matches when the caller has booked
      rides that still exist, then the latest-departing available rides
      until there are five. */
  function Recommended(repo: Repo, caller: Id, now: Instant): seq<Ride> {
    var taken := TakenRides(repo, ListUserBookings(repo, caller));
    var available := AvailableRides(repo, caller, now);
    TopUp(if |taken| > 0 then PreferenceMatches(available, Origins(taken), Destinations(taken)) else [], available)
  }

  /** The last stage: fewer than five picks are followed by the recent rides. */
  function TopUp(rec: seq<Ride>, available: seq<Ride>): seq<Ride> {
    if |rec| < RECOMMENDATION_COUNT then rec + RecentRides(rec, available) else rec
  }

  /** Picks drawn from the available rides stay so after the top-up, and the
      top-up repeats no key when neither input does. */
  lemma TopUpFrom(rec: seq<Ride>, available: seq<Ride>)
    requires Within(rec, available)
    ensures Within(TopUp(rec, available), available)
    ensures RideKeysUnique(rec) && RideKeysUnique(available) ==> RideKeysUnique(TopUp(rec, available))
  {
    if |rec| < RECOMMENDATION_COUNT {
      var recent := RecentRides(rec, available);
      RecentRidesComplete(rec, available);
      if RideKeysUnique(rec) && RideKeysUnique(available) {
        UniqueKeysAppend(rec, recent);
      }
    }
  }

  /** Every recommended ride is offerable to the caller, and no ride is
      recommended twice when ride ids are unique. */
  lemma RecommendedOfferable(repo: Repo, caller: Id, now: Instant)
    ensures var r := Recommended(repo, caller, now);
      forall i :: 0 <= i < |r| ==> Offerable(repo, caller, now, r[i])
    ensures RideKeysUnique(repo.rides) ==> RideKeysUnique(Recommended(repo, caller, now))
  {
    var taken := TakenRides(repo, ListUserBookings(repo, caller));
    var available := AvailableRides(repo, caller, now);
    var rec := if |taken| > 0 then PreferenceMatches(available, Origins(taken), Destinations(taken)) else [];
    var r := TopUp(rec, available);
    assert r == Recommended(repo, caller, now);
    TopUpFrom(rec, available);
    forall i | 0 <= i < |r| ensures Offerable(repo, caller, now, r[i]) {
      var j :| 0 <= j < |available| && available[j] == r[i];
    }
  }

  /** At most five rides are recommended unless every one matches both a
      taken origin and a taken destination. */
  lemma RecommendedAtMostFive(repo: Repo, caller: Id, now: Instant)
    ensures var r := Recommended(repo, caller, now);
      var taken := TakenRides(repo, ListUserBookings(repo, caller));
      |r| > RECOMMENDATION_COUNT ==>
        forall i :: 0 <= i < |r| ==> r[i].origin in Origins(taken) && r[i].destination in Destinations(taken)
  {
    var taken := TakenRides(repo, ListUserBookings(repo, caller));
    var available := AvailableRides(repo, caller, now);
    var rec := if |taken| > 0 then PreferenceMatches(available, Origins(taken), Destinations(taken)) else [];
    assert Recommended(repo, caller, now) == TopUp(rec, available);
    if |rec| < RECOMMENDATION_COUNT {
      assert |TopUp(rec, available)| <= RECOMMENDATION_COUNT;
    }
  }

  /** Fewer than five rides are recommended only when every available ride
      already is. */
  lemma RecommendedExhaustsAvailable(repo: Repo, caller: Id, now: Instant)
    ensures var r := Recommended(repo, caller, now);
      |r| < RECOMMENDATION_COUNT ==> forall x :: x in AvailableRides(repo, caller, now) ==> HasId(r, x.id)
  {
    var taken := TakenRides(repo, ListUserBookings(repo, caller));
    var available := AvailableRides(repo, caller, now);
    var rec := if |taken| > 0 then PreferenceMatches(available, Origins(taken), Destinations(taken)) else [];
    var r := Recommended(repo, caller, now);
    assert r == TopUp(rec, available);
    if |r| < RECOMMENDATION_COUNT {
      var recent := RecentRides(rec, available);
      assert r == rec + recent;
      RecentRidesComplete(rec, available);
      CoveredByConcat(rec, recent, available);
    }
  }

  /** A ride not covered by `a` but present in `b` is covered by `a + b`. */
  lemma CoveredByConcat(a: seq<Ride>, b: seq<Ride>, pool: seq<Ride>)
    requires forall x :: x in pool && !HasId(a, x.id) ==> x in b
    ensures forall x :: x in pool ==> HasId(a + b, x.id)
  {
    forall x | x in pool ensures HasId(a + b, x.id) {
      if HasId(a, x.id) {
        var k :| 0 <= k < |a| && a[k].id == x.id;
        assert (a + b)[k] == a[k];
      } else {
        var k :| 0 <= k < |b| && b[k] == x;
        assert (a + b)[|a| + k] == x;
      }
    }
  }

  /** Without a booked ride that still exists, the recommendation is the
      five latest-departing available rides. */
  lemma RecommendedWithoutHistory(repo: Repo, caller: Id, now: Instant)
    requires forall b :: b in repo.bookings && b.userId == caller ==> GetRide(repo, b.rideId).None?
    ensures Recommended(repo, caller, now) == Take(SortDesc(AvailableRides(repo, caller, now), RideDeparture), RECOMMENDATION_COUNT)
  {
    NoTakenRides(repo, caller);
    var available := AvailableRides(repo, caller, now);
    FilterAll((x: Ride) => !HasId([], x.id), available);
    assert Recommended(repo, caller, now) == TopUp([], available) == [] + RecentRides([], available);
  }

  /** A caller none of whose bookings has a stored ride has taken no rides. */
  lemma NoTakenRides(repo: Repo, caller: Id)
    requires forall b :: b in repo.bookings && b.userId == caller ==> GetRide(repo, b.rideId).None?
    ensures TakenRides(repo, ListUserBookings(repo, caller)) == []
  {
    var listed := ListUserBookings(repo, caller);
    assert forall k :: 0 <= k < |listed| ==> listed[k] in listed;
  }

  // ---------------------------------------------------------------------
  // GET /api/user/stats

  /** The integer fields of the statistics response. */
  datatype Stats = Stats(totalRides: int, ridesAsPassenger: int, ridesAsDriver: int, distanceTraveledKm: int,
                         totalRewardPoints: int, safetyVerificationsCompleted: int)

  function RewardPoints(w: Reward): int { w.points }

  function UserStats(repo: Repo, caller: Id): (s: Stats)
    ensures s.totalRides == s.ridesAsPassenger + s.ridesAsDriver
    ensures s.distanceTraveledKm == 12 * s.ridesAsPassenger + 15 * s.ridesAsDriver
    ensures s.ridesAsDriver == 0
    ensures s.ridesAsPassenger == |Filter((b: Booking) => b.userId == caller && b.status == COMPLETED, repo.bookings)|
    ensures s.totalRewardPoints == SumOf((w: Reward) => if w.userId == caller then w.points else 0, repo.rewards)
    ensures s.safetyVerificationsCompleted ==
      |Filter((w: Reward) => w.userId == caller && w.kind == "safety_verification", repo.rewards)|
  {
    var completed := Filter((b: Booking) => b.status == COMPLETED, ListUserBookings(repo, caller));
    var drivenCompleted := Filter((x: Ride) => x.status == COMPLETED, ListUserDrivingRides(repo, caller));
    var rewards := ListUserRewards(repo, caller);
    var mine := (b: Booking) => b.userId == caller;
    var minew := (w: Reward) => w.userId == caller;
    DrivingRidesNeverCompleted(repo, caller);
    FilterLengthPermutation((b: Booking) => b.status == COMPLETED, ListUserBookings(repo, caller), Filter(mine, repo.bookings));
    FilterFilter(mine, (b: Booking) => b.status == COMPLETED,
                 (b: Booking) => b.userId == caller && b.status == COMPLETED, repo.bookings);
    SumOfPermutation(RewardPoints, rewards, Filter(minew, repo.rewards));
    SumOfFilter(RewardPoints, minew, (w: Reward) => if w.userId == caller then w.points else 0, repo.rewards);
    FilterLengthPermutation((w: Reward) => w.kind == "safety_verification", rewards, Filter(minew, repo.rewards));
    FilterFilter(minew, (w: Reward) => w.kind == "safety_verification",
                 (w: Reward) => w.userId == caller && w.kind == "safety_verification", repo.rewards);
    Stats(|completed| + |drivenCompleted|, |completed|, |drivenCompleted|, 12 * |completed| + 15 * |drivenCompleted|,
          SumOf(RewardPoints, rewards), |Filter((w: Reward) => w.kind == "safety_verification", rewards)|)
  }
}

=== FILE: ridecard.dfy ===
/** The ride card of the ride list: the flags it derives from a ride, its
    status badge, what a click on the book button does, the button itself,
    and the clamp on the seat count typed into the booking dialog. */
module RideCardView {
  import opened Common
  import opened Schema

  /** The flags the card derives from the ride; `now` is the browser clock. */
  datatype CardFlags = CardFlags(isAvailable: bool, isFull: bool, isPending: bool, isCompleted: bool,
                                 isCancelled: bool, isDeparted: bool)

  function Flags(ride: Ride, now: Instant): (f: CardFlags)
    ensures f.isFull <==> ride.seatsAvailable == 0 || ride.status == FULL
    ensures f.isAvailable <==> ride.status != FULL && ride.seatsAvailable > 0
    ensures f.isDeparted <==> ride.departureTime < now
  {
    CardFlags(ride.status != FULL && ride.seatsAvailable > 0,
              ride.seatsAvailable == 0 || ride.status == FULL,
              ride.status == PENDING, ride.status == COMPLETED, ride.status == CANCELLED,
              ride.departureTime < now)
  }

  /** With a non-negative seat count a ride is available exactly when it is
      not full; a negative count makes it neither. */
  lemma AvailableIffNotFull(ride: Ride, now: Instant)
    ensures Flags(ride, now).isAvailable ==> !Flags(ride, now).isFull
    ensures ride.seatsAvailable >= 0 ==> (Flags(ride, now).isAvailable <==> !Flags(ride, now).isFull)
    ensures ride.seatsAvailable < 0 && ride.status != FULL ==> !Flags(ride, now).isAvailable && !Flags(ride, now).isFull
  {
  }

  datatype Badge = FullBadge | CompletedBadge | CancelledBadge | DepartedBadge | AvailableBadge | NoBadge

  /** `getStatusBadge`: the first of Full, Completed, Cancelled, Departed and
      Available that applies. */
  function StatusBadge(f: CardFlags): (b: Badge)
    ensures b == FullBadge <==> f.isFull
    ensures b == CompletedBadge <==> !f.isFull && f.isCompleted
    ensures b == CancelledBadge <==> !f.isFull && !f.isCompleted && f.isCancelled
    ensures b == DepartedBadge <==> !f.isFull && !f.isCompleted && !f.isCancelled && f.isDeparted
    ensures b == AvailableBadge <==> !f.isFull && !f.isCompleted && !f.isCancelled && !f.isDeparted && f.isPending
  {
    if f.isFull then FullBadge
    else if f.isCompleted then CompletedBadge
    else if f.isCancelled then CancelledBadge
    else if f.isDeparted then DepartedBadge
    else if f.isPending then AvailableBadge
    else NoBadge
  }

  /** A badge is shown exactly when one of its five conditions holds, and a
      ride marked full in the database never reads as available. */
  lemma BadgeShown(ride: Ride, now: Instant)
    ensures var f := Flags(ride, now);
      (StatusBadge(f) != NoBadge <==> f.isFull || f.isCompleted || f.isCancelled || f.isDeparted || f.isPending)
    ensures ride.status == FULL ==> StatusBadge(Flags(ride, now)) == FullBadge
    ensures StatusBadge(Flags(ride, now)) == AvailableBadge ==>
      ride.status == PENDING && ride.seatsAvailable != 0 && ride.departureTime >= now
  {
  }

  /** The booking dialog: whether it is open and the seat count in it. */
  datatype Dialog = Dialog(open: bool, seats: int)

  datatype Toast = RideFullToast | RideDepartedToast

  /** `handleBookClick`: refuses a ride that is unavailable or full, then one
      that has departed; otherwise opens the dialog with one seat. */
  function BookClick(f: CardFlags, dialog: Dialog): (r: (Option<Toast>, Dialog))
    ensures r.0 == Some(RideFullToast) <==> !f.isAvailable || f.isFull
    ensures r.0 == Some(RideDepartedToast) <==> f.isAvailable && !f.isFull && f.isDeparted
    ensures r.0.Some? ==> r.1 == dialog
    ensures r.0.None? ==> r.1 == Dialog(true, 1)
  {
    if !f.isAvailable || f.isFull then (Some(RideFullToast), dialog)
    else if f.isDeparted then (Some(RideDepartedToast), dialog)
    else (None, Dialog(true, 1))
  }

  /** The footer button: its caption and whether it is disabled. */
  datatype Button = Button(caption: string, disabled: bool)

  /** The footer: the driver's own ride gets a disabled "Your Ride" button;
      anyone else gets the book button. */
  function FooterButton(ride: Ride, user: Option<Id>, now: Instant, bookingPending: bool): (b: Button)
    ensures user == Some(ride.driverId) ==> b == Button("Your Ride", true)
    ensures user != Some(ride.driverId) ==>
      var f := Flags(ride, now);
      b.disabled <==> !f.isAvailable || bookingPending || f.isFull || f.isCompleted || f.isCancelled || f.isDeparted
  {
    var f := Flags(ride, now);
    if user.Some? && ride.driverId == user.value then Button("Your Ride", true)
    else
      var caption :=
        if bookingPending then "Booking..."
        else if f.isAvailable then "Book Now"
        else if f.isFull then "Fully Booked"
        else if f.isCompleted then "Completed"
        else if f.isDeparted then "Departed"
        else "Unavailable";
      Button(caption, !f.isAvailable || bookingPending || f.isFull || f.isCompleted || f.isCancelled || f.isDeparted)
  }

  /** With a non-negative seat count only three labels can appear; and an
      enabled button always leads to the dialog. */
  lemma FooterLabels(ride: Ride, user: Option<Id>, now: Instant, bookingPending: bool, dialog: Dialog)
    requires ride.seatsAvailable >= 0
    ensures var b := FooterButton(ride, user, now, bookingPending);
      b.caption in {"Your Ride", "Booking...", "Book Now", "Fully Booked"}
    ensures var b := FooterButton(ride, user, now, bookingPending);
      !b.disabled ==> BookClick(Flags(ride, now), dialog) == (None, Dialog(true, 1))
  {
  }

  /** The labels the book button shows while nothing is pending: "Book Now"
      exactly for an available ride, "Fully Booked" exactly for a full one. */
  lemma FooterLabelMeaning(ride: Ride, user: Option<Id>, now: Instant)
    requires user != Some(ride.driverId)
    ensures var b := FooterButton(ride, user, now, false);
      && (b.caption == "Book Now" <==> Flags(ride, now).isAvailable)
      && (b.caption == "Fully Booked" <==> Flags(ride, now).isFull)
  {
  }

  /** `Math.min(seatsAvailable, Math.max(1, parseInt(text) || 1))`, where
      `parsed` is `None` for NaN and a parsed 0 also falls back to 1. */
  function ClampSeats(seatsAvailable: int, parsed: Option<int>): (n: int)
    ensures seatsAvailable >= 1 ==> 1 <= n <= seatsAvailable
    ensures seatsAvailable < 1 ==> n == seatsAvailable
    ensures parsed.Some? && 1 <= parsed.value <= seatsAvailable ==> n == parsed.value
    ensures (parsed.None? || parsed.value < 1) && seatsAvailable >= 1 ==> n == 1
    ensures parsed.Some? && parsed.value > seatsAvailable >= 1 ==> n == seatsAvailable
  {
    var typed := if parsed.None? || parsed.value == 0 then 1 else parsed.value;
    var atLeastOne := if typed > 1 then typed else 1;
    if seatsAvailable < atLeastOne then seatsAvailable else atLeastOne
  }
}

=== FILE: routes.dfy ===
/** The state-changing ride handlers of the API: offering a ride
    (`POST /api/rides`), booking seats (`POST /api/bookings`) and starting a
    ride (`POST /api/rides/:id/start`). Each handler is a total function from
    the repository before the request to the response, the repository after
    it, and the WebSocket frames it pushes. The caller is the authenticated
    user; the clock is the explicit `now`. */
module Routes {
  import opened Common
  import opened Schema
  import opened Storage
  import opened Events

  /** An error response: its status code and the `error` text of its body. */
  datatype HttpError = HttpError(status: int, message: string)

  /** A handler's outcome, the state it leaves behind, and what it pushed to clients. */
  datatype Reply<T> = Reply(result: Result<T, HttpError>, repo: Repo, sent: seq<Delivery>)

  function Refuse<T>(repo: Repo, status: int, message: string): Reply<T> {
    Reply(Err(HttpError(status, message)), repo, [])
  }

  /** `value || null`: an empty string is stored as null. */
  function OrNull(s: Option<string>): (r: Option<string>)
    ensures r.Some? <==> Truthy(s)
    ensures r.Some? ==> r == s
  {
    if Truthy(s) then s else None
  }

  const DAY_MS := 24 * 60 * 60 * 1000

  // ---------------------------------------------------------------------
  // POST /api/rides

  function NewRideNotice(origin: string, destination: string): string {
    "New ride available from " + origin + " to " + destination
  }

  /** Offers a ride. The body must pass the ride schema (its first issue is
      the error text); the ride is stored as "pending" with the caller as
      driver, and the caller gets a notice about it. The handler repeats the
      schema's future-departure test; the server reads the clock separately
      for the schema and for the repeat, while this model reads one instant
      `now` for both (a modelling choice), so here the repeat never refuses. */
  function PostRide(repo: Repo, caller: Id, input: RideInput, now: Instant): (r: Reply<Ride>)
    ensures r.result.Err? <==> !ValidRideInput(input, now)
    ensures r.result.Err? ==> r.result.error.status == 400 && r.repo == repo
    ensures r.result.Err? ==> r.result.error.message == RideInputIssue(input, now).value
    ensures r.sent == []
    ensures r.result.Ok? ==>
      var ride := r.result.value;
      && ride.status == PENDING && ride.driverId == caller
      && ride.origin == input.origin && ride.destination == input.destination
      && Some(ride.departureTime) == input.departureTime && ride.departureTime > now
      && ride.seatsAvailable as real == input.seatsAvailable && 1 <= ride.seatsAvailable <= 8
      && ride.price == input.price
      && ride.carModel == OrNull(input.carModel) && ride.carColor == OrNull(input.carColor)
      && ride.licensePlate == OrNull(input.licensePlate) && ride.preferences == OrNull(input.preferences)
      && ride.id == repo.nextRideId && ride.createdAt == now
      && r.repo.rides == repo.rides + [ride] && r.repo.nextRideId == repo.nextRideId + 1
    ensures r.result.Ok? ==>
      r.repo == repo.(rides := r.repo.rides, nextRideId := r.repo.nextRideId,
                      messages := r.repo.messages, nextMessageId := r.repo.nextMessageId)
    ensures r.result.Ok? ==>
      r.repo.nextMessageId == repo.nextMessageId + (if repo.nextRideId != 0 then 1 else 0)
    ensures r.result.Ok? ==>
      r.repo.messages == repo.messages +
        (if repo.nextRideId != 0
         then [Message(repo.nextMessageId, caller, caller, NewRideNotice(input.origin, input.destination),
                       Some(repo.nextRideId), false, now)]
         else [])
  {
    match RideInputIssue(input, now)
    case Some(issue) => Refuse(repo, 400, issue)
    case None =>
      var draft := Ride(0, caller, input.origin, input.destination, input.departureTime.value,
                        input.seatsAvailable.Floor, input.price, RIDE_STATUS_DEFAULT,
                        OrNull(input.carModel), OrNull(input.carColor), OrNull(input.licensePlate),
                        OrNull(input.preferences), 0);
      var (ride, repo1) := CreateRide(repo, draft, now);
      var repo2 :=
        if ride.id != 0 then
          CreateMessage(repo1, Message(0, caller, caller, NewRideNotice(ride.origin, ride.destination),
                                       Some(ride.id), MESSAGE_IS_READ_DEFAULT, 0), now).1
        else repo1;
      Reply(Ok(ride), repo2, [])
  }

  // ---------------------------------------------------------------------
  // POST /api/bookings

  const BOOKING_POINTS := 10

  /** The booking response body besides the booking itself. */
  datatype BookingReceipt = BookingReceipt(booking: Booking, reward: Reward, ride: Ride, message: string)

  /** The caller already holds a booking of the ride that is not cancelled. */
  predicate HoldsBooking(bookings: seq<Booking>, userId: Id, rideId: Id) {
    exists i :: 0 <= i < |bookings| && bookings[i].userId == userId && bookings[i].rideId == rideId
                                    && bookings[i].status != CANCELLED
  }

  /** `existingBookings.some(...)` over the caller's listed bookings. */
  predicate AlreadyBooked(listed: seq<Booking>, rideId: Id) {
    exists i :: 0 <= i < |listed| && listed[i].rideId == rideId && listed[i].status != CANCELLED
  }

  lemma AlreadyBookedIff(repo: Repo, caller: Id, rideId: Id)
    ensures AlreadyBooked(ListUserBookings(repo, caller), rideId) <==> HoldsBooking(repo.bookings, caller, rideId)
  {
    var listed := ListUserBookings(repo, caller);
    if AlreadyBooked(listed, rideId) {
      var i :| 0 <= i < |listed| && listed[i].rideId == rideId && listed[i].status != CANCELLED;
      assert listed[i] in listed;
    }
    if HoldsBooking(repo.bookings, caller, rideId) {
      var i :| 0 <= i < |repo.bookings| && repo.bookings[i].userId == caller && repo.bookings[i].rideId == rideId
                                       && repo.bookings[i].status != CANCELLED;
      assert repo.bookings[i] in listed;
    }
  }

  /** Every condition the booking handler tests, as one conjunction. */
  predicate Admissible(repo: Repo, caller: Id, input: BookingInput, now: Instant) {
    var found := GetRide(repo, input.rideId.GetOr(0));
    && found.Some?
    && found.value.departureTime >= now
    && found.value.status != CANCELLED
    && found.value.status != FULL && found.value.seatsAvailable != 0
    && found.value.driverId != caller
    && !HoldsBooking(repo.bookings, caller, found.value.id)
    && input.seats <= found.value.seatsAvailable
  }

  /** The booking's seat count fits the `seats` column, and the ride's new
      seat count fits `seats_available`. The handler checks neither; the
      database refuses a write that does not fit. */
  predicate SeatsFit(ride: Ride, seats: int) {
    IsInt4(seats) && ride.seatsAvailable - seats <= INT4_MAX
  }

  /** Admissible, and every write of the booking fits its column. */
  predicate Bookable(repo: Repo, caller: Id, input: BookingInput, now: Instant) {
    && Admissible(repo, caller, input, now)
    && SeatsFit(GetRide(repo, input.rideId.GetOr(0)).value, input.seats)
  }

  /** `booker?.fullName || booker?.username || "A user"`. */
  function BookerName(booker: Option<User>): (name: string)
    ensures name != ""
    ensures name == "A user" || (booker.Some? && (Some(name) == booker.value.fullName || name == booker.value.username))
    ensures booker.Some? && Truthy(booker.value.fullName) ==> name == booker.value.fullName.value
  {
    match booker
    case None => "A user"
    case Some(u) =>
      if Truthy(u.fullName) then u.fullName.value
      else if u.username != "" then u.username
      else "A user"
  }

  function BookingNotice(bookerName: string, seats: int, ride: Ride): string {
    bookerName + " has booked " + IntToString(seats) + " seat(s) for your ride from " + ride.origin
      + " to " + ride.destination + ". You can contact them to coordinate."
  }

  function NewBooking(caller: Id, input: BookingInput): Booking {
    Booking(0, input.rideId.GetOr(0), caller, input.seats, CONFIRMED, PAYMENT_STATUS_DEFAULT,
            OrNull(input.specialRequests), OrNull(input.pickupLocation), OrNull(input.dropoffLocation), 0)
  }

  /** The seat half of an admitted booking: the booking row, then the seat
      update of its ride. */
  function TakeSeats(repo: Repo, caller: Id, input: BookingInput, ride: Ride, now: Instant): (r: (Booking, Step<Ride>))
    requires GetRide(repo, ride.id) == Some(ride) && input.seats <= ride.seatsAvailable && SeatsFit(ride, input.seats)
    ensures r.0 == NewBooking(caller, input).(id := repo.nextBookingId, createdAt := now)
    ensures r.1.repo == repo.(bookings := repo.bookings + [r.0], nextBookingId := repo.nextBookingId + 1, rides := r.1.repo.rides)
    ensures r.1.result.Ok? && GetRide(r.1.repo, ride.id) == Some(r.1.result.value)
    ensures r.1.result.value.seatsAvailable == ride.seatsAvailable - input.seats
    ensures r.1.result.value == ride.(seatsAvailable := r.1.result.value.seatsAvailable, status := r.1.result.value.status)
  {
    var stored := CreateBooking(repo, NewBooking(caller, input), now);
    assert GetRide(stored.repo, ride.id) == GetRide(repo, ride.id);
    (stored.result.value, UpdateRideSeats(stored.repo, ride.id, input.seats))
  }

  /** The reward half: ten points, then the reward row. */
  function Award(repo: Repo, caller: Id, now: Instant): (r: (Reward, Repo))
    ensures r.1.users == UpdateUserPoints(repo, caller, BOOKING_POINTS).1.users
    ensures r.0 == Reward(repo.nextRewardId, caller, "booking", BOOKING_POINTS, "Booked a ride", Some(now + 30 * DAY_MS), now)
    ensures r.1 == repo.(users := r.1.users, rewards := repo.rewards + [r.0], nextRewardId := repo.nextRewardId + 1)
  {
    var repo1 := UpdateUserPoints(repo, caller, BOOKING_POINTS).1;
    var (reward, repo2) := CreateReward(repo1, Reward(0, caller, "booking", BOOKING_POINTS, "Booked a ride",
                                                      Some(now + 30 * DAY_MS), 0), now);
    (reward, repo2)
  }

  /** The bookkeeping writes of an admitted booking, in the handler's order. */
  datatype Reservation = Reservation(booking: Booking, ride: Ride, reward: Reward, repo: Repo)

  function Reserve(repo: Repo, caller: Id, input: BookingInput, ride: Ride, now: Instant): (v: Reservation)
    requires GetRide(repo, ride.id) == Some(ride) && input.seats <= ride.seatsAvailable && SeatsFit(ride, input.seats)
    ensures v.booking == NewBooking(caller, input).(id := repo.nextBookingId, createdAt := now)
    ensures v.repo.bookings == repo.bookings + [v.booking]
    ensures v.ride.seatsAvailable == ride.seatsAvailable - input.seats
    ensures v.ride == ride.(seatsAvailable := v.ride.seatsAvailable, status := v.ride.status)
    ensures GetRide(v.repo, ride.id) == Some(v.ride)
    ensures v.repo.users == UpdateUserPoints(repo, caller, BOOKING_POINTS).1.users
    ensures v.reward == Reward(repo.nextRewardId, caller, "booking", BOOKING_POINTS, "Booked a ride", Some(now + 30 * DAY_MS), now)
    ensures v.repo.rewards == repo.rewards + [v.reward]
    ensures v.repo.messages == repo.messages && v.repo.nextMessageId == repo.nextMessageId
  {
    var (booking, seatStep) := TakeSeats(repo, caller, input, ride, now);
    var (reward, repo2) := Award(seatStep.repo, caller, now);
    UpdateUserPointsReadsUsers(seatStep.repo, repo, caller, BOOKING_POINTS);
    assert GetRide(repo2, ride.id) == GetRide(seatStep.repo, ride.id) by {
      assert repo2.rides == seatStep.repo.rides;
    }
    Reservation(booking, seatStep.result.value, reward, repo2)
  }

  /** A booking whose writes all fit their columns: the bookkeeping, then
      the driver's notice and its broadcast when the ride has a driver. */
  function CompleteBooking(repo: Repo, caller: Id, input: BookingInput, ride: Ride, now: Instant, clients: seq<Client>): (r: Reply<BookingReceipt>)
    requires GetRide(repo, ride.id) == Some(ride) && input.seats <= ride.seatsAvailable && SeatsFit(ride, input.seats)
    ensures r.result.Ok?
    ensures
      var v := Reserve(repo, caller, input, ride, now);
      && r.result.value.booking == v.booking && r.result.value.ride == v.ride && r.result.value.reward == v.reward
      && r.repo == v.repo.(messages := r.repo.messages, nextMessageId := r.repo.nextMessageId)
      && (ride.driverId != 0 ==>
            && |r.repo.messages| == |repo.messages| + 1
            && r.repo.messages[..|repo.messages|] == repo.messages
            && r.repo.messages[|repo.messages|].receiverId == ride.driverId
            && r.repo.messages[|repo.messages|].senderId == caller
            && |r.sent| == |Filter(IsOpen, clients)|)
      && (ride.driverId == 0 ==> r.repo.messages == repo.messages && r.sent == [])
  {
    var v := Reserve(repo, caller, input, ride, now);
    var notice := BookingNotice(BookerName(GetUser(v.repo, caller)), input.seats, ride);
    var receipt := BookingReceipt(v.booking, v.reward, v.ride,
      "Successfully booked " + IntToString(input.seats) + " seat(s). The driver will be notified.");
    if ride.driverId != 0 then
      var (message, repo5) := CreateMessage(v.repo, Message(0, caller, ride.driverId, notice, Some(ride.id),
                                                            MESSAGE_IS_READ_DEFAULT, 0), now);
      Reply(Ok(receipt), repo5, SendWhere(clients, NotificationFrame(message), IsOpen))
    else
      Reply(Ok(receipt), v.repo, [])
  }

  /** An admitted booking: the bookkeeping, then the driver's notice and its
      broadcast when the ride has a driver. A write the database refuses
      throws into the handler's `catch`, which answers 400 with the error's
      (non-empty) message: an out-of-range seat count fails the insert, and
      an out-of-range new seat count fails the seat update after the booking
      row is already stored. */
  function Admit(repo: Repo, caller: Id, input: BookingInput, ride: Ride, now: Instant, clients: seq<Client>): (r: Reply<BookingReceipt>)
    requires GetRide(repo, ride.id) == Some(ride) && input.seats <= ride.seatsAvailable
    ensures r.result.Ok? <==> SeatsFit(ride, input.seats)
    ensures !IsInt4(input.seats) ==> r == Refuse(repo, 400, OutOfRange(input.seats))
    ensures IsInt4(input.seats) && !SeatsFit(ride, input.seats) ==>
      r == Refuse(CreateBooking(repo, NewBooking(caller, input), now).repo, 400, OutOfRange(ride.seatsAvailable - input.seats))
    ensures SeatsFit(ride, input.seats) ==> r == CompleteBooking(repo, caller, input, ride, now, clients)
  {
    var stored := CreateBooking(repo, NewBooking(caller, input), now);
    if stored.result.Err? then Refuse(repo, 400, stored.result.error)
    else
    assert GetRide(stored.repo, ride.id) == GetRide(repo, ride.id);
    var seatStep := UpdateRideSeats(stored.repo, ride.id, input.seats);
    if seatStep.result.Err? then Refuse(stored.repo, 400, seatStep.result.error)
    else CompleteBooking(repo, caller, input, ride, now, clients)
  }

  /** The ten booking points leave the booker's names alone, so the notice
      names the booker as the user table did before the booking. */
  lemma ReserveKeepsBookerName(repo: Repo, caller: Id, input: BookingInput, ride: Ride, now: Instant)
    requires GetRide(repo, ride.id) == Some(ride) && input.seats <= ride.seatsAvailable && SeatsFit(ride, input.seats)
    ensures BookerName(GetUser(Reserve(repo, caller, input, ride, now).repo, caller)) == BookerName(GetUser(repo, caller))
  {
    ReserveLookup(repo, caller, input, ride, now);
  }

  /** When the ride has a driver, the stored notice is addressed to the driver,
      names the booker, the seat count and the route, and is unread; its
      notification frame reaches every open connection exactly once and no
      other connection. */
  lemma AdmitNotifiesDriver(repo: Repo, caller: Id, input: BookingInput, ride: Ride, now: Instant, clients: seq<Client>)
    requires GetRide(repo, ride.id) == Some(ride) && input.seats <= ride.seatsAvailable && SeatsFit(ride, input.seats)
    requires ride.driverId != 0
    ensures
      var r := Admit(repo, caller, input, ride, now, clients);
      var m := r.repo.messages[|repo.messages|];
      && m == Message(repo.nextMessageId, caller, ride.driverId,
                      BookingNotice(BookerName(GetUser(repo, caller)), input.seats, ride),
                      Some(ride.id), MESSAGE_IS_READ_DEFAULT, now)
      && r.repo.nextMessageId == repo.nextMessageId + 1
      && (forall i :: 0 <= i < |r.sent| ==> r.sent[i].frame == NotificationFrame(m))
      && (UniqueKeys(clients) ==>
            forall c :: c in clients ==> DeliveriesTo(r.sent, c.key) == (if IsOpen(c) then 1 else 0))
  {
    var r := Admit(repo, caller, input, ride, now, clients);
    var v := Reserve(repo, caller, input, ride, now);
    ReserveKeepsBookerName(repo, caller, input, ride, now);
    var m := r.repo.messages[|repo.messages|];
    assert r.sent == SendWhere(clients, NotificationFrame(m), IsOpen);
    if UniqueKeys(clients) {
      forall c | c in clients
        ensures DeliveriesTo(r.sent, c.key) == (if IsOpen(c) then 1 else 0)
      {
        SendWhereCounts(clients, NotificationFrame(m), IsOpen, c.key);
      }
    }
  }

  /** Books seats on a ride. The checks run in a fixed order and the first
      failing one answers; a refused request writes nothing. The handler
      never range-checks the seat count itself; only the database's
      32-bit columns bound it. */
  function PostBooking(repo: Repo, caller: Id, input: BookingInput, now: Instant, clients: seq<Client>): (r: Reply<BookingReceipt>)
    ensures r.result.Ok? <==> Bookable(repo, caller, input, now)
    ensures !Admissible(repo, caller, input, now) ==> r.result.Err? && r.repo == repo && r.sent == []
    ensures Admissible(repo, caller, input, now) ==>
      r == Admit(repo, caller, input, GetRide(repo, input.rideId.GetOr(0)).value, now, clients)
  {
    AlreadyBookedIff(repo, caller, input.rideId.GetOr(0));
    match GetRide(repo, input.rideId.GetOr(0))
    case None => Refuse(repo, 404, RIDE_NOT_FOUND)
    case Some(ride) =>
      if ride.departureTime < now then Refuse(repo, 400, "This ride has already departed")
      else if ride.status == CANCELLED then Refuse(repo, 400, "This ride has been cancelled")
      else if ride.status == FULL || ride.seatsAvailable == 0 then Refuse(repo, 400, "This ride is fully booked")
      else if ride.driverId == caller then Refuse(repo, 400, "You cannot book your own ride")
      else if AlreadyBooked(ListUserBookings(repo, caller), ride.id) then Refuse(repo, 400, "You have already booked this ride")
      else if ride.seatsAvailable < input.seats then
        Refuse(repo, 400, "Not enough seats available. Only " + IntToString(ride.seatsAvailable) + " seats left.")
      else Admit(repo, caller, input, ride, now, clients)
  }

  /** First failure wins: each refusal names the earliest check the request fails. */
  lemma BookingRefusalOrder(repo: Repo, caller: Id, input: BookingInput, now: Instant, clients: seq<Client>)
    ensures
      var r := PostBooking(repo, caller, input, now, clients);
      var found := GetRide(repo, input.rideId.GetOr(0));
      && (found.None? ==> r.result == Err(HttpError(404, "Ride not found")))
      && (found.Some? ==>
          var ride := found.value;
          && (ride.departureTime < now ==> r.result == Err(HttpError(400, "This ride has already departed")))
          && (ride.departureTime >= now && ride.status == CANCELLED ==>
                r.result == Err(HttpError(400, "This ride has been cancelled")))
          && (ride.departureTime >= now && ride.status != CANCELLED && (ride.status == FULL || ride.seatsAvailable == 0) ==>
                r.result == Err(HttpError(400, "This ride is fully booked")))
          && (ride.departureTime >= now && ride.status != CANCELLED && ride.status != FULL && ride.seatsAvailable != 0
              && ride.driverId == caller ==>
                r.result == Err(HttpError(400, "You cannot book your own ride")))
          && (ride.departureTime >= now && ride.status != CANCELLED && ride.status != FULL && ride.seatsAvailable != 0
              && ride.driverId != caller && HoldsBooking(repo.bookings, caller, ride.id) ==>
                r.result == Err(HttpError(400, "You have already booked this ride")))
          && (ride.departureTime >= now && ride.status != CANCELLED && ride.status != FULL && ride.seatsAvailable != 0
              && ride.driverId != caller && !HoldsBooking(repo.bookings, caller, ride.id) && ride.seatsAvailable < input.seats ==>
                r.result == Err(HttpError(400, "Not enough seats available. Only " + IntToString(ride.seatsAvailable) + " seats left."))))
  {
    AlreadyBookedIff(repo, caller, input.rideId.GetOr(0));
  }

  const INVALID_BOOKING := "Invalid booking data"

  /** The whole booking request. The body is parsed against the booking schema
      before anything else; `parsed` is that parse's outcome, the validated
      body or the message of the error it throws (a missing or non-numeric
      seat count, say). A rejected body is answered 400 with that message, or
      "Invalid booking data" when the message is empty, before any lookup and
      without any write; a parsed body goes through the booking checks. */
  function PostBookingRequest(repo: Repo, caller: Id, parsed: Result<BookingInput, string>, now: Instant,
                              clients: seq<Client>): (r: Reply<BookingReceipt>)
    ensures parsed.Err? ==> r.result.Err? && r.result.error.status == 400 && r.repo == repo && r.sent == []
    ensures parsed.Err? ==> r.result.error.message == (if parsed.error != "" then parsed.error else INVALID_BOOKING)
    ensures parsed.Err? ==> r.result.error.message != ""
    ensures parsed.Ok? ==> r == PostBooking(repo, caller, parsed.value, now, clients)
  {
    match parsed
    case Err(message) => Refuse(repo, 400, if message != "" then message else INVALID_BOOKING)
    case Ok(input) => PostBooking(repo, caller, input, now, clients)
  }

  /** A booking request succeeds exactly when its body parses, passes every
      admission check and fits the 32-bit columns. A failing request pushes
      nothing and writes nothing, except that a stored booking row survives
      when only the seat update overflows. */
  lemma BookingRequestOutcome(repo: Repo, caller: Id, parsed: Result<BookingInput, string>, now: Instant, clients: seq<Client>)
    ensures
      var r := PostBookingRequest(repo, caller, parsed, now, clients);
      && (r.result.Ok? <==> parsed.Ok? && Bookable(repo, caller, parsed.value, now))
      && (r.result.Err? ==> r.sent == [] && r.repo == repo.(bookings := r.repo.bookings, nextBookingId := r.repo.nextBookingId))
      && (r.result.Err? && !(parsed.Ok? && Admissible(repo, caller, parsed.value, now) && IsInt4(parsed.value.seats)) ==>
            r.repo == repo)
  {
  }

  /** A booking whose seat count the `seats` column cannot hold: the handler's
      checks pass, the insert fails, and the request gets 400 with the
      database's message. Nothing is written and nothing is pushed. */
  lemma BookingSeatsOutOfRange(repo: Repo, caller: Id, input: BookingInput, now: Instant, clients: seq<Client>)
    requires Admissible(repo, caller, input, now) && !IsInt4(input.seats)
    ensures
      var r := PostBooking(repo, caller, input, now, clients);
      && r.result == Err(HttpError(400, OutOfRange(input.seats)))
      && r.repo == repo && r.sent == []
  {
    var ride := GetRide(repo, input.rideId.GetOr(0)).value;
    var a := Admit(repo, caller, input, ride, now, clients);
    assert a.result.Err? && a.result.error.message == OutOfRange(input.seats);
  }

  /** A booking that would leave the ride more free seats than the
      `seats_available` column can hold (a large negative request): the
      insert succeeds, the seat update fails, and the request gets 400 with
      the database's message. The booking row stays stored; no seats,
      points, reward or notice follow, and nothing is pushed. */
  lemma BookingFreeSeatsOutOfRange(repo: Repo, caller: Id, input: BookingInput, now: Instant, clients: seq<Client>)
    requires Admissible(repo, caller, input, now) && IsInt4(input.seats)
    requires !SeatsFit(GetRide(repo, input.rideId.GetOr(0)).value, input.seats)
    ensures
      var ride := GetRide(repo, input.rideId.GetOr(0)).value;
      && PostBooking(repo, caller, input, now, clients) == Admit(repo, caller, input, ride, now, clients)
      && Admit(repo, caller, input, ride, now, clients)
           == Refuse(repo.(bookings := repo.bookings + [NewBooking(caller, input).(id := repo.nextBookingId, createdAt := now)],
                           nextBookingId := repo.nextBookingId + 1),
                     400, OutOfRange(ride.seatsAvailable - input.seats))
  {
    AdmitFreeSeatsOutOfRange(repo, caller, input, GetRide(repo, input.rideId.GetOr(0)).value, now, clients);
    PostBookingAdmits(repo, caller, input, now, clients);
  }

  /** Once admitted, the request's outcome is `Admit`'s. */
  lemma PostBookingAdmits(repo: Repo, caller: Id, input: BookingInput, now: Instant, clients: seq<Client>)
    requires Admissible(repo, caller, input, now)
    ensures PostBooking(repo, caller, input, now, clients) == Admit(repo, caller, input, GetRide(repo, input.rideId.GetOr(0)).value, now, clients)
  {
  }

  /** `Admit` when the seat update fails after the insert. */
  lemma AdmitFreeSeatsOutOfRange(repo: Repo, caller: Id, input: BookingInput, ride: Ride, now: Instant, clients: seq<Client>)
    requires GetRide(repo, ride.id) == Some(ride) && input.seats <= ride.seatsAvailable
    requires IsInt4(input.seats) && !SeatsFit(ride, input.seats)
    ensures
      Admit(repo, caller, input, ride, now, clients)
        == Refuse(repo.(bookings := repo.bookings + [NewBooking(caller, input).(id := repo.nextBookingId, createdAt := now)],
                        nextBookingId := repo.nextBookingId + 1),
                  400, OutOfRange(ride.seatsAvailable - input.seats))
  {
    var stored := CreateBooking(repo, NewBooking(caller, input), now);
    assert stored.result.Ok?;
    assert Admit(repo, caller, input, ride, now, clients) == Refuse(stored.repo, 400, OutOfRange(ride.seatsAvailable - input.seats));
  }

  /** An admitted booking's reply carries the bookkeeping writes of `Reserve`;
      only the message table and its counter may differ. */
  lemma AdmittedReserves(repo: Repo, caller: Id, input: BookingInput, now: Instant, clients: seq<Client>)
    requires Bookable(repo, caller, input, now)
    ensures
      var r := PostBooking(repo, caller, input, now, clients);
      var v := Reserve(repo, caller, input, GetRide(repo, input.rideId.GetOr(0)).value, now);
      && r.result.Ok?
      && r.result.value.booking == v.booking && r.result.value.ride == v.ride && r.result.value.reward == v.reward
      && r.repo == v.repo.(messages := r.repo.messages, nextMessageId := r.repo.nextMessageId)
      && GetUser(r.repo, caller) == GetUser(v.repo, caller)
  {
    var r := PostBooking(repo, caller, input, now, clients);
    var v := Reserve(repo, caller, input, GetRide(repo, input.rideId.GetOr(0)).value, now);
    SameUsersSameLookup(r.repo, v.repo, caller);
  }

  /** What an admitted booking writes to the booking and ride tables: one
      confirmed booking with payment pending, and exactly `seats` seats
      taken off the ride (the admission test rules out the clamp). */
  lemma BookingSuccessEffects(repo: Repo, caller: Id, input: BookingInput, now: Instant, clients: seq<Client>)
    requires Bookable(repo, caller, input, now)
    ensures
      var r := PostBooking(repo, caller, input, now, clients);
      var ride := GetRide(repo, input.rideId.GetOr(0)).value;
      var receipt := r.result.value;
      && receipt.booking.id == repo.nextBookingId && receipt.booking.rideId == ride.id
      && receipt.booking.userId == caller && receipt.booking.seats == input.seats
      && receipt.booking.status == CONFIRMED && receipt.booking.paymentStatus == PAYMENT_STATUS_DEFAULT
      && r.repo.bookings == repo.bookings + [receipt.booking]
      && receipt.ride.seatsAvailable == ride.seatsAvailable - input.seats
      && GetRide(r.repo, ride.id) == Some(receipt.ride)
  {
    var ride := GetRide(repo, input.rideId.GetOr(0)).value;
    var v := Reserve(repo, caller, input, ride, now);
    var r := PostBooking(repo, caller, input, now, clients);
    assert GetRide(r.repo, ride.id) == GetRide(v.repo, ride.id) by {
      assert r.repo.rides == v.repo.rides;
    }
  }

  /** An admitted booking earns the booker ten points; the rest of the
      booker's row is left as it was (when the booker's row exists). */
  lemma BookingAwardsPoints(repo: Repo, caller: Id, input: BookingInput, now: Instant, clients: seq<Client>)
    requires Bookable(repo, caller, input, now)
    ensures
      match GetUser(repo, caller)
      case Some(before) =>
        GetUser(PostBooking(repo, caller, input, now, clients).repo, caller)
          == Some(before.(points := Some(before.points.GetOr(0) + BOOKING_POINTS)))
      case None => true
  {
    AdmittedReserves(repo, caller, input, now, clients);
    AdmittedPoints(repo, caller, input, GetRide(repo, input.rideId.GetOr(0)).value, now);
  }

  lemma AdmittedPoints(repo: Repo, caller: Id, input: BookingInput, ride: Ride, now: Instant)
    requires GetRide(repo, ride.id) == Some(ride) && input.seats <= ride.seatsAvailable && SeatsFit(ride, input.seats)
    ensures
      match GetUser(repo, caller)
      case Some(before) =>
        GetUser(Reserve(repo, caller, input, ride, now).repo, caller)
          == Some(before.(points := Some(before.points.GetOr(0) + BOOKING_POINTS)))
      case None => true
  {
    ReserveLookup(repo, caller, input, ride, now);
    UpdateUserPointsLookup(repo, caller, BOOKING_POINTS);
  }

  /** After the bookkeeping the booker is found as the points update left them. */
  lemma ReserveLookup(repo: Repo, caller: Id, input: BookingInput, ride: Ride, now: Instant)
    requires GetRide(repo, ride.id) == Some(ride) && input.seats <= ride.seatsAvailable && SeatsFit(ride, input.seats)
    ensures GetUser(Reserve(repo, caller, input, ride, now).repo, caller)
      == GetUser(UpdateUserPoints(repo, caller, BOOKING_POINTS).1, caller)
  {
    SameUsersSameLookup(Reserve(repo, caller, input, ride, now).repo, UpdateUserPoints(repo, caller, BOOKING_POINTS).1, caller);
  }

  /** An admitted booking records one "booking" reward that expires thirty days later. */
  lemma BookingRecordsReward(repo: Repo, caller: Id, input: BookingInput, now: Instant, clients: seq<Client>)
    requires Bookable(repo, caller, input, now)
    ensures
      var r := PostBooking(repo, caller, input, now, clients);
      && r.repo.rewards == repo.rewards + [r.result.value.reward]
      && r.result.value.reward == Reward(repo.nextRewardId, caller, "booking", BOOKING_POINTS, "Booked a ride",
                                         Some(now + 30 * DAY_MS), now)
  {
    var ride := GetRide(repo, input.rideId.GetOr(0)).value;
    var v := Reserve(repo, caller, input, ride, now);
    var r := PostBooking(repo, caller, input, now, clients);
    assert r.repo.rewards == v.repo.rewards;
  }

  /** The booking schema never range-checks `seats`: a request for zero or
      a negative number of seats that passes the other checks passes every
      check of the handler. When the database can store it, it is booked and
      the ride ends up with at least as many free seats as before; otherwise
      the database's refusal answers 400. */
  lemma BookingSeatsUnchecked(repo: Repo, caller: Id, input: BookingInput, now: Instant, clients: seq<Client>)
    requires Admissible(repo, caller, input.(seats := 1), now) && input.seats <= 0
    ensures
      var r := PostBooking(repo, caller, input, now, clients);
      var id := input.rideId.GetOr(0);
      var ride := GetRide(repo, id).value;
      && Admissible(repo, caller, input, now)
      && (SeatsFit(ride, input.seats) ==>
            && r.result.Ok? && r.result.value.booking.seats == input.seats
            && GetRide(r.repo, id).value.seatsAvailable >= ride.seatsAvailable)
      && (!SeatsFit(ride, input.seats) ==> r.result.Err? && r.result.error.status == 400)
  {
    assert Admissible(repo, caller, input, now);
    if SeatsFit(GetRide(repo, input.rideId.GetOr(0)).value, input.seats) {
      BookingSuccessEffects(repo, caller, input, now, clients);
    }
  }

  /** Seats the ride still offers plus seats held by its live bookings. */
  function ReservedSeats(bookings: seq<Booking>, rideId: Id): int {
    SumOf((b: Booking) => if b.rideId == rideId && b.status != CANCELLED then b.seats else 0, bookings)
  }

  /** An admitted booking moves seats from the ride to the new booking: the
      ride's free seats plus the seats of its live bookings stay the same. */
  lemma BookingConservesSeats(repo: Repo, caller: Id, input: BookingInput, now: Instant, clients: seq<Client>)
    requires Bookable(repo, caller, input, now)
    ensures
      var r := PostBooking(repo, caller, input, now, clients);
      var id := input.rideId.GetOr(0);
      && GetRide(r.repo, id).Some?
      && GetRide(r.repo, id).value.seatsAvailable + ReservedSeats(r.repo.bookings, id)
         == GetRide(repo, id).value.seatsAvailable + ReservedSeats(repo.bookings, id)
  {
    var r := PostBooking(repo, caller, input, now, clients);
    var id := input.rideId.GetOr(0);
    BookingSuccessEffects(repo, caller, input, now, clients);
    var f := (b: Booking) => if b.rideId == id && b.status != CANCELLED then b.seats else 0;
    SumOfAppend(f, repo.bookings, [r.result.value.booking]);
    assert SumOf(f, [r.result.value.booking]) == input.seats by {
      assert [r.result.value.booking][..0] == [];
    }
  }

  /** Rows whose status is "full" exactly when they have no seats, none negative. */
  predicate SeatInvariant(rides: seq<Ride>) {
    FullIffNoSeats(rides) && forall i :: 0 <= i < |rides| ==> rides[i].seatsAvailable >= 0
  }

  lemma PostBookingKeepsSeatInvariant(repo: Repo, caller: Id, input: BookingInput, now: Instant, clients: seq<Client>)
    requires SeatInvariant(repo.rides)
    ensures SeatInvariant(PostBooking(repo, caller, input, now, clients).repo.rides)
  {
    if Bookable(repo, caller, input, now) {
      var ride := GetRide(repo, input.rideId.GetOr(0)).value;
      ReserveKeepsSeatInvariant(repo, caller, input, ride, now);
      assert PostBooking(repo, caller, input, now, clients).repo.rides == Reserve(repo, caller, input, ride, now).repo.rides;
    } else {
      assert PostBooking(repo, caller, input, now, clients).repo.rides == repo.rides;
    }
  }

  /** The bookkeeping of an admitted booking keeps the seat invariant. */
  lemma ReserveKeepsSeatInvariant(repo: Repo, caller: Id, input: BookingInput, ride: Ride, now: Instant)
    requires GetRide(repo, ride.id) == Some(ride) && input.seats <= ride.seatsAvailable && SeatsFit(ride, input.seats)
    requires SeatInvariant(repo.rides)
    ensures SeatInvariant(Reserve(repo, caller, input, ride, now).repo.rides)
  {
    var stored := CreateBooking(repo, NewBooking(caller, input), now);
    UpdateRideSeatsKeepsFullIffNoSeats(stored.repo, ride.id, input.seats);
    assert Reserve(repo, caller, input, ride, now).repo.rides == UpdateRideSeats(stored.repo, ride.id, input.seats).repo.rides;
  }

  lemma PostRideKeepsSeatInvariant(repo: Repo, caller: Id, input: RideInput, now: Instant)
    requires SeatInvariant(repo.rides)
    ensures SeatInvariant(PostRide(repo, caller, input, now).repo.rides)
  {
    var r := PostRide(repo, caller, input, now);
    if r.result.Ok? {
      assert r.repo.rides[|repo.rides|] == r.result.value;
    }
  }

  // ---------------------------------------------------------------------
  // POST /api/rides/:id/start

  predicate IsConfirmed(b: Booking) {
    b.status == CONFIRMED
  }

  /** The loop that messages every confirmed booking's passenger, in the
      order the bookings are listed. */
  function NotifyConfirmed(repo: Repo, bookings: seq<Booking>, sender: Id, content: string, rideId: Id, now: Instant): (r: Repo)
    ensures
      var c := Filter(IsConfirmed, bookings);
      && r == repo.(messages := r.messages, nextMessageId := repo.nextMessageId + |c|)
      && |r.messages| == |repo.messages| + |c|
      && r.messages[..|repo.messages|] == repo.messages
      && forall i :: 0 <= i < |c| ==>
           r.messages[|repo.messages| + i] == Message(repo.nextMessageId + i, sender, c[i].userId, content, Some(rideId), false, now)
    decreases |bookings|
  {
    if |bookings| == 0 then repo
    else
      var prior := NotifyConfirmed(repo, bookings[..|bookings| - 1], sender, content, rideId, now);
      var last := bookings[|bookings| - 1];
      if IsConfirmed(last) then
        CreateMessage(prior, Message(0, sender, last.userId, content, Some(rideId), MESSAGE_IS_READ_DEFAULT, 0), now).1
      else prior
  }

  function StartNotice(ride: Ride): string {
    "Your ride from " + ride.origin + " to " + ride.destination + " has started. Track in real-time!"
  }

  /** An open connection that announced a (non-zero) user. */
  predicate IsSignedInOpen(c: Client) {
    c.readyState == Open && c.userId.Some? && c.userId.value != 0
  }

  /** Starts a ride: only its driver may, and only from "pending". */
  function StartRide(repo: Repo, caller: Id, rideId: Id, now: Instant, clients: seq<Client>): (r: Reply<Ride>)
    ensures r.result.Ok? <==>
      GetRide(repo, rideId).Some? && GetRide(repo, rideId).value.driverId == caller && GetRide(repo, rideId).value.status == PENDING
    ensures GetRide(repo, rideId).None? ==> r.result == Err(HttpError(404, RIDE_NOT_FOUND))
    ensures GetRide(repo, rideId).Some? && GetRide(repo, rideId).value.driverId != caller ==>
      r.result == Err(HttpError(403, "Only the driver can start this ride"))
    ensures GetRide(repo, rideId).Some? && GetRide(repo, rideId).value.driverId == caller && GetRide(repo, rideId).value.status != PENDING ==>
      r.result == Err(HttpError(400, "Cannot start a ride in " + GetRide(repo, rideId).value.status + " status"))
    ensures r.result.Err? ==> r.repo == repo && r.sent == []
    ensures r.result.Ok? ==>
      && r.result.value == GetRide(repo, rideId).value.(status := IN_PROGRESS)
      && forall i :: 0 <= i < |r.sent| ==> r.sent[i].frame == RideStatusFrame(rideId, IN_PROGRESS)
  {
    match GetRide(repo, rideId)
    case None => Refuse(repo, 404, RIDE_NOT_FOUND)
    case Some(ride) =>
      if ride.driverId != caller then Refuse(repo, 403, "Only the driver can start this ride")
      else if ride.status != PENDING then Refuse(repo, 400, "Cannot start a ride in " + ride.status + " status")
      else
        var (updated, repo1) := UpdateRideStatus(repo, rideId, IN_PROGRESS);
        var repo2 := NotifyConfirmed(repo1, ListRideBookings(repo1, rideId), caller, StartNotice(ride), rideId, now);
        Reply(Ok(updated.value), repo2, SendWhere(clients, RideStatusFrame(rideId, IN_PROGRESS), IsSignedInOpen))
  }

  const START_FAILED := "Failed to start ride"

  /** The whole start request. `parsedId` is `parseInt` of the path segment,
      `None` when that is NaN. The lookup throws for a key the `integer`
      column cannot hold (NaN, or a number out of its range), and the
      handler's `catch` answers 500; any other key is handled as above. */
  function StartRideRequest(repo: Repo, caller: Id, parsedId: Option<int>, now: Instant, clients: seq<Client>): (r: Reply<Ride>)
    ensures parsedId.None? ==> r == Refuse(repo, 500, START_FAILED)
    ensures parsedId.Some? && !IsInt4(parsedId.value) ==> r == Refuse(repo, 500, START_FAILED)
    ensures parsedId.Some? && IsInt4(parsedId.value) ==> r == StartRide(repo, caller, parsedId.value, now, clients)
  {
    match parsedId
    case None => Refuse(repo, 500, START_FAILED)
    case Some(id) => if !IsInt4(id) then Refuse(repo, 500, START_FAILED) else StartRide(repo, caller, id, now, clients)
  }

  /** A start request succeeds exactly when the path names, within the
      column's range, a pending ride the caller drives; it fails with 500
      exactly when the path is no usable key; a failure changes nothing. */
  lemma StartRideRequestOutcome(repo: Repo, caller: Id, parsedId: Option<int>, now: Instant, clients: seq<Client>)
    ensures
      var r := StartRideRequest(repo, caller, parsedId, now, clients);
      && (r.result.Ok? <==>
            && parsedId.Some? && IsInt4(parsedId.value) && GetRide(repo, parsedId.value).Some?
            && GetRide(repo, parsedId.value).value.driverId == caller
            && GetRide(repo, parsedId.value).value.status == PENDING)
      && (r.result.Err? ==> r.repo == repo && r.sent == [])
      && (r.result.Err? && r.result.error.status == 500 <==> parsedId.None? || !IsInt4(parsedId.value))
  {
  }

  /** What a started ride writes to the ride, booking and user tables: the
      ride's rows become "in_progress", nothing else there changes, and the
      ride is then found as returned. */
  lemma StartRideUpdatesRide(repo: Repo, caller: Id, rideId: Id, now: Instant, clients: seq<Client>)
    requires GetRide(repo, rideId).Some? && GetRide(repo, rideId).value.driverId == caller
    requires GetRide(repo, rideId).value.status == PENDING
    ensures var r := StartRide(repo, caller, rideId, now, clients);
      && GetRide(r.repo, rideId) == Some(r.result.value)
      && |r.repo.rides| == |repo.rides|
      && (forall i :: 0 <= i < |repo.rides| ==>
            r.repo.rides[i] == if repo.rides[i].id == rideId then repo.rides[i].(status := IN_PROGRESS) else repo.rides[i])
      && r.repo.bookings == repo.bookings && r.repo.users == repo.users
  {
    var ride := GetRide(repo, rideId).value;
    var (updated, repo1) := UpdateRideStatus(repo, rideId, IN_PROGRESS);
    var repo2 := NotifyConfirmed(repo1, ListRideBookings(repo1, rideId), caller, StartNotice(ride), rideId, now);
    assert StartRide(repo, caller, rideId, now, clients).repo == repo2;
    assert repo2.rides == repo1.rides;
    assert GetRide(repo2, rideId) == GetRide(repo1, rideId);
  }

  /** The repository a started ride leaves: the status update, then the
      passengers' notices. */
  lemma StartRideRepo(repo: Repo, caller: Id, rideId: Id, now: Instant, clients: seq<Client>)
    requires GetRide(repo, rideId).Some? && GetRide(repo, rideId).value.driverId == caller
    requires GetRide(repo, rideId).value.status == PENDING
    ensures StartRide(repo, caller, rideId, now, clients).repo ==
      NotifyConfirmed(UpdateRideStatus(repo, rideId, IN_PROGRESS).1, ListRideBookings(repo, rideId), caller,
                      StartNotice(GetRide(repo, rideId).value), rideId, now)
  {
    var repo1 := UpdateRideStatus(repo, rideId, IN_PROGRESS).1;
    assert ListRideBookings(repo1, rideId) == ListRideBookings(repo, rideId) by {
      assert repo1.bookings == repo.bookings;
    }
  }

  /** `after` is `before` followed by one message per booking of `c`, in
      order, from `sender` to the booking's passenger, carrying `content`. */
  predicate Appended(before: seq<Message>, after: seq<Message>, c: seq<Booking>, sender: Id, content: string) {
    && |after| == |before| + |c|
    && after[..|before|] == before
    && forall i :: 0 <= i < |c| ==>
         && after[|before| + i].receiverId == c[i].userId
         && after[|before| + i].senderId == sender
         && after[|before| + i].content == content
  }

  /** A started ride messages each confirmed booking's passenger exactly
      once, in the order `listRideBookings` lists the bookings, with the
      start notice. */
  lemma {:induction false} StartRideNotifiesPassengers(repo: Repo, caller: Id, rideId: Id, now: Instant, clients: seq<Client>)
    requires GetRide(repo, rideId).Some? && GetRide(repo, rideId).value.driverId == caller
    requires GetRide(repo, rideId).value.status == PENDING
    ensures Appended(repo.messages, StartRide(repo, caller, rideId, now, clients).repo.messages,
                     Filter(IsConfirmed, ListRideBookings(repo, rideId)), caller, StartNotice(GetRide(repo, rideId).value))
  {
    StartRideRepo(repo, caller, rideId, now, clients);
    var repo1 := UpdateRideStatus(repo, rideId, IN_PROGRESS).1;
    var notice := StartNotice(GetRide(repo, rideId).value);
    assert StartRide(repo, caller, rideId, now, clients).repo
      == NotifyConfirmed(repo1, ListRideBookings(repo, rideId), caller, notice, rideId, now);
    assert repo1.messages == repo.messages;
    NotifyConfirmedAddresses(repo1, ListRideBookings(repo, rideId), caller, notice, rideId, now);
  }

  /** The messages the notice loop appends: one per confirmed booking, in
      order, from `sender` to the booking's passenger, carrying `content`. */
  lemma {:induction false} NotifyConfirmedAddresses(repo: Repo, bookings: seq<Booking>, sender: Id, content: string, rideId: Id, now: Instant)
    ensures Appended(repo.messages, NotifyConfirmed(repo, bookings, sender, content, rideId, now).messages,
                     Filter(IsConfirmed, bookings), sender, content)
  {
    var r := NotifyConfirmed(repo, bookings, sender, content, rideId, now);
    var c := Filter(IsConfirmed, bookings);
    forall i | 0 <= i < |c|
      ensures && r.messages[|repo.messages| + i].receiverId == c[i].userId
              && r.messages[|repo.messages| + i].senderId == sender
              && r.messages[|repo.messages| + i].content == content
    {
      assert r.messages[|repo.messages| + i] == Message(repo.nextMessageId + i, sender, c[i].userId, content, Some(rideId), false, now);
    }
  }

  /** A started ride's status frame reaches each signed-in open connection
      exactly once and no other connection. */
  lemma StartRideReachesSignedIn(repo: Repo, caller: Id, rideId: Id, now: Instant, clients: seq<Client>)
    requires UniqueKeys(clients)
    ensures var r := StartRide(repo, caller, rideId, now, clients);
      r.result.Ok? ==> forall c :: c in clients ==>
        DeliveriesTo(r.sent, c.key) == (if IsSignedInOpen(c) then 1 else 0)
  {
    var r := StartRide(repo, caller, rideId, now, clients);
    if r.result.Ok? {
      var frame := RideStatusFrame(rideId, IN_PROGRESS);
      assert r.sent == SendWhere(clients, frame, IsSignedInOpen);
      forall c | c in clients ensures DeliveriesTo(r.sent, c.key) == (if IsSignedInOpen(c) then 1 else 0) {
        SendWhereCounts(clients, frame, IsSignedInOpen, c.key);
      }
    }
  }

  /** Starting a ride never breaks the seat invariant: the started ride was
      not full, so it had seats, and only its status changes. */
  lemma StartRideKeepsSeatInvariant(repo: Repo, caller: Id, rideId: Id, now: Instant, clients: seq<Client>)
    requires SeatInvariant(repo.rides) && RideKeysUnique(repo.rides)
    ensures SeatInvariant(StartRide(repo, caller, rideId, now, clients).repo.rides)
  {
    var r := StartRide(repo, caller, rideId, now, clients);
    if r.result.Ok? {
      StartRideUpdatesRide(repo, caller, rideId, now, clients);
      forall i | 0 <= i < |repo.rides| && repo.rides[i].id == rideId ensures repo.rides[i].seatsAvailable != 0 {
        GetRideUnique(repo, rideId, i);
      }
      StartedRowsKeepSeatInvariant(repo.rides, r.repo.rides, rideId);
    }
  }

  /** Marking seated rows "in_progress" keeps the seat invariant. */
  lemma StartedRowsKeepSeatInvariant(before: seq<Ride>, after: seq<Ride>, rideId: Id)
    requires SeatInvariant(before) && |after| == |before|
    requires forall i :: 0 <= i < |before| ==>
      after[i] == if before[i].id == rideId then before[i].(status := IN_PROGRESS) else before[i]
    requires forall i :: 0 <= i < |before| && before[i].id == rideId ==> before[i].seatsAvailable != 0
    ensures SeatInvariant(after)
  {
    forall i | 0 <= i < |after| ensures after[i].status == FULL <==> after[i].seatsAvailable == 0 {
      assert after[i] == if before[i].id == rideId then before[i].(status := IN_PROGRESS) else before[i];
    }
  }
}

=== FILE: safety.dfy ===
/** The safety service: raising an alert (which notifies the driver through a
    message, emergency services for emergencies, and the reporter's trusted
    contacts), resolving one, the human-readable alert texts, and the alert
    broadcast. The alert itself is not persisted; its key is drawn at random,
    here passed in as `freshId`. */
module Safety {
  import opened Common
  import opened Schema
  import opened Storage
  import opened Events

  const EMERGENCY := "emergency"
  const SAFETY_CHECK := "safety_check"
  const LOCATION_DEVIATION := "location_deviation"
  const DELAYED_ARRIVAL := "delayed_arrival"
  const BEHAVIORAL_CONCERN := "behavioral_concern"

  const EMERGENCY_TEXT := "Emergency alert triggered. Emergency services have been notified."
  const SAFETY_CHECK_TEXT := "Safety check requested. Please respond to confirm your safety."
  const DEVIATION_TEXT := "Vehicle has deviated from expected route. Please verify with driver."
  const DELAY_TEXT := "Arrival significantly delayed. System monitoring situation."
  const BEHAVIOR_TEXT := "Behavioral concern reported. Stay vigilant and report any issues."
  const DEFAULT_ALERT_MESSAGE := "Safety alert triggered. Please take appropriate precautions."

  /** Prefix of the message the service sends the driver ("⚠️ SAFETY ALERT: "). */
  const WARNING_PREFIX := "\U{26A0}\U{FE0F} SAFETY ALERT: "

  /** The two notifications that leave the system; both are log lines in the
      service, recorded here in the order they happen. */
  datatype ExternalCall =
    | EmergencyServicesNotified(alert: SafetyAlert)
    | TrustedContactsNotified(userId: Id, alert: SafetyAlert)

  /** `getAlertMessage`: the text shown for an alert of the given type. */
  function AlertMessage(alertType: string): (m: string)
    ensures m != DEFAULT_ALERT_MESSAGE <==> alertType in ALERT_TYPES
  {
    if alertType == EMERGENCY then EMERGENCY_TEXT
    else if alertType == SAFETY_CHECK then SAFETY_CHECK_TEXT
    else if alertType == LOCATION_DEVIATION then DEVIATION_TEXT
    else if alertType == DELAYED_ARRIVAL then DELAY_TEXT
    else if alertType == BEHAVIORAL_CONCERN then BEHAVIOR_TEXT
    else DEFAULT_ALERT_MESSAGE
  }

  /** Each alert type has a text of its own: no two types share one. */
  lemma AlertMessagesDistinct(a: string, b: string)
    requires a in ALERT_TYPES && b in ALERT_TYPES && a != b
    ensures AlertMessage(a) != AlertMessage(b)
  {
    assert EMERGENCY_TEXT != SAFETY_CHECK_TEXT && EMERGENCY_TEXT != DEVIATION_TEXT
      && EMERGENCY_TEXT != DELAY_TEXT && EMERGENCY_TEXT != BEHAVIOR_TEXT;
    assert SAFETY_CHECK_TEXT != DEVIATION_TEXT && SAFETY_CHECK_TEXT != DELAY_TEXT && SAFETY_CHECK_TEXT != BEHAVIOR_TEXT;
    assert DEVIATION_TEXT != DELAY_TEXT && DEVIATION_TEXT != BEHAVIOR_TEXT && DELAY_TEXT != BEHAVIOR_TEXT;
  }

  /** The schema and the service agree on the alert kinds: the schema
      accepts a body exactly when the service has a text of its own for its
      type, and two accepted bodies of different types get different texts. */
  lemma AcceptedAlertsHaveOwnText(a: AlertInput, b: AlertInput)
    ensures ValidAlertInput(a) <==> AlertMessage(a.alertType) != DEFAULT_ALERT_MESSAGE
    ensures ValidAlertInput(a) && ValidAlertInput(b) && a.alertType != b.alertType ==>
      AlertMessage(a.alertType) != AlertMessage(b.alertType)
  {
    if ValidAlertInput(a) && ValidAlertInput(b) && a.alertType != b.alertType {
      AlertMessagesDistinct(a.alertType, b.alertType);
    }
  }

  datatype AlertOutcome = AlertOutcome(result: Result<SafetyAlert, string>, repo: Repo, calls: seq<ExternalCall>)

  /** `createSafetyAlert`. Emergency services are notified before the ride is
      looked up, so an emergency alert on a missing ride still reaches them
      although the call then fails with "Ride not found". */
  function CreateSafetyAlert(repo: Repo, alert: SafetyAlert, freshId: Id, now: Instant): (out: AlertOutcome)
    ensures out.result.Ok? <==> GetRide(repo, alert.rideId).Some?
    ensures out.result.Ok? ==> out.result.value == alert.(id := Some(freshId))
    ensures out.result.Err? ==> out.result.error == RIDE_NOT_FOUND && out.repo == repo
    ensures alert.alertType == EMERGENCY <==> (|out.calls| > 0 && out.calls[0].EmergencyServicesNotified?)
    ensures out.result.Ok? <==> (|out.calls| > 0 && out.calls[|out.calls| - 1] == TrustedContactsNotified(alert.userId, alert.(id := Some(freshId))))
    ensures out.result.Ok? && GetRide(repo, alert.rideId).value.driverId != alert.userId ==>
      out.repo == repo.(messages := out.repo.messages, nextMessageId := repo.nextMessageId + 1)
      && out.repo.messages == repo.messages + [Message(repo.nextMessageId, alert.userId, GetRide(repo, alert.rideId).value.driverId,
                                                     WARNING_PREFIX + AlertMessage(alert.alertType), Some(alert.rideId), false, now)]
    ensures out.result.Ok? && GetRide(repo, alert.rideId).value.driverId == alert.userId ==> out.repo == repo
  {
    var withId := alert.(id := Some(freshId));
    var first := if alert.alertType == EMERGENCY then [EmergencyServicesNotified(withId)] else [];
    match GetRide(repo, alert.rideId)
    case None => AlertOutcome(Err(RIDE_NOT_FOUND), repo, first)
    case Some(ride) =>
      var repo' :=
        if ride.driverId != alert.userId then
          CreateMessage(repo, Message(0, alert.userId, ride.driverId, WARNING_PREFIX + AlertMessage(alert.alertType),
                                      Some(alert.rideId), MESSAGE_IS_READ_DEFAULT, 0), now).1
        else repo;
      AlertOutcome(Ok(withId), repo', first + [TrustedContactsNotified(alert.userId, withId)])
  }

  /** `resolveSafetyAlert`: answers with a canned resolved alert carrying the
      given key and resolver; no stored alert is consulted or changed. */
  function ResolveSafetyAlert(alertId: Id, resolvedBy: Id, now: Instant): (a: SafetyAlert)
    ensures a.id == Some(alertId) && a.resolvedBy == Some(resolvedBy)
    ensures a.status == "resolved" && a.resolvedAt == Some(now) && a.timestamp == now
    ensures a.alertType == SAFETY_CHECK && a.userId == 1 && a.rideId == 1
  {
    SafetyAlert(Some(alertId), 1, 1, SAFETY_CHECK, "Issue resolved", None, None, now, "resolved", Some(resolvedBy), Some(now))
  }

  /** `broadcastSafetyAlert`: a `safety_alert` frame to every open client. */
  function BroadcastSafetyAlert(clients: seq<Client>, alert: SafetyAlert): (ds: seq<Delivery>)
    ensures forall i :: 0 <= i < |ds| ==> ds[i].frame == SafetyAlertFrame(alert)
  {
    SendWhere(clients, SafetyAlertFrame(alert), IsOpen)
  }

  /** Each open client receives the alert exactly once, every other client
      not at all. */
  lemma BroadcastReachesOpenClients(clients: seq<Client>, alert: SafetyAlert)
    requires UniqueKeys(clients)
    ensures forall c :: c in clients ==>
      DeliveriesTo(BroadcastSafetyAlert(clients, alert), c.key) == (if c.readyState == Open then 1 else 0)
  {
    forall c | c in clients
      ensures DeliveriesTo(BroadcastSafetyAlert(clients, alert), c.key) == (if c.readyState == Open then 1 else 0)
    {
      SendWhereCounts(clients, SafetyAlertFrame(alert), IsOpen, c.key);
    }
  }
}

=== FILE: schema.dfy ===
/** The persisted entities of the ride-sharing platform (the `users`, `rides`,
    `bookings`, `messages`, `rewards` and `trusted_contacts` tables), their
    column defaults, and the insert schemas that validate request bodies. */
module Schema {
  import opened Common

  /** Serial primary keys and foreign keys. */
  type Id = int

  /** A point in time, in milliseconds since the epoch (`Date.getTime()`). */
  type Instant = int

  // Status vocabulary. The columns are free text; these are the values the
  // server writes or compares against.
  const PENDING := "pending"
  const IN_PROGRESS := "in_progress"
  const FULL := "full"
  const COMPLETED := "completed"
  const CANCELLED := "cancelled"
  const CONFIRMED := "confirmed"

  // Column defaults of the table definitions.
  const RIDE_STATUS_DEFAULT := "pending"
  const BOOKING_STATUS_DEFAULT := "pending"
  const PAYMENT_STATUS_DEFAULT := "pending"
  const MESSAGE_IS_READ_DEFAULT := false
  const ALERT_STATUS_DEFAULT := "active"
  const EMERGENCY_CONTACT_DEFAULT := false
  const USER_POINTS_DEFAULT := 0

  datatype User = User(
    id: Id,
    username: string,
    email: string,
    fullName: Option<string>,
    points: Option<int>,
    lastActive: Option<Instant>,
    emergencyContactId: Option<Id>)

  datatype Ride = Ride(
    id: Id,
    driverId: Id,
    origin: string,
    destination: string,
    departureTime: Instant,
    seatsAvailable: int,
    price: real,
    status: string,
    carModel: Option<string>,
    carColor: Option<string>,
    licensePlate: Option<string>,
    preferences: Option<string>,
    createdAt: Instant)

  datatype Booking = Booking(
    id: Id,
    rideId: Id,
    userId: Id,
    seats: int,
    status: string,
    paymentStatus: string,
    specialRequests: Option<string>,
    pickupLocation: Option<string>,
    dropoffLocation: Option<string>,
    createdAt: Instant)

  datatype Message = Message(
    id: Id,
    senderId: Id,
    receiverId: Id,
    content: string,
    rideId: Option<Id>,
    isRead: bool,
    createdAt: Instant)

  datatype Reward = Reward(
    id: Id,
    userId: Id,
    kind: string,
    points: int,
    description: string,
    expiryDate: Option<Instant>,
    createdAt: Instant)

  datatype TrustedContact = TrustedContact(
    id: Id,
    userId: Id,
    contactName: string,
    contactPhone: string,
    contactEmail: Option<string>,
    relationship: string,
    isEmergencyContact: bool)

  /** A safety alert as the safety service handles it (the `SafetyAlert`
      interface of the service; `id` is absent until one is assigned). */
  datatype SafetyAlert = SafetyAlert(
    id: Option<Id>,
    userId: Id,
    rideId: Id,
    alertType: string,
    details: string,
    latitude: Option<real>,
    longitude: Option<real>,
    timestamp: Instant,
    status: string,
    resolvedBy: Option<Id>,
    resolvedAt: Option<Instant>)

  /** The value an insert stores in a column that has a default. */
  function ColumnValue<T>(given: Option<T>, default: T): (v: T)
    ensures given.None? ==> v == default
    ensures given.Some? ==> v == given.value
  {
    given.GetOr(default)
  }

  /** A JSON number that is a whole number (`z.number().int()`). */
  predicate IsWhole(x: real) {
    x.Floor as real == x
  }

  // ---------------------------------------------------------------------
  // Ride creation body (`insertRideSchema`).

  /** The parsed body of `POST /api/rides`. `departureTime` is `None` when
      the string does not parse to a date. */
  datatype RideInput = RideInput(
    origin: string,
    destination: string,
    departureTime: Option<Instant>,
    seatsAvailable: real,
    price: real,
    carModel: Option<string>,
    carColor: Option<string>,
    licensePlate: Option<string>,
    preferences: Option<string>)

  /** The rules of `insertRideSchema`, stated field by field. */
  predicate ValidRideInput(r: RideInput, now: Instant) {
    && 1 <= |r.origin| <= 100
    && 1 <= |r.destination| <= 100
    && r.departureTime.Some? && r.departureTime.value > now
    && IsWhole(r.seatsAvailable) && 1.0 <= r.seatsAvailable <= 8.0
    && r.price >= 0.0 && IsWhole(r.price * 100.0)
  }

  const MAX_100_MESSAGE := "String must contain at most 100 character(s)"
  const INTEGER_MESSAGE := "Expected integer, received float"

  /** The message of the first issue the schema reports (fields in schema
      order, checks in declaration order), or `None` when the body parses. */
  function RideInputIssue(r: RideInput, now: Instant): (issue: Option<string>)
    ensures issue.None? <==> ValidRideInput(r, now)
  {
    if |r.origin| < 1 then Some("Origin is required")
    else if |r.origin| > 100 then Some(MAX_100_MESSAGE)
    else if |r.destination| < 1 then Some("Destination is required")
    else if |r.destination| > 100 then Some(MAX_100_MESSAGE)
    else if r.departureTime.None? || r.departureTime.value <= now then Some("Departure time must be in the future")
    else if !IsWhole(r.seatsAvailable) then Some(INTEGER_MESSAGE)
    else if r.seatsAvailable < 1.0 then Some("At least 1 seat required")
    else if r.seatsAvailable > 8.0 then Some("Maximum 8 seats allowed")
    else if r.price < 0.0 then Some("Price cannot be negative")
    else if !IsWhole(r.price * 100.0) then Some("Price must be in valid currency format")
    else None
  }

  // ---------------------------------------------------------------------
  // Booking body (`insertBookingSchema`): only the optional text fields are
  // refined and `rideId` may be absent. `seats` keeps the rule generated for
  // its integer column; the model takes the generator that makes it a plain
  // number, so any whole count passes, out of the 32-bit range included.

  datatype BookingInput = BookingInput(
    rideId: Option<Id>,
    seats: int,
    specialRequests: Option<string>,
    pickupLocation: Option<string>,
    dropoffLocation: Option<string>)

  // ---------------------------------------------------------------------
  // Safety alert body (`insertSafetyAlertSchema`).

  const ALERT_TYPES: seq<string> :=
    ["emergency", "safety_check", "location_deviation", "delayed_arrival", "behavioral_concern"]

  datatype AlertInput = AlertInput(
    userId: Option<Id>,
    rideId: Option<Id>,
    alertType: string,
    details: Option<string>,
    latitude: Option<real>,
    longitude: Option<real>)

  predicate ValidAlertInput(a: AlertInput) {
    a.alertType in ALERT_TYPES
  }

  // ---------------------------------------------------------------------
  // Trusted contact body (`insertTrustedContactSchema`). Email syntax is the
  // validator library's, passed in as `isEmail`.

  datatype ContactInput = ContactInput(
    userId: Option<Id>,
    contactName: string,
    contactPhone: string,
    contactEmail: Option<string>,
    relationship: string,
    isEmergencyContact: Option<bool>)

  predicate ValidContactInput(c: ContactInput, isEmail: string -> bool) {
    && |c.contactName| >= 1
    && |c.contactPhone| >= 10
    && (c.contactEmail.Some? ==> isEmail(c.contactEmail.value))
    && |c.relationship| >= 1
  }

  const INVALID_EMAIL_MESSAGE := "Invalid email format"

  function ContactInputIssue(c: ContactInput, isEmail: string -> bool): (issue: Option<string>)
    ensures issue.None? <==> ValidContactInput(c, isEmail)
  {
    if |c.contactName| < 1 then Some("Contact name is required")
    else if |c.contactPhone| < 10 then Some("Valid phone number is required")
    else if c.contactEmail.Some? && !isEmail(c.contactEmail.value) then Some(INVALID_EMAIL_MESSAGE)
    else if |c.relationship| < 1 then Some("Relationship is required")
    else None
  }

  // ---------------------------------------------------------------------
  // Safety zone body (`insertSafetyZoneSchema`).

  datatype ZoneInput = ZoneInput(
    name: string,
    description: Option<string>,
    latitude: Option<real>,
    longitude: Option<real>,
    radiusMeters: real,
    createdBy: Option<Id>)

  predicate ValidZoneInput(z: ZoneInput) {
    && |z.name| >= 1
    && z.latitude.Some? && z.longitude.Some?
    && IsWhole(z.radiusMeters) && z.radiusMeters >= 10.0
  }

  function ZoneInputIssue(z: ZoneInput): (issue: Option<string>)
    ensures issue.None? <==> ValidZoneInput(z)
  {
    if |z.name| < 1 then Some("Zone name is required")
    else if z.latitude.None? || z.longitude.None? then Some("Required")
    else if !IsWhole(z.radiusMeters) then Some(INTEGER_MESSAGE)
    else if z.radiusMeters < 10.0 then Some("Radius must be at least 10 meters")
    else None
  }

  // ---------------------------------------------------------------------
  // Registration body (`insertUserSchema`) and review body (`insertReviewSchema`).

  datatype UserInput = UserInput(
    username: string,
    password: string,
    email: string,
    fullName: Option<string>,
    phoneNumber: Option<string>)

  predicate ValidUserInput(u: UserInput, isEmail: string -> bool) {
    isEmail(u.email) && |u.password| >= 8
  }

  /** The password is checked before the email: the schema picks it first. */
  function UserInputIssue(u: UserInput, isEmail: string -> bool): (issue: Option<string>)
    ensures issue.None? <==> ValidUserInput(u, isEmail)
    ensures |u.password| < 8 ==> issue == Some("Password must be at least 8 characters")
  {
    if |u.password| < 8 then Some("Password must be at least 8 characters")
    else if !isEmail(u.email) then Some(INVALID_EMAIL_MESSAGE)
    else None
  }

  datatype ReviewInput = ReviewInput(rating: real, comment: Option<string>)

  predicate ValidReviewInput(r: ReviewInput) {
    1.0 <= r.rating <= 5.0
  }

  function ReviewInputIssue(r: ReviewInput): (issue: Option<string>)
    ensures issue.None? <==> ValidReviewInput(r)
  {
    if r.rating < 1.0 then Some("Number must be greater than or equal to 1")
    else if r.rating > 5.0 then Some("Number must be less than or equal to 5")
    else None
  }
}

=== FILE: storage.dfy ===
/** The repository the request handlers use (`DatabaseStorage` and the free
    functions beside it), as pure operations on an in-memory copy of the
    tables. Reads return the first row with the key (`const [row] = await
    db.select()...`); updates rewrite every row with the key (`UPDATE ...
    WHERE id = ...`) and return the first rewritten row. */
module Storage {
  import opened Common
  import opened Schema
  import Ordering

  /** The tables, with the next value of each table's serial key. */
  datatype Repo = Repo(
    users: seq<User>,
    rides: seq<Ride>,
    bookings: seq<Booking>,
    messages: seq<Message>,
    rewards: seq<Reward>,
    contacts: seq<TrustedContact>,
    nextUserId: Id,
    nextRideId: Id,
    nextBookingId: Id,
    nextMessageId: Id,
    nextRewardId: Id,
    nextContactId: Id)

  /** The outcome of a storage call that may throw, with the state after it. */
  datatype Step<T> = Step(result: Result<T, string>, repo: Repo)

  const RIDE_NOT_FOUND := "Ride not found"

  function Max(a: int, b: int): int { if a >= b then a else b }

  /** The range of the `integer` (32-bit) columns such as `seats` and
      `seats_available`; the database refuses to store any other value. */
  const INT4_MIN := -0x8000_0000
  const INT4_MAX := 0x7FFF_FFFF

  predicate IsInt4(n: int) {
    INT4_MIN <= n <= INT4_MAX
  }

  /** PostgreSQL's error text for a value an `integer` column cannot hold. */
  function OutOfRange(n: int): (m: string)
    ensures m != ""
  {
    Concat(["value \"", IntToString(n), "\" is out of range for type integer"])
  }

  // ---------------------------------------------------------------------
  // Reads by key.

  function GetUser(repo: Repo, id: Id): (u: Option<User>)
    ensures u.Some? ==> u.value in repo.users && u.value.id == id
    ensures u.None? <==> forall i :: 0 <= i < |repo.users| ==> repo.users[i].id != id
  {
    match FirstIndex(repo.users, (x: User) => x.id == id)
    case None => None
    case Some(k) => Some(repo.users[k])
  }

  /** A user lookup reads the user table only. */
  lemma SameUsersSameLookup(a: Repo, b: Repo, id: Id)
    requires a.users == b.users
    ensures GetUser(a, id) == GetUser(b, id)
  {
  }

  function GetRide(repo: Repo, id: Id): (r: Option<Ride>)
    ensures r.Some? ==> r.value in repo.rides && r.value.id == id
    ensures r.None? <==> forall i :: 0 <= i < |repo.rides| ==> repo.rides[i].id != id
  {
    match FirstIndex(repo.rides, (x: Ride) => x.id == id)
    case None => None
    case Some(k) => Some(repo.rides[k])
  }

  // ---------------------------------------------------------------------
  // Seat inventory.

  /** Rewrites seats and status of every ride row with key `id`. */
  function SetRideSeats(rides: seq<Ride>, id: Id, seats: int, status: string): (r: seq<Ride>)
    ensures |r| == |rides|
    ensures forall i :: 0 <= i < |r| ==>
      r[i] == if rides[i].id == id then rides[i].(seatsAvailable := seats, status := status) else rides[i]
  {
    seq(|rides|, i requires 0 <= i < |rides| =>
      if rides[i].id == id then rides[i].(seatsAvailable := seats, status := status) else rides[i])
  }

  /** `updateRideSeats`: takes `seatsBooked` seats off the ride (never going
      below zero) and recomputes its status. A new count above the column's
      range makes the `UPDATE` fail, and nothing is written. */
  function UpdateRideSeats(repo: Repo, rideId: Id, seatsBooked: int): (s: Step<Ride>)
    ensures GetRide(repo, rideId).None? ==> s.result == Err(RIDE_NOT_FOUND) && s.repo == repo
    ensures GetRide(repo, rideId).Some? ==>
      (s.result.Ok? <==> GetRide(repo, rideId).value.seatsAvailable - seatsBooked <= INT4_MAX)
    ensures GetRide(repo, rideId).Some? && s.result.Err? ==>
      s.result.error == OutOfRange(GetRide(repo, rideId).value.seatsAvailable - seatsBooked) && s.repo == repo
    ensures s.result.Ok? ==>
      var old_ := GetRide(repo, rideId).value;
      var new_ := s.result.value;
      && new_ == old_.(seatsAvailable := new_.seatsAvailable, status := new_.status)
      && 0 <= new_.seatsAvailable <= INT4_MAX
      && (new_.seatsAvailable == old_.seatsAvailable - seatsBooked || (new_.seatsAvailable == 0 && old_.seatsAvailable - seatsBooked < 0))
      && (new_.seatsAvailable == 0 ==> new_.status == FULL)
      && (new_.seatsAvailable > 0 && old_.status == FULL ==> new_.status == PENDING)
      && (new_.seatsAvailable > 0 && old_.status != FULL ==> new_.status == old_.status)
      && s.repo == repo.(rides := s.repo.rides)
      && |s.repo.rides| == |repo.rides|
      && (forall i :: 0 <= i < |repo.rides| ==>
            s.repo.rides[i] == if repo.rides[i].id == rideId
                               then repo.rides[i].(seatsAvailable := new_.seatsAvailable, status := new_.status)
                               else repo.rides[i])
    ensures s.result.Ok? ==> GetRide(s.repo, rideId) == Some(s.result.value)
  {
    match GetRide(repo, rideId)
    case None => Step(Err(RIDE_NOT_FOUND), repo)
    case Some(ride) =>
      var newSeats := Max(0, ride.seatsAvailable - seatsBooked);
      if newSeats > INT4_MAX then Step(Err(OutOfRange(newSeats)), repo) else
      var newStatus :=
        if newSeats == 0 then FULL
        else if ride.status == FULL && newSeats > 0 then PENDING
        else ride.status;
      var rides' := SetRideSeats(repo.rides, rideId, newSeats, newStatus);
      FirstIndexAgrees(repo.rides, (x: Ride) => x.id == rideId, rides', (x: Ride) => x.id == rideId);
      Step(Ok(ride.(seatsAvailable := newSeats, status := newStatus)), repo.(rides := rides'))
  }

  /** `updateRideSeats` on one ride leaves the lookup of every other ride as it was. */
  lemma UpdateRideSeatsLeavesOtherRides(repo: Repo, rideId: Id, seatsBooked: int, other: Id)
    requires other != rideId
    ensures GetRide(UpdateRideSeats(repo, rideId, seatsBooked).repo, other) == GetRide(repo, other)
  {
    var rides' := UpdateRideSeats(repo, rideId, seatsBooked).repo.rides;
    FirstIndexAgrees(repo.rides, (x: Ride) => x.id == other, rides', (x: Ride) => x.id == other);
  }

  /** Ride keys are a serial primary key: no two rows share one. */
  predicate RideKeysUnique(rides: seq<Ride>) {
    forall i, j :: 0 <= i < j < |rides| ==> rides[i].id != rides[j].id
  }

  /** With unique keys, the row a lookup finds is the only row with its key. */
  lemma GetRideUnique(repo: Repo, id: Id, i: nat)
    requires RideKeysUnique(repo.rides) && i < |repo.rides| && repo.rides[i].id == id
    ensures GetRide(repo, id) == Some(repo.rides[i])
  {
    var k := FirstIndex(repo.rides, (x: Ride) => x.id == id);
    assert k.Some?;
  }

  /** With unique keys no ride row occurs twice. */
  lemma {:induction false} UniqueKeysNoRepeats(rides: seq<Ride>, x: Ride)
    requires RideKeysUnique(rides)
    ensures multiset(rides)[x] <= 1
    decreases |rides|
  {
    if |rides| > 0 {
      var init := rides[..|rides| - 1];
      assert rides == init + [rides[|rides| - 1]];
      UniqueKeysNoRepeats(init, x);
    }
  }

  /** Reordering rows keeps their keys unique. */
  lemma UniqueKeysPermutation(s: seq<Ride>, t: seq<Ride>)
    requires RideKeysUnique(s) && multiset(s) == multiset(t)
    ensures RideKeysUnique(t)
  {
    forall i, j | 0 <= i < j < |t| ensures t[i].id != t[j].id {
      if t[i] == t[j] {
        var x := t[j];
        assert t == t[..j] + [x] + t[j + 1..];
        assert x in multiset(t[..j]) by { assert t[..j][i] == x; }
        assert multiset(t)[x] >= 2;
        UniqueKeysNoRepeats(s, x);
      } else {
        assert t[i] in multiset(s) && t[j] in multiset(s);
        var a :| 0 <= a < |s| && s[a] == t[i];
        var b :| 0 <= b < |s| && s[b] == t[j];
        assert a != b;
      }
    }
  }

  /** A filter of rows with unique keys has unique keys. */
  lemma {:induction false} UniqueKeysFilter(p: Ride -> bool, s: seq<Ride>)
    requires RideKeysUnique(s)
    ensures RideKeysUnique(Filter(p, s))
    decreases |s|
  {
    if |s| > 0 {
      var init := s[..|s| - 1];
      UniqueKeysFilter(p, init);
      var f := Filter(p, init);
      forall i | 0 <= i < |f| ensures f[i].id != s[|s| - 1].id {
        var k :| 0 <= k < |init| && init[k] == f[i];
      }
    }
  }

  /** Every ride row is "full" exactly when it has no seats left. */
  predicate FullIffNoSeats(rides: seq<Ride>) {
    forall i :: 0 <= i < |rides| ==> (rides[i].status == FULL <==> rides[i].seatsAvailable == 0)
  }

  /** `updateRideSeats` keeps "full iff no seats left" for every ride,
      whichever status the addressed ride had before. */
  lemma UpdateRideSeatsKeepsFullIffNoSeats(repo: Repo, rideId: Id, seatsBooked: int)
    requires FullIffNoSeats(repo.rides)
    requires forall i :: 0 <= i < |repo.rides| ==> repo.rides[i].seatsAvailable >= 0
    ensures FullIffNoSeats(UpdateRideSeats(repo, rideId, seatsBooked).repo.rides)
  {
    var s := UpdateRideSeats(repo, rideId, seatsBooked);
    if s.result.Ok? {
      var old_ := GetRide(repo, rideId).value;
      var new_ := s.result.value;
      if new_.seatsAvailable > 0 && old_.status != FULL {
        assert new_.status != FULL;
      }
    }
  }

  /** `updateRideStatus` (the repository method): sets the status of the
      rows with key `rideId`; `None` when there is no such row. */
  function UpdateRideStatus(repo: Repo, rideId: Id, status: string): (r: (Option<Ride>, Repo))
    ensures r.0.Some? <==> GetRide(repo, rideId).Some?
    ensures r.0.Some? ==> r.0.value == GetRide(repo, rideId).value.(status := status)
    ensures r.1 == repo.(rides := r.1.rides) && |r.1.rides| == |repo.rides|
    ensures forall i :: 0 <= i < |repo.rides| ==>
      r.1.rides[i] == if repo.rides[i].id == rideId then repo.rides[i].(status := status) else repo.rides[i]
    ensures GetRide(r.1, rideId) == r.0
  {
    var rides' := seq(|repo.rides|, i requires 0 <= i < |repo.rides| =>
      if repo.rides[i].id == rideId then repo.rides[i].(status := status) else repo.rides[i]);
    FirstIndexAgrees(repo.rides, (x: Ride) => x.id == rideId, rides', (x: Ride) => x.id == rideId);
    match GetRide(repo, rideId)
    case None => (None, repo.(rides := rides'))
    case Some(ride) => (Some(ride.(status := status)), repo.(rides := rides'))
  }

  // ---------------------------------------------------------------------
  // Users.

  /** `createUser`: the columns the registration body leaves out take their
      defaults (no points yet, no emergency contact). */
  function CreateUser(repo: Repo, input: UserInput, now: Instant): (r: (User, Repo))
    ensures r.0.id == repo.nextUserId && r.0.username == input.username && r.0.email == input.email
    ensures r.0.points == Some(USER_POINTS_DEFAULT) && r.0.emergencyContactId.None?
    ensures r.1 == repo.(users := repo.users + [r.0], nextUserId := repo.nextUserId + 1)
  {
    var u := User(repo.nextUserId, input.username, input.email, input.fullName,
                  Some(ColumnValue(None, USER_POINTS_DEFAULT)), Some(now), None);
    (u, repo.(users := repo.users + [u], nextUserId := repo.nextUserId + 1))
  }

  /** While every stored key is below the serial counter, the new user is
      found under its key and every other user lookup is unchanged. */
  lemma CreateUserFindable(repo: Repo, input: UserInput, now: Instant, id: Id)
    requires forall i :: 0 <= i < |repo.users| ==> repo.users[i].id < repo.nextUserId
    ensures var (row, repo') := CreateUser(repo, input, now);
      && GetUser(repo', row.id) == Some(row)
      && (id != row.id ==> GetUser(repo', id) == GetUser(repo, id))
  {
    var (row, repo') := CreateUser(repo, input, now);
    FirstIndexAppend(repo.users, row, (x: User) => x.id == row.id);
    FirstIndexAppend(repo.users, row, (x: User) => x.id == id);
  }

  /** `updateUserPoints`: adds `delta` to the user's points, reading a
      missing value as 0. Without such a user nothing is written. */
  function UpdateUserPoints(repo: Repo, userId: Id, delta: int): (r: (Option<User>, Repo))
    ensures GetUser(repo, userId).None? ==> r == (None, repo)
    ensures GetUser(repo, userId).Some? ==>
      var before := GetUser(repo, userId).value;
      && r.0 == Some(before.(points := Some(before.points.GetOr(0) + delta)))
      && r.1 == repo.(users := r.1.users) && |r.1.users| == |repo.users|
      && forall i :: 0 <= i < |repo.users| ==>
           r.1.users[i] == if repo.users[i].id == userId
                           then repo.users[i].(points := Some(before.points.GetOr(0) + delta))
                           else repo.users[i]
    ensures r.0.Some? ==> GetUser(r.1, userId) == r.0
    ensures r.1.users == PointsTable(repo.users, userId, delta)
  {
    var users' := PointsTable(repo.users, userId, delta);
    match GetUser(repo, userId)
    case None => (None, repo)
    case Some(u) =>
      var u' := u.(points := Some(u.points.GetOr(0) + delta));
      assert forall i :: 0 <= i < |repo.users| ==>
        users'[i] == if repo.users[i].id == userId then repo.users[i].(points := u'.points) else repo.users[i];
      FirstIndexAgrees(repo.users, (x: User) => x.id == userId, users', (x: User) => x.id == userId);
      (Some(u'), repo.(users := users'))
  }

  /** The user table with `delta` added to the points of `userId`'s row. */
  function PointsTable(users: seq<User>, userId: Id, delta: int): seq<User> {
    match FirstIndex(users, (x: User) => x.id == userId)
    case None => users
    case Some(k) =>
      var current := users[k].points.GetOr(0);
      seq(|users|, i requires 0 <= i < |users| =>
        if users[i].id == userId then users[i].(points := Some(current + delta)) else users[i])
  }

  /** The points update reads and writes the user table only. */
  lemma UpdateUserPointsReadsUsers(a: Repo, b: Repo, userId: Id, delta: int)
    requires a.users == b.users
    ensures UpdateUserPoints(a, userId, delta).1.users == UpdateUserPoints(b, userId, delta).1.users
  {
  }

  /** After the points update the user is found with the new balance and the
      rest of the row as it was; a missing user stays missing. */
  lemma UpdateUserPointsLookup(repo: Repo, userId: Id, delta: int)
    ensures match GetUser(repo, userId)
      case Some(before) =>
        GetUser(UpdateUserPoints(repo, userId, delta).1, userId) == Some(before.(points := Some(before.points.GetOr(0) + delta)))
      case None => GetUser(UpdateUserPoints(repo, userId, delta).1, userId).None?
  {
  }

  /** Points of one user change; the lookup of every other user is as it was. */
  lemma UpdateUserPointsLeavesOtherUsers(repo: Repo, userId: Id, delta: int, other: Id)
    requires other != userId
    ensures GetUser(UpdateUserPoints(repo, userId, delta).1, other) == GetUser(repo, other)
  {
    var users' := UpdateUserPoints(repo, userId, delta).1.users;
    FirstIndexAgrees(repo.users, (x: User) => x.id == other, users', (x: User) => x.id == other);
  }

  /** Sets `emergencyContactId` on the user rows with key `userId`
      (`updateUserEmergencyContact`, and `updateUserProfile` with only that field). */
  function SetUserEmergencyContact(repo: Repo, userId: Id, contactId: Id): (r: Repo)
    ensures r == repo.(users := r.users) && |r.users| == |repo.users|
    ensures forall i :: 0 <= i < |repo.users| ==>
      r.users[i] == if repo.users[i].id == userId then repo.users[i].(emergencyContactId := Some(contactId)) else repo.users[i]
  {
    repo.(users := seq(|repo.users|, i requires 0 <= i < |repo.users| =>
      if repo.users[i].id == userId then repo.users[i].(emergencyContactId := Some(contactId)) else repo.users[i]))
  }

  // ---------------------------------------------------------------------
  // Inserts: each row gets the table's next serial key and `createdAt = now`.

  function CreateRide(repo: Repo, r: Ride, now: Instant): (out: (Ride, Repo))
    ensures out.0 == r.(id := repo.nextRideId, createdAt := now)
    ensures out.1 == repo.(rides := repo.rides + [out.0], nextRideId := repo.nextRideId + 1)
  {
    var row := r.(id := repo.nextRideId, createdAt := now);
    (row, repo.(rides := repo.rides + [row], nextRideId := repo.nextRideId + 1))
  }

  /** While every stored key is below the serial counter, the inserted ride
      is found under its new key and every earlier lookup is unchanged. */
  lemma CreateRideFindable(repo: Repo, r: Ride, now: Instant, id: Id)
    requires forall i :: 0 <= i < |repo.rides| ==> repo.rides[i].id < repo.nextRideId
    ensures var (row, repo') := CreateRide(repo, r, now);
      && GetRide(repo', row.id) == Some(row)
      && (id != row.id ==> GetRide(repo', id) == GetRide(repo, id))
  {
    var (row, repo') := CreateRide(repo, r, now);
    FirstIndexAppend(repo.rides, row, (x: Ride) => x.id == row.id);
    FirstIndexAppend(repo.rides, row, (x: Ride) => x.id == id);
  }

  /** `createBooking`: the insert fails, writing nothing, when the seat
      count does not fit its `integer` column. */
  function CreateBooking(repo: Repo, b: Booking, now: Instant): (s: Step<Booking>)
    ensures s.result.Ok? <==> IsInt4(b.seats)
    ensures s.result.Err? ==> s.result.error == OutOfRange(b.seats) && s.repo == repo
    ensures s.result.Ok? ==>
      && s.result.value == b.(id := repo.nextBookingId, createdAt := now)
      && s.repo == repo.(bookings := repo.bookings + [s.result.value], nextBookingId := repo.nextBookingId + 1)
  {
    if !IsInt4(b.seats) then Step(Err(OutOfRange(b.seats)), repo)
    else
      var row := b.(id := repo.nextBookingId, createdAt := now);
      Step(Ok(row), repo.(bookings := repo.bookings + [row], nextBookingId := repo.nextBookingId + 1))
  }

  function CreateMessage(repo: Repo, m: Message, now: Instant): (out: (Message, Repo))
    ensures out.0 == m.(id := repo.nextMessageId, createdAt := now)
    ensures out.1 == repo.(messages := repo.messages + [out.0], nextMessageId := repo.nextMessageId + 1)
  {
    var row := m.(id := repo.nextMessageId, createdAt := now);
    (row, repo.(messages := repo.messages + [row], nextMessageId := repo.nextMessageId + 1))
  }

  function CreateReward(repo: Repo, w: Reward, now: Instant): (out: (Reward, Repo))
    ensures out.0 == w.(id := repo.nextRewardId, createdAt := now)
    ensures out.1 == repo.(rewards := repo.rewards + [out.0], nextRewardId := repo.nextRewardId + 1)
  {
    var row := w.(id := repo.nextRewardId, createdAt := now);
    (row, repo.(rewards := repo.rewards + [row], nextRewardId := repo.nextRewardId + 1))
  }

  function CreateTrustedContact(repo: Repo, c: TrustedContact): (out: (TrustedContact, Repo))
    ensures out.0 == c.(id := repo.nextContactId)
    ensures out.1 == repo.(contacts := repo.contacts + [out.0], nextContactId := repo.nextContactId + 1)
  {
    var row := c.(id := repo.nextContactId);
    (row, repo.(contacts := repo.contacts + [row], nextContactId := repo.nextContactId + 1))
  }

  // ---------------------------------------------------------------------
  // Bookings.

  /** `updateBookingStatus`: only the status of the addressed booking rows changes. */
  function UpdateBookingStatus(repo: Repo, bookingId: Id, status: string): (r: (Option<Booking>, Repo))
    ensures r.0.Some? <==> exists i :: 0 <= i < |repo.bookings| && repo.bookings[i].id == bookingId
    ensures r.0.Some? ==> r.0.value.id == bookingId && r.0.value.status == status
    ensures r.0.Some? ==> r.0.value in r.1.bookings
    ensures r.1 == repo.(bookings := r.1.bookings) && |r.1.bookings| == |repo.bookings|
    ensures forall i :: 0 <= i < |repo.bookings| ==>
      r.1.bookings[i] == if repo.bookings[i].id == bookingId then repo.bookings[i].(status := status) else repo.bookings[i]
  {
    var bookings' := seq(|repo.bookings|, i requires 0 <= i < |repo.bookings| =>
      if repo.bookings[i].id == bookingId then repo.bookings[i].(status := status) else repo.bookings[i]);
    match FirstIndex(repo.bookings, (b: Booking) => b.id == bookingId)
    case None => (None, repo.(bookings := bookings'))
    case Some(k) =>
      assert bookings'[k] == repo.bookings[k].(status := status);
      (Some(repo.bookings[k].(status := status)), repo.(bookings := bookings'))
  }

  /** Setting a booking's status twice is setting it once. */
  lemma UpdateBookingStatusIdempotent(repo: Repo, bookingId: Id, status: string)
    ensures var once := UpdateBookingStatus(repo, bookingId, status).1;
      UpdateBookingStatus(once, bookingId, status).1 == once
  {
    var once := UpdateBookingStatus(repo, bookingId, status).1;
    var twice := UpdateBookingStatus(once, bookingId, status).1;
    assert twice.bookings == once.bookings;
  }

  function BookingCreated(b: Booking): int { b.createdAt }

  /** `listUserBookings`: the user's bookings, newest first. */
  function ListUserBookings(repo: Repo, userId: Id): (r: seq<Booking>)
    ensures Ordering.SortedDesc(r, BookingCreated)
    ensures multiset(r) == multiset(Filter((b: Booking) => b.userId == userId, repo.bookings))
    ensures forall b :: b in r <==> b in repo.bookings && b.userId == userId
  {
    var mine := Filter((b: Booking) => b.userId == userId, repo.bookings);
    var r := Ordering.SortDesc(mine, BookingCreated);
    assert forall b :: b in r <==> b in mine by {
      forall b ensures b in r <==> b in mine { Ordering.SortDescMembers(mine, BookingCreated, b); }
    }
    r
  }

  /** `listRideBookings`: every booking of the ride, each as often as it is
      stored. The query has no `ORDER BY`; the model lists them in storage order. */
  function ListRideBookings(repo: Repo, rideId: Id): (r: seq<Booking>)
    ensures forall b :: b in r <==> b in repo.bookings && b.rideId == rideId
    ensures forall b :: multiset(r)[b] == if b.rideId == rideId then multiset(repo.bookings)[b] else 0
  {
    var r := Filter((b: Booking) => b.rideId == rideId, repo.bookings);
    forall b ensures multiset(r)[b] == if b.rideId == rideId then multiset(repo.bookings)[b] else 0 {
      FilterCount((b: Booking) => b.rideId == rideId, repo.bookings, b);
    }
    r
  }

  // ---------------------------------------------------------------------
  // Rides.

  function RideCreated(r: Ride): int { r.createdAt }
  function RideDeparture(r: Ride): int { r.departureTime }

  /** `listRides`: every ride, newest first. */
  function ListRides(repo: Repo): (r: seq<Ride>)
    ensures Ordering.SortedDesc(r, RideCreated)
    ensures multiset(r) == multiset(repo.rides)
  {
    Ordering.SortDesc(repo.rides, RideCreated)
  }

  predicate IsDrivingRide(r: Ride, userId: Id) {
    r.driverId == userId && (r.status == PENDING || r.status == IN_PROGRESS)
  }

  /** `listUserDrivingRides`: the user's pending or in-progress rides as
      driver, latest departure first. */
  function ListUserDrivingRides(repo: Repo, userId: Id): (r: seq<Ride>)
    ensures Ordering.SortedDesc(r, RideDeparture)
    ensures multiset(r) == multiset(Filter((x: Ride) => IsDrivingRide(x, userId), repo.rides))
    ensures forall x :: x in r <==> x in repo.rides && x.driverId == userId && (x.status == PENDING || x.status == IN_PROGRESS)
  {
    var mine := Filter((x: Ride) => IsDrivingRide(x, userId), repo.rides);
    var r := Ordering.SortDesc(mine, RideDeparture);
    assert forall x :: x in r <==> x in mine by {
      forall x ensures x in r <==> x in mine { Ordering.SortDescMembers(mine, RideDeparture, x); }
    }
    r
  }

  /** The driving-ride list never holds a completed ride. */
  lemma DrivingRidesNeverCompleted(repo: Repo, userId: Id)
    ensures Filter((x: Ride) => x.status == COMPLETED, ListUserDrivingRides(repo, userId)) == []
  {
    var rs := ListUserDrivingRides(repo, userId);
    forall i | 0 <= i < |rs| ensures rs[i].status != COMPLETED {
      assert rs[i] in rs;
    }
    FilterNone((x: Ride) => x.status == COMPLETED, rs);
  }

  // ---------------------------------------------------------------------
  // Messages.

  function MessageCreated(m: Message): int { m.createdAt }

  /** `listUserMessages`: messages the user sent or received, newest first. */
  function ListUserMessages(repo: Repo, userId: Id): (r: seq<Message>)
    ensures Ordering.SortedDesc(r, MessageCreated)
    ensures forall m :: m in r <==> m in repo.messages && (m.senderId == userId || m.receiverId == userId)
    ensures forall m ::
      multiset(r)[m] == (if m.senderId == userId || m.receiverId == userId then multiset(repo.messages)[m] else 0)
  {
    var mine := Filter((m: Message) => m.senderId == userId || m.receiverId == userId, repo.messages);
    var r := Ordering.SortDesc(mine, MessageCreated);
    assert forall m :: m in r <==> m in mine by {
      forall m ensures m in r <==> m in mine { Ordering.SortDescMembers(mine, MessageCreated, m); }
    }
    forall m ensures multiset(r)[m] == if m.senderId == userId || m.receiverId == userId then multiset(repo.messages)[m] else 0 {
      FilterCount((m: Message) => m.senderId == userId || m.receiverId == userId, repo.messages, m);
    }
    r
  }

  /** `markMessageAsRead`: only `isRead` of the addressed message rows changes. */
  function MarkMessageAsRead(repo: Repo, messageId: Id): (r: (Option<Message>, Repo))
    ensures r.0.Some? <==> exists i :: 0 <= i < |repo.messages| && repo.messages[i].id == messageId
    ensures r.0.Some? ==> r.0.value.id == messageId && r.0.value.isRead
    ensures r.1 == repo.(messages := r.1.messages) && |r.1.messages| == |repo.messages|
    ensures forall i :: 0 <= i < |repo.messages| ==>
      r.1.messages[i] == if repo.messages[i].id == messageId then repo.messages[i].(isRead := true) else repo.messages[i]
  {
    var messages' := seq(|repo.messages|, i requires 0 <= i < |repo.messages| =>
      if repo.messages[i].id == messageId then repo.messages[i].(isRead := true) else repo.messages[i]);
    match FirstIndex(repo.messages, (m: Message) => m.id == messageId)
    case None => (None, repo.(messages := messages'))
    case Some(k) => (Some(repo.messages[k].(isRead := true)), repo.(messages := messages'))
  }

  /** Marking a message read twice is marking it once. */
  lemma MarkMessageAsReadIdempotent(repo: Repo, messageId: Id)
    ensures var once := MarkMessageAsRead(repo, messageId).1;
      MarkMessageAsRead(once, messageId).1 == once
  {
    var once := MarkMessageAsRead(repo, messageId).1;
    var twice := MarkMessageAsRead(once, messageId).1;
    assert twice.messages == once.messages;
  }

  predicate IsUnreadFor(m: Message, userId: Id) {
    m.receiverId == userId && !m.isRead
  }

  /** No message is unread for the user exactly when the filter of unread
      messages is empty. */
  lemma NoUnreadIff(ms: seq<Message>, userId: Id)
    ensures |Filter((m: Message) => IsUnreadFor(m, userId), ms)| == 0 <==>
      forall m :: m in ms ==> !IsUnreadFor(m, userId)
  {
    var unread := Filter((m: Message) => IsUnreadFor(m, userId), ms);
    if |unread| > 0 {
      assert unread[0] in ms && IsUnreadFor(unread[0], userId);
    } else {
      forall m | m in ms
        ensures !IsUnreadFor(m, userId)
      {
        var j :| 0 <= j < |ms| && ms[j] == m;
      }
    }
  }

  /** The number of unread messages addressed to the user. */
  method CountUnread(repo: Repo, userId: Id) returns (n: nat)
    ensures n == |Filter((m: Message) => IsUnreadFor(m, userId), repo.messages)|
  {
    n := 0;
    var i := 0;
    while i < |repo.messages|
      invariant 0 <= i <= |repo.messages|
      invariant n == |Filter((m: Message) => IsUnreadFor(m, userId), repo.messages[..i])|
    {
      assert repo.messages[..i + 1][..i] == repo.messages[..i];
      if IsUnreadFor(repo.messages[i], userId) {
        n := n + 1;
      }
      i := i + 1;
    }
    assert repo.messages[..i] == repo.messages;
  }

  /** `getUnreadMessageCount`: the number of unread messages addressed to the
      user. PostgreSQL's `count(*)` is a bigint, which the driver hands back
      as its decimal text, and the `sql<number>` annotation does not convert
      it; so the count leaves storage as that text. Text is never empty, so
      the `|| 0` fallback never applies, even to "0". */
  method GetUnreadMessageCount(repo: Repo, userId: Id) returns (count: string)
    ensures count == NatToString(|Filter((m: Message) => IsUnreadFor(m, userId), repo.messages)|)
    ensures count == "0" <==> forall m :: m in repo.messages ==> !IsUnreadFor(m, userId)
  {
    var n := CountUnread(repo, userId);
    NatToStringZero(n);
    NoUnreadIff(repo.messages, userId);
    count := NatToString(n);
  }

  /** Marking a message read lowers the receiver's unread count by one when
      it was unread and addressed to them, and leaves every count unchanged
      otherwise (message keys assumed unique). */
  lemma {:induction false} MarkAsReadUnreadCount(ms: seq<Message>, k: nat, userId: Id)
    requires k < |ms|
    requires forall j :: 0 <= j < |ms| && j != k ==> ms[j].id != ms[k].id
    ensures
      var ms' := seq(|ms|, i requires 0 <= i < |ms| => if ms[i].id == ms[k].id then ms[i].(isRead := true) else ms[i]);
      |Filter((m: Message) => IsUnreadFor(m, userId), ms)|
        == |Filter((m: Message) => IsUnreadFor(m, userId), ms')| + (if IsUnreadFor(ms[k], userId) then 1 else 0)
  {
    var ms' := seq(|ms|, i requires 0 <= i < |ms| => if ms[i].id == ms[k].id then ms[i].(isRead := true) else ms[i]);
    var p := (m: Message) => IsUnreadFor(m, userId);
    assert ms == ms[..k] + [ms[k]] + ms[k + 1..];
    assert ms' == ms[..k] + [ms[k].(isRead := true)] + ms[k + 1..];
    FilterAppend(p, ms[..k] + [ms[k]], ms[k + 1..]);
    FilterAppend(p, ms[..k], [ms[k]]);
    FilterAppend(p, ms[..k] + [ms[k].(isRead := true)], ms[k + 1..]);
    FilterAppend(p, ms[..k], [ms[k].(isRead := true)]);
    assert Filter(p, [ms[k].(isRead := true)]) == [];
  }

  /** `markMessageAsRead` on the stored table: the receiver's unread count
      drops by one when the message was unread and addressed to them, and no
      other count moves (message keys assumed unique). */
  lemma MarkMessageAsReadUnreadCount(repo: Repo, k: nat, userId: Id)
    requires k < |repo.messages|
    requires forall j :: 0 <= j < |repo.messages| && j != k ==> repo.messages[j].id != repo.messages[k].id
    ensures
      var after := MarkMessageAsRead(repo, repo.messages[k].id).1;
      |Filter((m: Message) => IsUnreadFor(m, userId), repo.messages)|
        == |Filter((m: Message) => IsUnreadFor(m, userId), after.messages)| + (if IsUnreadFor(repo.messages[k], userId) then 1 else 0)
  {
    var ms := repo.messages;
    MarkAsReadUnreadCount(ms, k, userId);
    var ms' := seq(|ms|, i requires 0 <= i < |ms| => if ms[i].id == ms[k].id then ms[i].(isRead := true) else ms[i]);
    assert MarkMessageAsRead(repo, ms[k].id).1.messages == ms';
  }

  // ---------------------------------------------------------------------
  // Rewards and trusted contacts.

  function RewardCreated(w: Reward): int { w.createdAt }

  /** `listUserRewards`: the user's rewards, newest first. */
  function ListUserRewards(repo: Repo, userId: Id): (r: seq<Reward>)
    ensures Ordering.SortedDesc(r, RewardCreated)
    ensures multiset(r) == multiset(Filter((w: Reward) => w.userId == userId, repo.rewards))
  {
    Ordering.SortDesc(Filter((w: Reward) => w.userId == userId, repo.rewards), RewardCreated)
  }

  /** The user's trusted contacts, in storage order. */
  function ListUserTrustedContacts(repo: Repo, userId: Id): (r: seq<TrustedContact>)
    ensures forall c :: c in r <==> c in repo.contacts && c.userId == userId
    ensures forall c :: multiset(r)[c] == if c.userId == userId then multiset(repo.contacts)[c] else 0
  {
    var r := Filter((c: TrustedContact) => c.userId == userId, repo.contacts);
    forall c ensures multiset(r)[c] == if c.userId == userId then multiset(repo.contacts)[c] else 0 {
      FilterCount((c: TrustedContact) => c.userId == userId, repo.contacts, c);
    }
    r
  }

  /** `updateTrustedContact` with only the emergency flag: the flag of the
      contact rows with key `contactId` changes, nothing else. */
  function SetContactEmergency(repo: Repo, contactId: Id, flag: bool): (r: Repo)
    ensures r == repo.(contacts := r.contacts) && |r.contacts| == |repo.contacts|
    ensures forall i :: 0 <= i < |repo.contacts| ==>
      r.contacts[i] == if repo.contacts[i].id == contactId then repo.contacts[i].(isEmergencyContact := flag) else repo.contacts[i]
  {
    repo.(contacts := seq(|repo.contacts|, i requires 0 <= i < |repo.contacts| =>
      if repo.contacts[i].id == contactId then repo.contacts[i].(isEmergencyContact := flag) else repo.contacts[i]))
  }
}

=== FILE: tracking.dfy ===
/** The live-tracking page of a ride: the state update it applies to each
    WebSocket event, the subscription frame it sends on connect, and which
    controls it shows. */
module RideTracking {
  import opened Common
  import opened Schema
  import opened Events

  datatype Location = Location(latitude: real, longitude: real, updatedAt: string)

  /** The ride as the page holds it (the `RideDetails` interface). */
  datatype RideDetails = RideDetails(
    id: Id,
    origin: string,
    destination: string,
    departureTime: string,
    driverName: string,
    driverId: Id,
    carModel: Option<string>,
    carColor: Option<string>,
    licensePlate: Option<string>,
    status: string,
    estimatedArrival: string,
    currentLocation: Option<Location>,
    progress: real,
    distance: string,
    duration: string,
    passengerCount: int)

  /** A parsed event: its `type` and the payload fields the page may read. */
  datatype TrackingEvent = TrackingEvent(
    kind: string,
    rideId: Option<Id>,
    location: Option<Location>,
    progress: real,
    eta: string,
    duration: string,
    status: string)

  /** The fields no event changes. */
  function Fixed(d: RideDetails): (Id, string, string, string, string, Id, string, int) {
    (d.id, d.origin, d.destination, d.departureTime, d.driverName, d.driverId, d.distance, d.passengerCount)
  }

  /** `socket.onmessage` as a state update. Location events set the position
      and progress, ETA events the arrival time and duration, status events
      the status; nothing else changes, and before the details have loaded
      nothing happens at all. */
  function OnEvent(prev: Option<RideDetails>, e: TrackingEvent): (r: Option<RideDetails>)
    ensures prev.None? ==> r.None?
    ensures prev.Some? ==>
      && r.Some? && Fixed(r.value) == Fixed(prev.value)
      && r.value.carModel == prev.value.carModel && r.value.carColor == prev.value.carColor
      && r.value.licensePlate == prev.value.licensePlate
    ensures e.kind != "location_update" && e.kind != "eta_update" && e.kind != "ride_status" ==> r == prev
    ensures prev.Some? && e.kind == "location_update" ==>
      && r.value.currentLocation == e.location && r.value.progress == e.progress
      && r.value.status == prev.value.status && r.value.estimatedArrival == prev.value.estimatedArrival
      && r.value.duration == prev.value.duration
    ensures prev.Some? && e.kind == "eta_update" ==>
      && r.value.estimatedArrival == e.eta && r.value.duration == e.duration
      && r.value.status == prev.value.status && r.value.currentLocation == prev.value.currentLocation
      && r.value.progress == prev.value.progress
    ensures prev.Some? && e.kind == "ride_status" ==>
      && r.value.status == e.status
      && r.value.currentLocation == prev.value.currentLocation && r.value.progress == prev.value.progress
      && r.value.estimatedArrival == prev.value.estimatedArrival && r.value.duration == prev.value.duration
  {
    match prev
    case None => None
    case Some(d) =>
      if e.kind == "location_update" then Some(d.(currentLocation := e.location, progress := e.progress))
      else if e.kind == "eta_update" then Some(d.(estimatedArrival := e.eta, duration := e.duration))
      else if e.kind == "ride_status" then Some(d.(status := e.status))
      else prev
  }

  /** Applying the same event twice is applying it once. */
  lemma OnEventIdempotent(prev: Option<RideDetails>, e: TrackingEvent)
    ensures OnEvent(OnEvent(prev, e), e) == OnEvent(prev, e)
  {
  }

  /** Events of one kind overwrite each other: the later one wins. */
  lemma OnEventLastWins(prev: Option<RideDetails>, a: TrackingEvent, b: TrackingEvent)
    requires a.kind == b.kind
    ensures OnEvent(OnEvent(prev, a), b) == OnEvent(prev, b)
  {
  }

  /** Events of different kinds touch disjoint fields, so their order does
      not matter. */
  lemma OnEventCommutes(prev: Option<RideDetails>, a: TrackingEvent, b: TrackingEvent)
    requires a.kind != b.kind
    ensures OnEvent(OnEvent(prev, a), b) == OnEvent(OnEvent(prev, b), a)
  {
  }

  /** The page applies an event whatever ride it names: the update does not
      depend on the event's `rideId`, so a status event about another ride
      changes the status shown. */
  lemma EventIgnoresRide(prev: Option<RideDetails>, e: TrackingEvent, other: Option<Id>)
    ensures OnEvent(prev, e.(rideId := other)) == OnEvent(prev, e)
  {
  }

  /** The frame sent when the socket opens. */
  function SubscribeFrame(rideId: Id, user: Option<Id>): (f: ClientFrame)
    ensures f.kind == "subscribe" && f.userId == user
    ensures f.channel.Some? && StartsWith(f.channel.value, "ride_")
  {
    ClientFrame("subscribe", Some("ride_" + IntToString(rideId)), user)
  }

  /** The server stores the subscription on the connection, so the frames a
      signed-in, open page's connection receives are those sent to every
      signed-in open connection; its channel is recorded but never consulted. */
  lemma SubscribeRegisters(c: Client, rideId: Id, user: Id)
    requires c.readyState == Open && user != 0
    ensures var s := OnClientFrame(c, SubscribeFrame(rideId, Some(user)));
      && s.channel == Some("ride_" + IntToString(rideId)) && s.userId == Some(user)
      && s.readyState == Open && s.userId.Some? && s.userId.value != 0
  {
  }

  /** The "Start Ride" button: the driver, on a pending ride. */
  predicate ShowStartRide(isDriver: bool, d: RideDetails) {
    isDriver && d.status == PENDING
  }

  /** The contact and emergency controls: an in-progress ride. */
  predicate ShowEmergencyControls(d: RideDetails) {
    d.status == IN_PROGRESS
  }

  /** The two never show together, and a status event to "in_progress"
      swaps the start button for the emergency controls. */
  lemma ControlsExclusive(isDriver: bool, d: RideDetails, e: TrackingEvent)
    ensures !(ShowStartRide(isDriver, d) && ShowEmergencyControls(d))
    ensures e.kind == "ride_status" && e.status == IN_PROGRESS ==>
      var r := OnEvent(Some(d), e).value;
      !ShowStartRide(isDriver, r) && ShowEmergencyControls(r)
  {
  }
}
